=== FILE: README.md ===
# Ujjwal Bharat marketplace backend: a Dafny model of its state transitions

The backend is an Express/Mongoose service for a multi-vendor marketplace. Most of
it is CRUD glue. This project models the handlers whose logic is a real state
transition. Each one becomes a pure function over the documents it reads and
writes, and returns a `Result` or an HTTP status with the new state:

- the user's cart (`addToCart`, `updateCartItem`, `removeFromCart`, the `getCart`
  total), the wallet top-up and the wallet-paid `checkoutCart`;
- the recently-viewed list, the wishlist toggle, order cancellation requests, and
  the page arithmetic of `getOrderHistory` and `getUsers`;
- the admin authorisation decision `checkPermission`, the admin permission schema
  with its `super_admin` pre-save hook, and the guarded admin handlers:
  `approveVendor`, `updateOrderStatus`, `deleteCategory`, and the create, update
  and delete handlers for subcategories;
- the vendor handlers: registration status, availability, the rating fold, the
  performance metrics, and the best-seller ranking;
- the product handlers: stock status, price history, related products, and the
  frequently-bought-together ranking.

Money is an `int` in minor units. The vendor rating average is an exact `real`
rather than a float. A database id is a map key, or a position in an append-only
sequence for orders and transactions. A handler that would create a document
takes its fresh id as a parameter.

Two Mongoose behaviours are modelling assumptions, and no single Mongoose release
has both. A key whose value is `undefined` is removed from an update document, so
an absent request field leaves the stored value as it was; that is the default
from Mongoose 7 on. `document.remove()` deletes the document; Mongoose 7 removed
that method. "## Left out" says what the other releases do instead. Validators
run before the lookup only where the handler passes `runValidators`.

Modules, one per file: `Common` (Result/Option and sequence helpers),
`Cart`, `Ledger`, `Orders`, `Checkout`, `UserLists`, `Pagination`,
`Permissions`, `Admin`, `Vendors`, `Products` and `Ranking`.

## Model

| member | source | states |
|---|---|---|
| Cart.TotalOf | controllers/userController.js:845-847 | Σ live price × quantity over the lines. It is never negative while every price and quantity is not. |
| Cart.CartTotal | controllers/userController.js:845-847 | The total exists exactly when every line's product still exists, and it is then Σ live price × quantity over the lines (TotalOf). A dangling line is the TypeError the reduce throws. An empty cart totals 0. |
| Cart.GetCartTotal | controllers/userController.js:832-862 | No cart gives 404 'Cart not found'. A priced cart gives exactly its live total. A line whose product is gone fails. |
| Cart.FindLine | controllers/userController.js:886-888 | `findIndex`: None exactly when no line has the product; otherwise the first matching line's position. |
| Cart.AddLine | controllers/userController.js:886-894 | A new product is appended as the last line. An existing one keeps the same lines, in the same product order. |
| Cart.AddToCart | controllers/userController.js:866-909 | 404 exactly when the product is unknown. The quantity defaults to 1. A user without a cart gets a one-line cart. Otherwise it is AddLine. |
| Cart.AddLineQuantities | controllers/userController.js:886-894 | Afterwards the cart holds exactly q more units of p and the same quantity of every other product. One line per product is kept. |
| Cart.AddLineTotal | controllers/userController.js:886-894 | Adding q units of a catalogued product raises the cart total by exactly price × q. |
| Cart.AddToCartAcceptsNonPositive | controllers/userController.js:868 | The quantity is not validated: a zero or negative quantity is accepted and does not raise the product's quantity. |
| Cart.UpdateCartItem | controllers/userController.js:913-956 | No cart gives 404. A product not in the cart gives 'Item not found in cart'. An absent quantity fails validation. q ≤ 0 removes one line. Otherwise the same lines hold the same products. |
| Cart.UpdateCartItemQuantities | controllers/userController.js:938-942 | On a cart with one line per product, p's quantity becomes q, or 0 with the line gone when q ≤ 0. Every other product is untouched and one line per product is kept. |
| Cart.WithoutProduct | controllers/userController.js:972-974 | `filter`: no line for p remains, and the result is never longer than the cart. |
| Cart.WithoutProductLength | controllers/userController.js:972-974 | The filter drops exactly as many lines as p occurs in the cart. |
| Cart.RemoveFromCart | controllers/userController.js:960-988 | No cart is the only failure. The result holds no line for p, is a subsequence of the cart (relative order kept), and is shorter by exactly the number of p's lines, so every line of another product is kept. An absent p changes nothing. |
| Cart.RemoveFromCartQuantities | controllers/userController.js:972-974 | None of p remains, and every other product keeps its quantity. |
| Cart.RemoveFromCartIdempotent | controllers/userController.js:972-974 | Removing twice equals removing once. |
| Cart.RemoveFromCartTotal | controllers/userController.js:972-974 | The total drops by p's price times the quantity of p the cart held. |
| Checkout.Snapshot | controllers/userController.js:1042-1046 | One order line per cart line, in cart order, carrying the live price. |
| Checkout.SnapshotTotal | controllers/userController.js:1027 | The snapshot's Σ price × quantity equals the cart's live total. |
| Checkout.Guard | controllers/userController.js:997-1033 | Each rejection holds exactly when the earlier tests pass and its own fails, in the code's order: empty or missing cart, missing wallet, unknown address, dangling product, balance below total. Success carries the total. |
| Checkout.CheckoutCart | controllers/userController.js:992-1096 | It fails exactly when the guard does, with the guard's error and no new state. On success it has the whole effect (see CheckoutEffect): balance − total ≥ 0; one COMPLETED DEBIT of the total linked to the new order, its id appended to the wallet; a Paid/WALLET/Processing order snapshotting the cart, with no vendor, no cancellation reason and no comments; the cart emptied; nothing else changed. |
| Checkout.CheckoutKeepsWalletConsistent | controllers/userController.js:1061-1075 | A wallet whose balance is the signed sum of its transactions stays so after checkout. The debit equals the order total and is the transaction appended to the ledger. |
| Checkout.CheckoutKeepsOrderTotals | controllers/userController.js:1039-1059 | If every stored order's total is the sum of its lines, that remains true after checkout. |
| Checkout.CheckoutExampleSucceeds | controllers/userController.js:1026-1079 | A wallet of 500 and two units at 200: the order is 400, 100 remains, one debit of 400 is recorded, and the cart is empty. |
| Checkout.CheckoutExampleRefused | controllers/userController.js:1026-1033 | A wallet of 100 against a total of 400 is refused with the insufficient-balance error. |
| Ledger.NewUserWallet | controllers/userController.js:41-46 | The registration wallet (balance 0, no transactions) is consistent with every ledger. |
| Ledger.AppendKeepsConsistent | controllers/userController.js:770-779 | Appending a transaction and listing its id moves the balance by exactly its signed amount and keeps the wallet consistent. |
| Ledger.Post | controllers/userController.js:1062-1075 | The ledger grows by the transaction. The wallet lists the new id and moves by the signed amount. Consistency is kept. |
| Ledger.AddMoneyToWalletAsWritten | controllers/userController.js:746-794 | An absent or non-positive amount gives 400. With no wallet, creation fails schema validation: 500, nothing written. An existing wallet is credited. |
| Ledger.AddMoneyToWallet | controllers/userController.js:746-794 | Fails exactly on an invalid amount. On both paths the ledger gains one COMPLETED CREDIT of the amount, listed in the wallet. The balance grows by the amount, or a user wallet holding the amount is created. |
| Ledger.AddMoneyKeepsConsistent | controllers/userController.js:757-779 | A valid top-up succeeds and leaves a consistent wallet, created or existing. |
| Ledger.AddMoneyNewWalletDiscrepancy | controllers/userController.js:759-764 | With no wallet, the handler as written refuses a top-up of 500 that the corrected handler accepts with balance 500. |
| Ledger.AddMoneyAgreeOnExistingWallet | controllers/userController.js:765-767 | On an existing wallet, the as-written and corrected handlers agree. |
| Orders.RequestOrderCancellation | controllers/userController.js:1130-1165 | 404 for an order that is missing or belongs to someone else. 400 unless the status is PENDING or PROCESSING. Otherwise only that order changes, and in it only the cancellation flag, now set, and the reason: the given one, or 'No reason provided'. |
| Orders.CancellationNeverSucceeds | controllers/userController.js:1144 | With `order.status` absent, or set to any deliveryStatus enum value, every request is refused. |
| UserLists.AddToRecentlyViewedAsWritten | controllers/userController.js:287-320 | The handler as written: it fails, storing nothing, exactly when the user document has no `recentlyViewed` list, which is every stored user. With a list it computes AddToRecentlyViewed. |
| UserLists.RecentlyViewedDiscrepancy | controllers/userController.js:293-297 | On a stored user the handler as written fails, while the intended logic puts the product first. |
| UserLists.AddToRecentlyViewed | controllers/userController.js:293-306 | The list logic the handler intends: p comes first and exactly once, the length is between 1 and 10, and the rest is the first nine earlier views without p, as a subsequence. |
| UserLists.RecentlyViewedKeepsRecent | controllers/userController.js:293-306 | Position i+1 holds the i-th earlier view other than p, for each of the first nine. |
| UserLists.RecentlyViewedIdempotent | controllers/userController.js:293-306 | Viewing the same product twice in a row equals viewing it once. |
| UserLists.RecentlyViewedNoDuplicates | controllers/userController.js:293-301 | A duplicate-free list stays duplicate-free. |
| UserLists.ToggleWishlist | controllers/userController.js:324-348 | A missing wishlist fails (the handler throws). An absent p is appended. A present p has its first occurrence spliced out: the result is the part before it followed by the part after it, so one fewer p and every other entry kept in order. |
| UserLists.ToggleWishlistFlips | controllers/userController.js:329-334 | On a duplicate-free wishlist, p's membership flips, every other product's count is unchanged, and the list stays duplicate-free. |
| UserLists.ToggleWishlistTwice | controllers/userController.js:329-334 | Toggling an absent product twice restores the wishlist. |
| Pagination.ParamOr | controllers/userController.js:229-230 | `parseInt(x) \|\| d`: NaN or 0 falls back to the default, and any other value is kept. A non-zero default never yields 0. |
| Pagination.ParseQuery | controllers/userController.js:471-472 | Page and limit are never 0. |
| Pagination.CeilDiv | controllers/userController.js:247 | `Math.ceil(total / limit)`, stated as the bracketing inequalities for both signs of limit. |
| Pagination.PageLinks | controllers/userController.js:484-495 | For a positive page and limit, `next` (page+1) appears exactly when the page comes before the page count that getOrderHistory reports (Math.ceil of total / limit), and `prev` (page−1) exactly when the page is not the first, so it names a page ≥ 1. |
| Pagination.LinksAgreeWithPageCount | controllers/userController.js:471-495 | For a positive page and limit, endIndex < total exactly when page < Math.ceil(total / limit), and startIndex > 0 exactly when page > 1. |
| Pagination.PageItems | controllers/userController.js:235-239 | `skip(start).limit(limit)` returns min(limit, records − start) records when start is inside the list, and none otherwise; item j is record start + j, so none lies past the end. |
| Pagination.PagesPartitionRecords | controllers/userController.js:231-239 | Record i is item i mod limit of page i/limit+1, and that page is within the page count. |
| Permissions.ParseRole | models/adminModel.js:20-24 | An absent role is 'admin'. A given role is accepted exactly when it is one of the three enum spellings, and stored as that spelling. |
| Permissions.ParseRoleName | models/adminModel.js:20-24 | Every role reads back as itself after being stored. |
| Permissions.Lookup | controllers/adminController.js:17 | `permissions[entity][action]` is truthy only for a declared group flag, and never for analytics. |
| Permissions.CheckPermission | controllers/adminController.js:15-18 | A super admin always passes. Anyone else passes only a declared group flag, and with every flag set passes exactly the declared pairs. |
| Permissions.SuperAdminAlwaysPermitted | controllers/adminController.js:15-16 | A super admin passes any entity and any action. |
| Permissions.PermittedOnlyDeclaredPairs | controllers/adminController.js:15-18 | Any other role passes only a declared group flag of the schema. |
| Permissions.NonSuperFollowsFlags | controllers/adminController.js:17 | For any other role, each of the 20 declared pairs passes exactly when its own flag is true. |
| Permissions.AnalyticsDeniedToNonSuper | controllers/adminController.js:275 | `checkPermission(admin, 'analytics', true)` passes exactly for a super admin, whatever the scalar flag says. |
| Permissions.SubcategoriesDeniedToNonSuper | controllers/adminController.js:233 | The undeclared `subcategories` entity passes exactly for a super admin. |
| Permissions.DefaultsGrantReadOnly | models/adminModel.js:25-57 | With the default table, a non-super admin passes exactly 'read' on the five groups. |
| Permissions.NormalizeOnSave | models/adminModel.js:77-99 | A super admin gets every declared flag and analytics set. Any other admin is saved unchanged. The id and role are kept. |
| Permissions.NormalizeOnSaveKeepsDecisions | models/adminModel.js:77-99 | The hook is idempotent and never changes a checkPermission decision. |
| Permissions.FullTableStillDeniesAnalytics | models/adminModel.js:56 | Even with every flag set, a non-super admin is refused analytics but passes every declared pair. |
| Admin.Guard | controllers/adminController.js:145 | Each handler asks `checkPermission` for a declared group flag, or for analytics (with action `true`) or subcategories, which the table has no group for. |
| Admin.SuperAdminOnlyHandlers | controllers/adminController.js:15-18 | A handler is super-admin-only exactly when its guard names an undeclared pair; such handlers admit exactly super admins. Every other handler admits a full table. |
| Admin.DefaultsAdmitOnlyListings | models/adminModel.js:25-57 | With the default table, a non-super admin gets past exactly getAllUsers, getAllProducts and getAllOrders. |
| Admin.ApproveVendor | controllers/adminController.js:143-180 | 403 before anything else; then 404 for an unknown vendor. Otherwise only that vendor changes: Approved, active, comments replaced when given, ratings kept. |
| Admin.ApproveMatchesRegistrationUpdate | controllers/adminController.js:152-158 | Approval equals the vendor handler's registration update with status 'Approved', and repeating it changes nothing. |
| Admin.UpdateOrderStatus | controllers/adminController.js:404-447 | 403, then 404. Otherwise only that order changes: deliveryStatus becomes the given string (kept when absent), and exactly one comment by the admin is appended. |
| Admin.UpdateOrderStatusAll | controllers/adminController.js:404-447 | A run of status requests changes only that order and nothing else in the store; refused requests change nothing. |
| Admin.CommentsAreAppendOnly | controllers/adminController.js:418-424 | After n admitted updates, the thread is the old thread followed by the n comments in request order. |
| Admin.ProductsInCategory | controllers/adminController.js:712 | The count is 0 exactly when no product references the category. |
| Admin.DeleteCategory | controllers/adminController.js:693-733 | 403, then 404 for a missing category, then 400 while any product references it. 200 exactly otherwise, with only that category removed. |
| Admin.DeleteCategoryKeepsProductCategories | controllers/adminController.js:711-718 | Every product's category still exists afterwards. |
| Admin.DeleteCategoryLeavesSubcategoriesDangling | controllers/adminController.js:720 | On a consistent store, a deleted category's subcategories stay behind, referencing a category that no longer exists. |
| Admin.CreateSubCategory | controllers/adminController.js:231-269 | 403, then 400 for a missing field or a taken name. 201 exactly when the category exists: the subcategory is stored and appended to its category's list. 404 otherwise, with the subcategory already stored. |
| Admin.CreateSubCategoryConsistency | controllers/adminController.js:240-255 | 201, 400 and 403 keep the store consistent. A 404 leaves an orphan subcategory. |
| Admin.Pull | controllers/adminController.js:665-669 | `$pull` removes every occurrence from one existing category's list and touches nothing else. |
| Admin.AddToSet | controllers/adminController.js:672-676 | `$addToSet` appends the id only when it is absent, so the id is in the list afterwards and nothing else changes. |
| Admin.RewriteSubCategory | controllers/adminController.js:649-660 | Fails exactly for an unknown id or a name another subcategory uses. Absent fields keep their stored value. |
| Admin.UpdateSubCategoryAsWritten | controllers/adminController.js:636-690 | 403 first. With a category given, the `$pull` hits the new category, then `$addToSet` adds to it. |
| Admin.UpdateSubCategoryLeavesStaleEntry | controllers/adminController.js:662-669 | As written, moving a subcategory of a consistent store leaves it listed under the previous category, so the store is inconsistent. |
| Admin.UpdateSubCategory | controllers/adminController.js:636-690 | 403, 404, then 400 for a taken name. 200 exactly otherwise: only that subcategory is rewritten. With a category given, it leaves its previous category's list and is added once to the new one. |
| Admin.UpdateSubCategoryKeepsConsistency | controllers/adminController.js:662-677 | A move to an existing category keeps the store consistent, and the new category lists the subcategory exactly once. |
| Admin.DeleteSubCategory | controllers/adminController.js:735-776 | 403, then 404. Otherwise the subcategory is pulled from its category's list and removed, and nothing else changes. |
| Admin.DeleteSubCategoryKeepsConsistency | controllers/adminController.js:755-763 | Consistency is kept, and no list mentions the deleted id. |
| Admin.SubcategoryHandlersRefuseOthers | controllers/adminController.js:233-238 | For any non-super admin, all three subcategory handlers answer 403 with the store unchanged. |
| Vendors.ParseRegStatus | models/vendorModel.js:47 | Accepts exactly Pending, Approved and Rejected, each stored as spelled. |
| Vendors.ParseRegStatusName | models/vendorModel.js:47 | Every stored status reads back as itself. |
| Vendors.UpdateRegistrationStatus | controllers/vendorController.js:178-212 | A status outside the enum gives 400 before the lookup, then 404. Otherwise only that vendor changes: status, comments, and isActive ⇔ Approved. |
| Vendors.RegistrationActiveIffApproved | controllers/vendorController.js:184-188 | After an update that names a status, the vendor is active exactly when it is approved. With the status absent, the vendor is deactivated and its stored status kept. |
| Vendors.UpdateAvailabilityStatus | controllers/vendorController.js:403-434 | 404 exactly for an unknown vendor. Otherwise the stored vendors are unchanged, because the vendor schema has neither field. |
| Vendors.Rate | controllers/vendorController.js:248-251 | One more review, and newAverage × newCount = oldAverage × oldCount + rating. |
| Vendors.UpdateVendorRatings | controllers/vendorController.js:235-265 | 404 for an unknown vendor, checked first. A body without a rating (a NaN average) or a new average outside [0, 5] fails save validation (400). Otherwise only that vendor's ratings are folded. |
| Vendors.RateStaysInRange | controllers/vendorController.js:248-253 | A rating in [0, 5] folded into an average in [0, 5] is always accepted. |
| Vendors.RateAllIsMean | controllers/vendorController.js:248-251 | Folding ratings one request at a time keeps average × count = initial weight + Σ ratings. |
| Vendors.NewVendorAverageIsMean | controllers/vendorController.js:248-251 | From no reviews, the count is the number of ratings and the average is their mean. |
| Vendors.VendorOrders | controllers/vendorController.js:380 | Exactly the vendor's orders: every selected order is the vendor's, every order of the vendor is selected, and the selection keeps store order. |
| Vendors.VendorOrdersCounts | controllers/vendorController.js:380 | The selection keeps every copy: each order of the vendor occurs in it as often as in the store, and no other order occurs. |
| Vendors.VendorOrdersIgnoreOthers | controllers/vendorController.js:380 | Another vendor's order does not change the vendor's selection. |
| Vendors.Mean | controllers/vendorController.js:385-387 | 0 when there is nothing to average; otherwise mean × count = sum. |
| Vendors.PerformanceMetrics | controllers/vendorController.js:376-400 | totalOrders is the vendor's order count and totalRevenue is Σ totalAmount. averageOrderValue is 0 without orders, and otherwise average × count = revenue. |
| Vendors.Summarize | controllers/vendorController.js:382-388 | Over the found orders: totalOrders is their number, totalRevenue the sum of their totals, and averageOrderValue is 0 without orders and otherwise average × count = revenue. |
| Vendors.SumTotals | controllers/vendorController.js:384 | The loop computes Σ totalAmount over the orders. |
| Products.StatusFor | controllers/productController.js:219 | The status is Active exactly when stock > 0, and is never Inactive. |
| Products.StatusForAbsent | controllers/productController.js:219 | `stock > 0 ? 'Active' : 'Out of Stock'` with stock possibly absent: Active exactly when a positive stock is given. |
| Products.UpdateProductStockAsWritten | controllers/productController.js:211-244 | Negative stock fails validation first, then 404. Otherwise only that product changes: a given stock is stored, an absent one kept, and the status is Active exactly when a positive stock was given. |
| Products.UpdateProductStock | controllers/productController.js:211-244 | The corrected handler: an absent or negative stock fails validation first, then 404. Otherwise only that product changes: the stock and the status it implies. |
| Products.StockUpdateAgreesWhenGiven | controllers/productController.js:213-225 | With a stock in the request, the as-written and corrected handlers agree. |
| Products.StockUpdateWithoutStockDiscrepancy | controllers/productController.js:213-225 | Without a stock, on an in-stock product, the handler as written succeeds and leaves status and stock disagreeing; the corrected handler refuses. |
| Products.StockUpdateEstablishesAgreement | controllers/productController.js:215-220 | After the corrected update, status and stock agree, and repeating the update changes nothing. |
| Products.UpdatePriceHistory | controllers/productController.js:374-407 | 404 for an unknown product. An absent price fails validation. Otherwise only that product changes, and in it only the price and the history: its previous price is appended to the history and the new price is set. |
| Products.RepriceKeepsEveryPrice | controllers/productController.js:388-393 | After a run of price changes, the history is the original history followed by every price but the last, in order, and the price is the last one. |
| Products.FindAfterUpdate | controllers/productController.js:388-395 | A price change keeps the product where the lookup finds it. |
| Products.RelatedCandidates | controllers/productController.js:303-308 | Exactly the catalog products related to p, in natural order. |
| Products.GetRelatedProducts | controllers/productController.js:292-321 | 404 exactly for an unknown id. Otherwise the first min(5, matches) products the query matches, in catalog order: exactly the leading part of RelatedCandidates. Never the product itself, each sharing the category or a tag. |
| Products.RelatedSymmetric | controllers/productController.js:303-308 | If q is related to p, then p is related to q. |
| Ranking.GroupBy | controllers/vendorController.js:511-517 | One group per key of the entries, with distinct keys, each holding the sums over that key's entries. |
| Ranking.SortByCount | controllers/vendorController.js:518 | A permutation of the groups, sorted by count, largest first. |
| Ranking.Top | controllers/vendorController.js:518-519 | The first min(n, size) groups by count: sorted, a sub-multiset, and nothing left out outranks anything kept. |
| Ranking.DropKey | controllers/productController.js:423 | Exactly the groups whose key differs, as a sub-multiset. |
| Ranking.BestSellingProducts | controllers/vendorController.js:508-520 | At most 10 products, by units sold descending, with distinct keys. Each product's units and revenue are sums over the vendor's lines. A product left out sold no more than any listed, and only when 10 are listed. |
| Ranking.BestSellingProductsAsWritten | controllers/vendorController.js:508-520 | As written, the ranking is always empty. |
| Ranking.BestSellersAsWrittenAlwaysEmpty | controllers/vendorController.js:509 | As written, the uncast `$match` selects no order. |
| Ranking.BestSellersDiscrepancy | controllers/vendorController.js:508-520 | For an order of the vendor with one line, the cast query ranks that product with its units and revenue; as written, nothing is ranked. |
| Ranking.FrequentlyBoughtTogether | controllers/productController.js:414-426 | At most 5 products other than p, by co-occurrence descending, with distinct keys. Each count is the number of lines naming it in orders containing p. A product left out occurs no more often than any listed. |
| Ranking.FrequentlyBoughtTogetherAsWritten | controllers/productController.js:414-426 | As written, the ranking is always empty. |
| Ranking.TogetherAsWrittenAlwaysEmpty | controllers/productController.js:415 | As written, the uncast `$match` selects no order. |
| Ranking.DropKeyAsWrittenKeepsAll | controllers/productController.js:423 | The uncast `$ne` stage drops nothing. |
| Ranking.HalfCastKeepsQueried | controllers/productController.js:423 | Casting only the first stage would rank p beside itself. |
| Ranking.TogetherDiscrepancy | controllers/productController.js:414-426 | For an order with p and one other product, the cast query ranks the other product once; as written, nothing is ranked. |
| Ranking.TogetherResponseAsWritten | controllers/productController.js:428-429 | `find({_id: {$in}})`: the ranked products in catalog order, as a subsequence of the catalog, with every ranked product in the catalog included. |
| Ranking.TogetherResponse | controllers/productController.js:428-429 | At most one product per ranked id; each is a catalog product whose id is ranked. |
| Ranking.TogetherResponseInRankOrder | controllers/productController.js:428-429 | The response ids are a subsequence of the ranked keys, and equal to them when every ranked id is in the catalog. |
| Ranking.TogetherResponseOrderDiscrepancy | controllers/productController.js:428-429 | With catalog [A, B] ranked [B, A], the response as written is [A, B]; in rank order it is [B, A]. |

## Left out

- Database I/O, `populate`, aggregation execution and response shaping: each handler is a function over the documents it touches.
- Express routing, `index.js`, and the authentication middleware's JWT decoding: the authenticated user or admin is a parameter.
- bcrypt hashing, password matching and JWT signing (login, registration, password update): these call foreign cryptographic libraries.
- `Date.now()` order numbers, timestamps, `viewedAt` and login history: they depend on the clock. Order-number uniqueness rests on a database index.
- ObjectId generation: modelled as a fresh id parameter (`Admin.Fresh`), or as the next position of the order or transaction sequence.
- Floating point: the vendor average is an exact rational, and the product rating average in `addReview` is not modelled.
- Concurrency: checkout is one atomic step, as the source has neither a transaction nor a conditional update. There is no idempotency key.
- `checkoutCart` checks the wallet before the address, and the model keeps that order. `addToCart` does not validate the quantity, and the model accepts any quantity (`Cart.AddToCartAcceptsNonPositive`).
- The total of a cart whose line names a deleted product: `item.product.price` on null throws, so the handler answers 500. This is modelled as its own error (`Cart.DanglingProduct`, `Checkout.ProductGone`).
- Non-numeric request values (a string quantity or amount, a non-boolean `isAvailable` other than through its truthiness): the model takes typed values.
- Pagination.PageItems: only a positive limit and a non-negative skip are modelled. MongoDB's treatment of a negative `skip` or `limit` is not.
- Ranking.SortByCount: ties are ordered by this insertion sort. MongoDB's `$sort` leaves the order of equal counts unspecified, so the contracts never depend on it.
- Permissions.Lookup: JavaScript prototype properties (`permissions['constructor']`) are not modelled; every undeclared name is `undefined`.
- `getWallet` creates a wallet with `user` instead of `owner`, and `deleteAddress` reads `addresses` instead of `address`. These field-name mismatches are not modelled.
- The `Wishlist` schema is not modelled. The wishlist is modelled as the product list the handler manipulates.
- `addToRecentlyViewed` reads a `recentlyViewed` path that models/userModel.js does not declare, so every call as written throws and answers 500 (`UserLists.AddToRecentlyViewedAsWritten`). `UserLists.AddToRecentlyViewed` is the intended list logic, as if the path were declared.
- Vendors.UpdateAvailabilityStatus: `isAvailable` and `unavailabilityReason` are not in the vendor schema, so the update stores nothing. The handler meant to store the truthiness of `isAvailable`, and to clear the reason (null) when the vendor is available and store the supplied reason otherwise; that intended update is not modelled.
- Admin handlers other than those named above (`getAllUsers`, `updateUser`, `getAllProducts`, `createCategory`, `updateCategory`, `updateProductStatus`, `bulkUpdateProducts`, `getAllOrders` and the five analytics handlers) are modelled only through their permission guard (`Admin.Guard`). Their bodies are queries or plain field writes.
- Category and subcategory descriptions and images, product attributes, search, reviews, business hours, delivery areas and inventory: these have no state-transition logic.
- Search regexes and schema e-mail regexes are not modelled.
- Mongoose 6 and earlier, where `findByIdAndUpdate` stores an `undefined` field as null instead of dropping it. An absent field would then be cleared, not kept: the comments in `Admin.ApproveVendor`, the status and comment in `Admin.UpdateOrderStatus`, the name or category in `Admin.RewriteSubCategory`, and the status or comments in `Vendors.UpdateRegistrationStatus`. In `updateProductStock` a null stock fails the `required` validator, giving 400, which is what `Products.UpdateProductStock` does.
- Mongoose 7 and later, where `document.remove()` no longer exists. There `deleteCategory` and `deleteSubCategory` throw at that call, and their catch blocks answer 400 ('Could not delete category', 'Could not delete subcategory') without deleting. In `deleteSubCategory` the `$pull` from the category's list has already run by then.
- Admin.UpdateSubCategoryAsWritten: only the 403 path and the categories after a 200 with a category are stated. The rest equals Admin.UpdateSubCategory, which shares `RewriteSubCategory` with it.

## Findings

| source | as written | input that shows it | evidently intended | confidence | as-written member | corrected member |
|---|---|---|---|---|---|---|
| controllers/userController.js:759-764 | a user without a wallet gets `Wallet.create({ user, balance, transactions })`, which omits the required `owner` and `ownerModel`, so creation fails validation and the handler answers 500 | no wallet, amount 500 | a user wallet is created holding the amount, and the credit is recorded | not executed | Ledger.AddMoneyToWalletAsWritten, Ledger.AddMoneyNewWalletDiscrepancy | Ledger.AddMoneyToWallet, Ledger.AddMoneyKeepsConsistent |
| controllers/vendorController.js:509 | `Order.aggregate` does not cast, so `$match: { vendor: vendorId }` compares a string with stored ObjectIds and matches nothing | an order of the vendor with one line | that line's product is ranked with its units and revenue | not executed | Ranking.BestSellingProductsAsWritten, Ranking.BestSellersDiscrepancy | Ranking.BestSellingProducts |
| controllers/productController.js:415 | the uncast `$match: { 'products.product': productId }` matches no order; and the uncast `$ne` stage at line 423 would keep the product itself | an order holding p and one other product | the other product is ranked once, and p is not | not executed | Ranking.FrequentlyBoughtTogetherAsWritten, Ranking.TogetherDiscrepancy, Ranking.HalfCastKeepsQueried | Ranking.FrequentlyBoughtTogether |
| controllers/productController.js:428-429 | `Product.find({ _id: { $in: ids } })` returns the products in natural order, losing the ranking | catalog [A, B], ranking [B, A] | products in ranking order | not executed | Ranking.TogetherResponseAsWritten, Ranking.TogetherResponseOrderDiscrepancy | Ranking.TogetherResponse, Ranking.TogetherResponseInRankOrder |
| controllers/productController.js:213-220 | with no `stock` in the body, the key is dropped from the update but the status is still computed from `undefined > 0`, so the product is marked 'Out of Stock' with its stock kept, and the answer is 200 | an in-stock product and an empty body | a missing stock is refused, as the schema's 'Product stock is required' rule says | not executed | Products.UpdateProductStockAsWritten, Products.StockUpdateWithoutStockDiscrepancy | Products.UpdateProductStock, Products.StockUpdateEstablishesAgreement |
| controllers/userController.js:293 | `user.recentlyViewed` is undefined, because the user schema declares no such path, so `filter` throws and every call answers 500 | any user, any product | the product is put first in the user's recently-viewed list | not executed | UserLists.AddToRecentlyViewedAsWritten, UserLists.RecentlyViewedDiscrepancy | UserLists.AddToRecentlyViewed, UserLists.RecentlyViewedIdempotent |
| controllers/adminController.js:649-669 | the subcategory is re-read with `new: true`, so `$pull` targets the new category and the previous one keeps listing it | a consistent store, with a subcategory moved to another existing category | the subcategory leaves its previous category's list | not executed | Admin.UpdateSubCategoryAsWritten, Admin.UpdateSubCategoryLeavesStaleEntry | Admin.UpdateSubCategory, Admin.UpdateSubCategoryKeepsConsistency |

=== FILE: admin.dfy ===
/** The guarded admin handlers of controllers/adminController.js: which permission
    each handler asks for, and the state changes of `approveVendor`,
    `updateOrderStatus`, `deleteCategory` and the three subcategory handlers. Every
    handler answers with an HTTP status and the store after the request; a denied
    permission check answers 403 before anything is read or written. */
module Admin {
  import opened Common
  import opened Permissions
  import Vendors
  import Orders
  import Products

  type CategoryId = string
  type SubCategoryId = string

  /** A category and the ids its `subcategories` array lists (description and
      image are not modelled). */
  datatype Category = Category(name: string, subcategories: seq<SubCategoryId>)

  /** A subcategory and the category it references. */
  datatype SubCategory = SubCategory(name: string, category: CategoryId)

  /** The collections the admin handlers touch. Orders are identified by their
      position, the other documents by their key. */
  datatype Store = Store(
    vendors: map<Vendors.VendorId, Vendors.Vendor>,
    orders: seq<Orders.Order>,
    products: seq<Products.Product>,
    categories: map<CategoryId, Category>,
    subcategories: map<SubCategoryId, SubCategory>)

  /** The HTTP status of the response and the store after the request. */
  datatype Reply = Reply(status: int, store: Store)

  // ---- which permission each handler asks for ----

  datatype Handler =
    | GetAllUsers | UpdateUserHandler | ApproveVendorHandler | GetAllProducts
    | CreateCategory | CreateSubCategoryHandler | GetAnalytics | GetAllOrders
    | UpdateProductStatus | BulkUpdateProducts | UpdateOrderStatusHandler
    | GetOrderAnalytics | GetUserAnalytics | GetVendorAnalytics | GetInventoryAnalytics
    | UpdateCategory | UpdateSubCategoryHandler | DeleteCategoryHandler | DeleteSubCategoryHandler

  /** The (entity, action) each handler passes to `checkPermission`: a declared group
      flag, or one of the two entities the table has no group for (the analytics
      call sites passing the action `true`). */
  function Guard(h: Handler): (g: (string, string))
    ensures g in SchemaPairs || g.0 in {"analytics", "subcategories"}
    ensures g.0 == "analytics" ==> g.1 == AnalyticsAction
  {
    match h
    case GetAllUsers => ("users", "read")
    case UpdateUserHandler => ("users", "update")
    case ApproveVendorHandler => ("vendors", "approve")
    case GetAllProducts => ("products", "read")
    case CreateCategory => ("categories", "create")
    case CreateSubCategoryHandler => ("subcategories", "create")
    case GetAnalytics => ("analytics", AnalyticsAction)
    case GetAllOrders => ("orders", "read")
    case UpdateProductStatus => ("products", "update")
    case BulkUpdateProducts => ("products", "update")
    case UpdateOrderStatusHandler => ("orders", "update")
    case GetOrderAnalytics => ("analytics", AnalyticsAction)
    case GetUserAnalytics => ("analytics", AnalyticsAction)
    case GetVendorAnalytics => ("analytics", AnalyticsAction)
    case GetInventoryAnalytics => ("analytics", AnalyticsAction)
    case UpdateCategory => ("categories", "update")
    case UpdateSubCategoryHandler => ("subcategories", "update")
    case DeleteCategoryHandler => ("categories", "delete")
    case DeleteSubCategoryHandler => ("subcategories", "delete")
  }

  /** The handler lets the admin past its permission check. */
  predicate Admits(admin: Admin, h: Handler) {
    CheckPermission(admin, Guard(h).0, Guard(h).1)
  }

  /** The analytics and subcategory handlers: those asking about something the
      permission table has no group flag for. */
  predicate SuperAdminOnly(h: Handler) {
    h in {CreateSubCategoryHandler, UpdateSubCategoryHandler, DeleteSubCategoryHandler,
          GetAnalytics, GetOrderAnalytics, GetUserAnalytics, GetVendorAnalytics, GetInventoryAnalytics}
  }

  /** A handler is closed to everyone but super admins exactly when it asks about
      something outside the declared group flags; every other handler is open to an
      admin whose table sets its flag. */
  lemma SuperAdminOnlyHandlers(admin: Admin, h: Handler)
    ensures SuperAdminOnly(h) <==> Guard(h) !in SchemaPairs
    ensures SuperAdminOnly(h) ==> (Admits(admin, h) <==> admin.role == SuperAdmin)
    ensures !SuperAdminOnly(h) && admin.permissions == FullPermissions ==> Admits(admin, h)
  {
  }

  /** With the schema's default table, an admin or moderator gets past exactly the
      three listing handlers. */
  lemma DefaultsAdmitOnlyListings(admin: Admin, h: Handler)
    requires admin.role != SuperAdmin && admin.permissions == DefaultPermissions
    ensures Admits(admin, h) <==> h in {GetAllUsers, GetAllProducts, GetAllOrders}
  {
    DefaultsGrantReadOnly(admin, Guard(h).0, Guard(h).1);
  }

  // ---- approveVendor ----

  /** `approveVendor`: 403 without `vendors.approve`; 404 for an unknown vendor;
      otherwise the vendor is approved and activated, with the request's comments
      when it carries some. */
  function ApproveVendor(st: Store, admin: Admin, id: Vendors.VendorId, comments: Option<string>): (r: Reply)
    ensures !Admits(admin, ApproveVendorHandler) ==> r == Reply(403, st)
    ensures Admits(admin, ApproveVendorHandler) && id !in st.vendors ==> r == Reply(404, st)
    ensures r.status == 200 <==> Admits(admin, ApproveVendorHandler) && id in st.vendors
    ensures r.status == 200 ==>
              r.store == st.(vendors := r.store.vendors) &&
              r.store.vendors.Keys == st.vendors.Keys &&
              (forall k :: k in st.vendors && k != id ==> r.store.vendors[k] == st.vendors[k]) &&
              r.store.vendors[id].registrationStatus == Vendors.Approved &&
              r.store.vendors[id].isActive &&
              r.store.vendors[id].registrationComments == (if comments.Some? then comments else st.vendors[id].registrationComments) &&
              r.store.vendors[id].ratings == st.vendors[id].ratings
  {
    if !CheckPermission(admin, "vendors", "approve") then Reply(403, st)
    else if id !in st.vendors then Reply(404, st)
    else
      var v := st.vendors[id];
      var v' := v.(registrationStatus := Vendors.Approved, isActive := true,
                   registrationComments := if comments.Some? then comments else v.registrationComments);
      Reply(200, st.(vendors := st.vendors[id := v']))
  }

  /** Approving does what the vendor handler's registration update does with status
      'Approved', so the vendor ends active exactly because it is approved; and a
      second approval with the same comments changes nothing. */
  lemma ApproveMatchesRegistrationUpdate(st: Store, admin: Admin, id: Vendors.VendorId, comments: Option<string>)
    requires ApproveVendor(st, admin, id, comments).status == 200
    ensures Vendors.UpdateRegistrationStatus(st.vendors, id, Some("Approved"), comments)
              == Success(ApproveVendor(st, admin, id, comments).store.vendors)
    ensures var st' := ApproveVendor(st, admin, id, comments).store;
            ApproveVendor(st', admin, id, comments) == Reply(200, st')
  {
    var vs := Vendors.UpdateRegistrationStatus(st.vendors, id, Some("Approved"), comments).value;
    var ws := ApproveVendor(st, admin, id, comments).store.vendors;
    assert vs.Keys == ws.Keys;
    assert vs[id] == ws[id];
  }

  // ---- updateOrderStatus ----

  /** `updateOrderStatus`: 403 without `orders.update`; 404 for an unknown order;
      otherwise the delivery status is set to the requested one (unvalidated; left
      as it was when the request has none) and exactly one comment by the admin is
      appended. */
  function UpdateOrderStatus(st: Store, admin: Admin, id: Orders.OrderId, status: Option<string>, comments: Option<string>): (r: Reply)
    ensures !Admits(admin, UpdateOrderStatusHandler) ==> r == Reply(403, st)
    ensures Admits(admin, UpdateOrderStatusHandler) && id >= |st.orders| ==> r == Reply(404, st)
    ensures r.status == 200 <==> Admits(admin, UpdateOrderStatusHandler) && id < |st.orders|
    ensures r.status == 200 ==>
              var o := st.orders[id];
              r.store == st.(orders := r.store.orders) &&
              |r.store.orders| == |st.orders| &&
              (forall k :: 0 <= k < |st.orders| && k != id ==> r.store.orders[k] == st.orders[k]) &&
              r.store.orders[id].deliveryStatus == status.GetOr(o.deliveryStatus) &&
              r.store.orders[id].comments == o.comments + [Orders.Comment(admin.id, comments)] &&
              r.store.orders[id] == o.(deliveryStatus := r.store.orders[id].deliveryStatus,
                                       comments := r.store.orders[id].comments)
  {
    if !CheckPermission(admin, "orders", "update") then Reply(403, st)
    else if id >= |st.orders| then Reply(404, st)
    else
      var o := st.orders[id];
      var o' := o.(deliveryStatus := status.GetOr(o.deliveryStatus),
                   comments := o.comments + [Orders.Comment(admin.id, comments)]);
      Reply(200, st.(orders := st.orders[id := o']))
  }

  /** Applies status updates one request after another. */
  function UpdateOrderStatusAll(st: Store, admin: Admin, id: Orders.OrderId, updates: seq<(Option<string>, Option<string>)>): (r: Store)
    ensures |r.orders| == |st.orders|
    ensures r == st.(orders := r.orders)
    ensures forall k :: 0 <= k < |st.orders| && k != id ==> r.orders[k] == st.orders[k]
    ensures !Admits(admin, UpdateOrderStatusHandler) || id >= |st.orders| ==> r == st
  {
    if |updates| == 0 then st
    else
      var before := UpdateOrderStatusAll(st, admin, id, updates[..|updates| - 1]);
      var u := updates[|updates| - 1];
      UpdateOrderStatus(before, admin, id, u.0, u.1).store
  }

  /** The comment thread is an append-only log: after `n` admitted updates of an
      existing order it holds the earlier thread followed by one comment per
      update, in request order. */
  lemma {:induction false} CommentsAreAppendOnly(st: Store, admin: Admin, id: Orders.OrderId, updates: seq<(Option<string>, Option<string>)>)
    requires Admits(admin, UpdateOrderStatusHandler) && id < |st.orders|
    ensures var o := UpdateOrderStatusAll(st, admin, id, updates).orders[id];
            |o.comments| == |st.orders[id].comments| + |updates| &&
            o.comments[..|st.orders[id].comments|] == st.orders[id].comments &&
            forall k :: 0 <= k < |updates| ==>
              o.comments[|st.orders[id].comments| + k] == Orders.Comment(admin.id, updates[k].1)
  {
    if |updates| > 0 {
      var n := |updates|;
      var m := |st.orders[id].comments|;
      CommentsAreAppendOnly(st, admin, id, updates[..n - 1]);
      var before := UpdateOrderStatusAll(st, admin, id, updates[..n - 1]);
      var c := before.orders[id].comments;
      var c' := UpdateOrderStatusAll(st, admin, id, updates).orders[id].comments;
      assert c' == c + [Orders.Comment(admin.id, updates[n - 1].1)];
      assert c'[..m] == c[..m];
      forall k | 0 <= k < n
        ensures c'[m + k] == Orders.Comment(admin.id, updates[k].1)
      {
        if k < n - 1 {
          assert updates[..n - 1][k] == updates[k];
        }
      }
    }
  }

  // ---- categories and subcategories ----

  /** Every listed subcategory exists and references the category listing it. */
  predicate ListedAreMembers(st: Store) {
    forall c, s :: c in st.categories && s in st.categories[c].subcategories ==>
      s in st.subcategories && st.subcategories[s].category == c
  }

  /** Every subcategory references an existing category, which lists it. */
  predicate MembersAreListed(st: Store) {
    forall s :: s in st.subcategories ==>
      st.subcategories[s].category in st.categories &&
      s in st.categories[st.subcategories[s].category].subcategories
  }

  /** Categories and subcategories agree in both directions. */
  predicate Consistent(st: Store) {
    ListedAreMembers(st) && MembersAreListed(st)
  }

  /** Every product's category exists. */
  predicate ProductCategoriesExist(st: Store) {
    forall i :: 0 <= i < |st.products| && st.products[i].category.Some? ==>
      st.products[i].category.value in st.categories
  }

  /** `Product.countDocuments({ category: id })`. */
  function ProductsInCategory(ps: seq<Products.Product>, id: CategoryId): (n: nat)
    ensures n == 0 <==> forall i :: 0 <= i < |ps| ==> ps[i].category != Some(id)
    ensures n <= |ps|
  {
    if |ps| == 0 then 0
    else (if ps[0].category == Some(id) then 1 else 0) + ProductsInCategory(ps[1..], id)
  }

  /** `deleteCategory`: 403 without `categories.delete`; 404 for an unknown category;
      400 while any product references it; otherwise the category alone is
      removed, its subcategories staying behind. */
  function DeleteCategory(st: Store, admin: Admin, id: CategoryId): (r: Reply)
    ensures !Admits(admin, DeleteCategoryHandler) ==> r == Reply(403, st)
    ensures Admits(admin, DeleteCategoryHandler) && id !in st.categories ==> r == Reply(404, st)
    ensures (Admits(admin, DeleteCategoryHandler) && id in st.categories &&
             exists i :: 0 <= i < |st.products| && st.products[i].category == Some(id)) ==> r == Reply(400, st)
    ensures r.status == 200 <==>
              Admits(admin, DeleteCategoryHandler) && id in st.categories &&
              forall i :: 0 <= i < |st.products| ==> st.products[i].category != Some(id)
    ensures r.status == 200 ==> r.store == st.(categories := st.categories - {id})
  {
    if !CheckPermission(admin, "categories", "delete") then Reply(403, st)
    else if id !in st.categories then Reply(404, st)
    else if ProductsInCategory(st.products, id) > 0 then Reply(400, st)
    else Reply(200, st.(categories := st.categories - {id}))
  }

  /** The product guard keeps every product's category in existence. */
  lemma DeleteCategoryKeepsProductCategories(st: Store, admin: Admin, id: CategoryId)
    requires ProductCategoriesExist(st)
    ensures ProductCategoriesExist(DeleteCategory(st, admin, id).store)
  {
  }

  /** Nothing guards the subcategories: deleting a category that has one leaves it
      referencing a category that no longer exists, while the listing direction
      still holds. */
  lemma DeleteCategoryLeavesSubcategoriesDangling(st: Store, admin: Admin, id: CategoryId, s: SubCategoryId)
    requires Consistent(st)
    requires DeleteCategory(st, admin, id).status == 200
    requires s in st.subcategories && st.subcategories[s].category == id
    ensures var st' := DeleteCategory(st, admin, id).store;
            s in st'.subcategories && st'.subcategories[s].category !in st'.categories &&
            ListedAreMembers(st') && !MembersAreListed(st')
  {
  }

  /** The subcategory `id` is not mentioned anywhere yet, as a freshly generated
      ObjectId is not. */
  predicate Fresh(st: Store, id: SubCategoryId) {
    id !in st.subcategories &&
    forall c :: c in st.categories ==> id !in st.categories[c].subcategories
  }

  /** Another subcategory already uses `name` (the unique index on `name`). */
  predicate NameTaken(st: Store, name: string, except: Option<SubCategoryId>) {
    exists s :: s in st.subcategories && Some(s) != except && st.subcategories[s].name == name
  }

  /** `createSubCategory`: 403 without the (never granted) `subcategories.create`;
      400 when the name or category is missing or the name is taken; otherwise the
      subcategory is stored under the fresh id `newId`, and then appended to its
      category's list, or, when that category does not exist, answered with 404
      while the new subcategory stays stored. */
  function CreateSubCategory(st: Store, admin: Admin, newId: SubCategoryId, name: Option<string>, category: Option<CategoryId>): (r: Reply)
    requires Fresh(st, newId)
    ensures !Admits(admin, CreateSubCategoryHandler) ==> r == Reply(403, st)
    ensures Admits(admin, CreateSubCategoryHandler) && (name.None? || category.None?) ==> r == Reply(400, st)
    ensures Admits(admin, CreateSubCategoryHandler) && name.Some? && NameTaken(st, name.value, None) ==> r == Reply(400, st)
    ensures r.status == 201 || r.status == 404 ==>
              name.Some? && category.Some? &&
              r.store.subcategories == st.subcategories[newId := SubCategory(name.value, category.value)] &&
              r.store == st.(subcategories := r.store.subcategories, categories := r.store.categories)
    ensures r.status == 201 <==>
              Admits(admin, CreateSubCategoryHandler) && name.Some? && category.Some? &&
              !NameTaken(st, name.value, None) && category.value in st.categories
    ensures r.status == 201 ==>
              r.store.categories == st.categories[category.value :=
                st.categories[category.value].(subcategories := st.categories[category.value].subcategories + [newId])]
    ensures r.status == 404 ==> r.store.categories == st.categories && category.value !in st.categories
  {
    if !CheckPermission(admin, "subcategories", "create") then Reply(403, st)
    else if name.None? || category.None? || NameTaken(st, name.value, None) then Reply(400, st)
    else
      var subs := st.subcategories[newId := SubCategory(name.value, category.value)];
      var c := category.value;
      if c !in st.categories then Reply(404, st.(subcategories := subs))
      else
        var cats := st.categories[c := st.categories[c].(subcategories := st.categories[c].subcategories + [newId])];
        Reply(201, st.(subcategories := subs, categories := cats))
  }

  /** A 201 keeps the categories and subcategories consistent; a 404 leaves the new
      subcategory referencing a category that does not exist. */
  lemma CreateSubCategoryConsistency(st: Store, admin: Admin, newId: SubCategoryId, name: Option<string>, category: Option<CategoryId>)
    requires Fresh(st, newId) && Consistent(st)
    ensures var r := CreateSubCategory(st, admin, newId, name, category);
            (r.status == 201 || r.status == 403 || r.status == 400 ==> Consistent(r.store)) &&
            (r.status == 404 ==> ListedAreMembers(r.store) && !MembersAreListed(r.store))
  {
    var r := CreateSubCategory(st, admin, newId, name, category);
    if r.status == 201 {
      var c := category.value;
      var st' := r.store;
      forall c', s | c' in st'.categories && s in st'.categories[c'].subcategories
        ensures s in st'.subcategories && st'.subcategories[s].category == c'
      {
        if s != newId {
          assert c' == c ==> s in st.categories[c].subcategories;
        }
      }
    } else if r.status == 404 {
      assert newId in r.store.subcategories;
    }
  }

  /** `$pull`: every occurrence of `s` leaves category `c`'s list, when `c` exists. */
  function Pull(cats: map<CategoryId, Category>, c: CategoryId, s: SubCategoryId): (r: map<CategoryId, Category>)
    ensures r.Keys == cats.Keys
    ensures forall k :: k in cats && k != c ==> r[k] == cats[k]
    ensures c in cats ==> r[c].name == cats[c].name && r[c].subcategories == Without(cats[c].subcategories, s)
  {
    if c in cats then cats[c := cats[c].(subcategories := Without(cats[c].subcategories, s))] else cats
  }

  /** `$addToSet`: `s` is appended to category `c`'s list unless already there, when
      `c` exists. */
  function AddToSet(cats: map<CategoryId, Category>, c: CategoryId, s: SubCategoryId): (r: map<CategoryId, Category>)
    ensures r.Keys == cats.Keys
    ensures forall k :: k in cats && k != c ==> r[k] == cats[k]
    ensures c in cats ==> r[c].name == cats[c].name && s in r[c].subcategories &&
                          forall t :: t in r[c].subcategories <==> t in cats[c].subcategories || t == s
    ensures c in cats && s !in cats[c].subcategories ==> r[c].subcategories == cats[c].subcategories + [s]
    ensures c in cats && s in cats[c].subcategories ==> r == cats
  {
    if c in cats && s !in cats[c].subcategories then cats[c := cats[c].(subcategories := cats[c].subcategories + [s])]
    else cats
  }

  /** The fields of the update document: absent ones are left out of it, and
      the unique-name rule and the 404 come first. Shared by both versions of
      `updateSubCategory` below. */
  function RewriteSubCategory(st: Store, id: SubCategoryId, name: Option<string>, category: Option<CategoryId>): (r: Option<SubCategory>)
    ensures r.Some? <==> id in st.subcategories && !(name.Some? && NameTaken(st, name.value, Some(id)))
    ensures r.Some? ==> r.value.name == name.GetOr(st.subcategories[id].name) &&
                        r.value.category == category.GetOr(st.subcategories[id].category)
  {
    if id !in st.subcategories then None
    else if name.Some? && NameTaken(st, name.value, Some(id)) then None
    else
      var sc := st.subcategories[id];
      Some(SubCategory(name.GetOr(sc.name), category.GetOr(sc.category)))
  }

  /** `updateSubCategory` as written: the subcategory is re-read after the update, so
      the `$pull` meant for the previous category targets the new one, and the previous
      category keeps listing the subcategory. */
  function UpdateSubCategoryAsWritten(st: Store, admin: Admin, id: SubCategoryId, name: Option<string>, category: Option<CategoryId>): (r: Reply)
    ensures !Admits(admin, UpdateSubCategoryHandler) ==> r == Reply(403, st)
    ensures r.status == 200 && category.Some? ==> r.store.categories == AddToSet(Pull(st.categories, category.value, id), category.value, id)
  {
    if !CheckPermission(admin, "subcategories", "update") then Reply(403, st)
    else if id !in st.subcategories then Reply(404, st)
    else match RewriteSubCategory(st, id, name, category)
      case None => Reply(400, st)
      case Some(sc) =>
        var subs := st.subcategories[id := sc];
        if category.None? then Reply(200, st.(subcategories := subs))
        else
          var target := sc.category;  // the re-read document already holds the new category
          var cats := AddToSet(Pull(st.categories, target, id), category.value, id);
          Reply(200, st.(subcategories := subs, categories := cats))
  }

  /** Moving a subcategory of a consistent store to another existing category: as
      written, the category it left still lists it afterwards, so the store is no
      longer consistent. */
  lemma UpdateSubCategoryLeavesStaleEntry(st: Store, admin: Admin, id: SubCategoryId, c: CategoryId)
    requires Admits(admin, UpdateSubCategoryHandler) && Consistent(st)
    requires id in st.subcategories && c in st.categories && c != st.subcategories[id].category
    ensures var r := UpdateSubCategoryAsWritten(st, admin, id, None, Some(c));
            var previous := st.subcategories[id].category;
            r.status == 200 &&
            r.store.subcategories[id].category == c &&
            previous in r.store.categories && id in r.store.categories[previous].subcategories &&
            !ListedAreMembers(r.store)
  {
    var previous := st.subcategories[id].category;
    var r := UpdateSubCategoryAsWritten(st, admin, id, None, Some(c));
    assert previous in st.categories && id in st.categories[previous].subcategories;
    assert r.store.categories[previous] == st.categories[previous];
  }

  /** `updateSubCategory` with the `$pull` aimed at the category the subcategory
      referenced before the update: 403 without the (never granted)
      `subcategories.update`; 404 for an unknown subcategory; 400 when the new name
      is taken; otherwise absent fields keep their stored value, and when a
      category is given the subcategory leaves its previous category's list and is added,
      once, to the new one. */
  function UpdateSubCategory(st: Store, admin: Admin, id: SubCategoryId, name: Option<string>, category: Option<CategoryId>): (r: Reply)
    ensures !Admits(admin, UpdateSubCategoryHandler) ==> r == Reply(403, st)
    ensures Admits(admin, UpdateSubCategoryHandler) && id !in st.subcategories ==> r == Reply(404, st)
    ensures r.status == 400 ==> r.store == st && name.Some? && NameTaken(st, name.value, Some(id))
    ensures r.status == 200 <==>
              Admits(admin, UpdateSubCategoryHandler) && id in st.subcategories &&
              !(name.Some? && NameTaken(st, name.value, Some(id)))
    ensures r.status == 200 ==>
              r.store.subcategories.Keys == st.subcategories.Keys &&
              (forall s :: s in st.subcategories && s != id ==> r.store.subcategories[s] == st.subcategories[s]) &&
              r.store.subcategories[id] == SubCategory(name.GetOr(st.subcategories[id].name),
                                                       category.GetOr(st.subcategories[id].category)) &&
              r.store == st.(subcategories := r.store.subcategories, categories := r.store.categories)
    ensures r.status == 200 && category.None? ==> r.store.categories == st.categories
    ensures r.status == 200 && category.Some? ==>
              var previous := st.subcategories[id].category;
              r.store.categories == AddToSet(Pull(st.categories, previous, id), category.value, id)
  {
    if !CheckPermission(admin, "subcategories", "update") then Reply(403, st)
    else if id !in st.subcategories then Reply(404, st)
    else match RewriteSubCategory(st, id, name, category)
      case None => Reply(400, st)
      case Some(sc) =>
        var subs := st.subcategories[id := sc];
        if category.None? then Reply(200, st.(subcategories := subs))
        else
          var previous := st.subcategories[id].category;
          var cats := AddToSet(Pull(st.categories, previous, id), category.value, id);
          Reply(200, st.(subcategories := subs, categories := cats))
  }

  /** The corrected update moves a subcategory to an existing category without
      breaking consistency, and the new category lists it exactly once. */
  lemma UpdateSubCategoryKeepsConsistency(st: Store, admin: Admin, id: SubCategoryId, name: Option<string>, category: Option<CategoryId>)
    requires Consistent(st)
    requires category.None? || category.value in st.categories
    requires forall c :: c in st.categories ==> Count(st.categories[c].subcategories, id) <= 1
    ensures var r := UpdateSubCategory(st, admin, id, name, category);
            Consistent(r.store) &&
            (r.status == 200 && category.Some? ==> Count(r.store.categories[category.value].subcategories, id) == 1)
  {
    var r := UpdateSubCategory(st, admin, id, name, category);
    if r.status == 200 {
      var sc := r.store.subcategories[id];
      if category.Some? {
        MoveKeepsConsistency(st, id, sc);
        var pulled := Pull(st.categories, st.subcategories[id].category, id);
        PulledListsOnce(st, id);
        AddToSetOnce(pulled, category.value, id);
      } else {
        RenameKeepsConsistency(st, id, sc);
      }
    }
  }

  /** Replacing a subcategory by one under the same category keeps consistency. */
  lemma RenameKeepsConsistency(st: Store, id: SubCategoryId, sc: SubCategory)
    requires Consistent(st) && id in st.subcategories && sc.category == st.subcategories[id].category
    ensures Consistent(st.(subcategories := st.subcategories[id := sc]))
  {
  }

  /** Re-pointing a subcategory at an existing category, pulling it from the list
      of the category it referenced and adding it to the new one, keeps
      consistency. */
  lemma MoveKeepsConsistency(st: Store, id: SubCategoryId, sc: SubCategory)
    requires Consistent(st) && id in st.subcategories && sc.category in st.categories
    ensures var pulled := Pull(st.categories, st.subcategories[id].category, id);
            Consistent(st.(subcategories := st.subcategories[id := sc],
                           categories := AddToSet(pulled, sc.category, id)))
  {
    MoveKeepsListedAreMembers(st, id, sc);
    MoveKeepsMembersAreListed(st, id, sc);
  }

  lemma MoveKeepsListedAreMembers(st: Store, id: SubCategoryId, sc: SubCategory)
    requires ListedAreMembers(st) && id in st.subcategories && sc.category in st.categories
    ensures var pulled := Pull(st.categories, st.subcategories[id].category, id);
            ListedAreMembers(st.(subcategories := st.subcategories[id := sc],
                                 categories := AddToSet(pulled, sc.category, id)))
  {
    var pulled := Pull(st.categories, st.subcategories[id].category, id);
    var st' := st.(subcategories := st.subcategories[id := sc], categories := AddToSet(pulled, sc.category, id));
    forall c', s | c' in st'.categories && s in st'.categories[c'].subcategories
      ensures s in st'.subcategories && st'.subcategories[s].category == c'
    {
      if s != id {
        assert s in pulled[c'].subcategories;
        assert s in st.categories[c'].subcategories;
      }
    }
  }

  lemma MoveKeepsMembersAreListed(st: Store, id: SubCategoryId, sc: SubCategory)
    requires MembersAreListed(st) && id in st.subcategories && sc.category in st.categories
    ensures var pulled := Pull(st.categories, st.subcategories[id].category, id);
            MembersAreListed(st.(subcategories := st.subcategories[id := sc],
                                 categories := AddToSet(pulled, sc.category, id)))
  {
    var pulled := Pull(st.categories, st.subcategories[id].category, id);
    forall s | s in st.subcategories && s != id
      ensures st.subcategories[s].category in pulled &&
              s in pulled[st.subcategories[s].category].subcategories
    {
      var k := st.subcategories[s].category;
      assert s in st.categories[k].subcategories;
      assert s in pulled[k].subcategories;
    }
  }

  /** Pulling `id` from one list keeps every list holding it at most once. */
  lemma PulledListsOnce(st: Store, id: SubCategoryId)
    requires id in st.subcategories
    requires forall c :: c in st.categories ==> Count(st.categories[c].subcategories, id) <= 1
    ensures var pulled := Pull(st.categories, st.subcategories[id].category, id);
            forall k :: k in pulled ==> Count(pulled[k].subcategories, id) <= 1
  {
    var previous := st.subcategories[id].category;
    var pulled := Pull(st.categories, previous, id);
    forall k | k in pulled
      ensures Count(pulled[k].subcategories, id) <= 1
    {
      if k == previous {
        assert id !in pulled[k].subcategories;
      }
    }
  }

  /** When every list holds `s` at most once, adding it to `c` leaves it listed once in `c`. */
  lemma AddToSetOnce(pulled: map<CategoryId, Category>, c: CategoryId, s: SubCategoryId)
    requires c in pulled
    requires forall k :: k in pulled ==> Count(pulled[k].subcategories, s) <= 1
    ensures Count(AddToSet(pulled, c, s)[c].subcategories, s) == 1
  {
    var l := pulled[c].subcategories;
    if s !in l {
      CountAppend(l, s, s);
    }
  }

  /** `deleteSubCategory`: 403 without the (never granted) `subcategories.delete`;
      404 for an unknown subcategory; otherwise it leaves its category's list and is
      removed. */
  function DeleteSubCategory(st: Store, admin: Admin, id: SubCategoryId): (r: Reply)
    ensures !Admits(admin, DeleteSubCategoryHandler) ==> r == Reply(403, st)
    ensures Admits(admin, DeleteSubCategoryHandler) && id !in st.subcategories ==> r == Reply(404, st)
    ensures r.status == 200 <==> Admits(admin, DeleteSubCategoryHandler) && id in st.subcategories
    ensures r.status == 200 ==>
              r.store.subcategories == st.subcategories - {id} &&
              r.store.categories == Pull(st.categories, st.subcategories[id].category, id) &&
              r.store == st.(subcategories := r.store.subcategories, categories := r.store.categories)
  {
    if !CheckPermission(admin, "subcategories", "delete") then Reply(403, st)
    else if id !in st.subcategories then Reply(404, st)
    else Reply(200, WithoutSubCategory(st, id))
  }

  /** Deleting a subcategory keeps the store consistent and leaves no list
      mentioning it. */
  lemma DeleteSubCategoryKeepsConsistency(st: Store, admin: Admin, id: SubCategoryId)
    requires Consistent(st)
    ensures Consistent(DeleteSubCategory(st, admin, id).store)
    ensures DeleteSubCategory(st, admin, id).status == 200 ==>
              Fresh(DeleteSubCategory(st, admin, id).store, id)
  {
    if DeleteSubCategory(st, admin, id).status == 200 {
      RemovalKeepsListedAreMembers(st, id);
      RemovalKeepsMembersAreListed(st, id);
    }
  }

  /** The store after subcategory `id` is pulled from its category and removed. */
  function WithoutSubCategory(st: Store, id: SubCategoryId): Store
    requires id in st.subcategories
  {
    st.(subcategories := st.subcategories - {id},
        categories := Pull(st.categories, st.subcategories[id].category, id))
  }

  lemma RemovalKeepsListedAreMembers(st: Store, id: SubCategoryId)
    requires ListedAreMembers(st) && id in st.subcategories
    ensures ListedAreMembers(WithoutSubCategory(st, id))
    ensures Fresh(WithoutSubCategory(st, id), id)
  {
    var st' := WithoutSubCategory(st, id);
    forall c', s | c' in st'.categories && s in st'.categories[c'].subcategories
      ensures s in st'.subcategories && st'.subcategories[s].category == c'
    {
      assert s in st.categories[c'].subcategories;
    }
  }

  lemma RemovalKeepsMembersAreListed(st: Store, id: SubCategoryId)
    requires MembersAreListed(st) && id in st.subcategories
    ensures MembersAreListed(WithoutSubCategory(st, id))
  {
    var st' := WithoutSubCategory(st, id);
    forall s | s in st'.subcategories
      ensures st'.subcategories[s].category in st'.categories &&
              s in st'.categories[st'.subcategories[s].category].subcategories
    {
      var k := st.subcategories[s].category;
      assert s in st.categories[k].subcategories;
    }
  }

  /** Only a super admin changes anything through the subcategory handlers. */
  lemma SubcategoryHandlersRefuseOthers(st: Store, admin: Admin, newId: SubCategoryId, id: SubCategoryId,
                                        name: Option<string>, category: Option<CategoryId>)
    requires admin.role != SuperAdmin && Fresh(st, newId)
    ensures CreateSubCategory(st, admin, newId, name, category) == Reply(403, st)
    ensures UpdateSubCategory(st, admin, id, name, category) == Reply(403, st)
    ensures UpdateSubCategoryAsWritten(st, admin, id, name, category) == Reply(403, st)
    ensures DeleteSubCategory(st, admin, id) == Reply(403, st)
  {
    SubcategoriesDeniedToNonSuper(admin, "create");
    SubcategoriesDeniedToNonSuper(admin, "update");
    SubcategoriesDeniedToNonSuper(admin, "delete");
  }
}

=== FILE: cart.dfy ===
/** The shopping cart: `addToCart`, `updateCartItem`, `removeFromCart` and the total
    that `getCart` reports (controllers/userController.js), over the cart schema
    of models/cartModel.js (a sequence of product/quantity lines). */
module Cart {
  import opened Common

  type ProductId = string

  /** One entry of `cart.items`. The schema puts no lower bound on `quantity`. */
  datatype CartLine = CartLine(product: ProductId, quantity: int)

  /** Live product prices in minor units; a product absent here does not exist. */
  type Catalog = map<ProductId, int>

  datatype CartError =
    | ProductNotFound   // 404 'Product not found'
    | CartNotFound      // 404 'Cart not found'
    | ItemNotFound      // 404 'Item not found in cart'
    | MissingQuantity   // the save fails schema validation: quantity is required
    | DanglingProduct   // a line's product no longer exists: populate yields null and reading its price throws

  /** The products of the lines, in cart order. */
  function Products(lines: seq<CartLine>): (ps: seq<ProductId>)
    ensures |ps| == |lines|
    ensures forall i :: 0 <= i < |lines| ==> ps[i] == lines[i].product
  {
    if |lines| == 0 then [] else [lines[0].product] + Products(lines[1..])
  }

  /** The abstract view of a cart: how many units of `p` it holds over all its lines. */
  function QuantityOf(lines: seq<CartLine>, p: ProductId): int {
    if |lines| == 0 then 0
    else (if lines[0].product == p then lines[0].quantity else 0) + QuantityOf(lines[1..], p)
  }

  /** The invariant the cart handlers keep: at most one line per product. */
  predicate OneLinePerProduct(lines: seq<CartLine>) {
    forall i, j :: 0 <= i < j < |lines| ==> lines[i].product != lines[j].product
  }

  /** Every line's product still exists in the catalog. */
  predicate AllPriced(lines: seq<CartLine>, prices: Catalog) {
    forall i :: 0 <= i < |lines| ==> lines[i].product in prices
  }

  /** Every line's price and quantity is at least zero. */
  predicate NonNegativeLines(lines: seq<CartLine>, prices: Catalog)
    requires AllPriced(lines, prices)
  {
    forall i :: 0 <= i < |lines| ==> prices[lines[i].product] >= 0 && lines[i].quantity >= 0
  }

  /** Sum of live price times quantity over the lines: never negative while every
      price and quantity is not. */
  function TotalOf(lines: seq<CartLine>, prices: Catalog): (t: int)
    requires AllPriced(lines, prices)
    ensures NonNegativeLines(lines, prices) ==> t >= 0
  {
    if |lines| == 0 then 0
    else prices[lines[0].product] * lines[0].quantity + TotalOf(lines[1..], prices)
  }

  /** `cart.items.reduce((acc, item) => acc + item.product.price * item.quantity, 0)`:
      fails when a line refers to a product that no longer exists. */
  function CartTotal(lines: seq<CartLine>, prices: Catalog): (r: Result<int, CartError>)
    ensures r.Success? <==> AllPriced(lines, prices)
    ensures r.Failure? ==> r.error == DanglingProduct
    ensures r.Success? ==> r.value == TotalOf(lines, prices)
    ensures r.Success? && |lines| == 0 ==> r.value == 0
  {
    if AllPriced(lines, prices) then Success(TotalOf(lines, prices)) else Failure(DanglingProduct)
  }

  /** `getCart`: the total of the user's cart, or 404 when there is no cart. */
  function GetCartTotal(cart: Option<seq<CartLine>>, prices: Catalog): (r: Result<int, CartError>)
    ensures cart.None? ==> r == Failure(CartNotFound)
    ensures cart.Some? && AllPriced(cart.value, prices) ==> r == Success(TotalOf(cart.value, prices))
    ensures cart.Some? && !AllPriced(cart.value, prices) ==> r == Failure(DanglingProduct)
  {
    match cart
    case None => Failure(CartNotFound)
    case Some(lines) => CartTotal(lines, prices)
  }

  /** `cart.items.findIndex(item => item.product == p)`, with `None` for -1. */
  function FindLine(lines: seq<CartLine>, p: ProductId): (r: Option<nat>)
    ensures r.None? <==> p !in Products(lines)
    ensures r.Some? ==> r.value < |lines| && lines[r.value].product == p
    ensures r.Some? ==> forall k :: 0 <= k < r.value ==> lines[k].product != p
  {
    if p in Products(lines) then Some(IndexOf(Products(lines), p)) else None
  }

  /** Adds `q` units of `p` to an existing cart: the first line for `p` has its quantity
      raised, or a new line is appended when there is none. */
  function AddLine(lines: seq<CartLine>, p: ProductId, q: int): (r: seq<CartLine>)
    ensures p !in Products(lines) ==> r == lines + [CartLine(p, q)]
    ensures p in Products(lines) ==> |r| == |lines| && Products(r) == Products(lines)
  {
    match FindLine(lines, p)
    case Some(i) =>
      var r := lines[i := CartLine(p, lines[i].quantity + q)];
      assert Products(r) == Products(lines);
      r
    case None => lines + [CartLine(p, q)]
  }

  /** `addToCart`: the quantity defaults to 1 and is not validated; a product already
      in the cart has its first line's quantity raised, a new product is appended,
      and a user without a cart gets a new one holding just this line. */
  function AddToCart(cart: Option<seq<CartLine>>, prices: Catalog, p: ProductId, quantity: Option<int>)
    : (r: Result<seq<CartLine>, CartError>)
    ensures p !in prices <==> r.Failure?
    ensures r.Failure? ==> r.error == ProductNotFound
    ensures r.Success? ==> r.value == AddLine(cart.GetOr([]), p, quantity.GetOr(1))
  {
    if p !in prices then Failure(ProductNotFound)
    else match cart
      case None => Success([CartLine(p, quantity.GetOr(1))])
      case Some(lines) => Success(AddLine(lines, p, quantity.GetOr(1)))
  }

  /** `updateCartItem`: a quantity of at most zero splices the (first) line out,
      any other quantity replaces it. */
  function UpdateCartItem(cart: Option<seq<CartLine>>, p: ProductId, quantity: Option<int>)
    : (r: Result<seq<CartLine>, CartError>)
    ensures cart.None? ==> r == Failure(CartNotFound)
    ensures cart.Some? && p !in Products(cart.value) ==> r == Failure(ItemNotFound)
    ensures cart.Some? && p in Products(cart.value) && quantity.None? ==> r == Failure(MissingQuantity)
    ensures cart.Some? && p in Products(cart.value) && quantity.Some? ==> r.Success?
    ensures r.Success? && quantity.value <= 0 ==> |r.value| == |cart.value| - 1
    ensures r.Success? && quantity.value > 0 ==>
              |r.value| == |cart.value| && Products(r.value) == Products(cart.value)
  {
    match cart
    case None => Failure(CartNotFound)
    case Some(lines) =>
      match FindLine(lines, p)
      case None => Failure(ItemNotFound)
      case Some(i) =>
        match quantity
        case None => Failure(MissingQuantity)
        case Some(q) =>
          if q <= 0 then Success(RemoveAt(lines, i))
          else
            var lines' := lines[i := CartLine(p, q)];
            assert Products(lines') == Products(lines);
            Success(lines')
  }

  /** `cart.items.filter(item => item.product != p)`. */
  function WithoutProduct(lines: seq<CartLine>, p: ProductId): (r: seq<CartLine>)
    ensures p !in Products(r)
    ensures |r| <= |lines|
  {
    if |lines| == 0 then []
    else if lines[0].product == p then WithoutProduct(lines[1..], p)
    else [lines[0]] + WithoutProduct(lines[1..], p)
  }

  /** `removeFromCart`: drops every line for `p`; 404 only when there is no cart at all. */
  function RemoveFromCart(cart: Option<seq<CartLine>>, p: ProductId): (r: Result<seq<CartLine>, CartError>)
    ensures cart.None? <==> r.Failure?
    ensures r.Failure? ==> r.error == CartNotFound
    ensures r.Success? ==> p !in Products(r.value) && IsSubsequence(r.value, cart.value)
    ensures r.Success? ==> |r.value| == |cart.value| - Count(Products(cart.value), p)
    ensures r.Success? && p !in Products(cart.value) ==> r.value == cart.value
  {
    match cart
    case None => Failure(CartNotFound)
    case Some(lines) =>
      WithoutProductIsSubsequence(lines, p);
      WithoutProductLength(lines, p);
      if p !in Products(lines) then WithoutAbsent(lines, p); Success(WithoutProduct(lines, p))
      else Success(WithoutProduct(lines, p))
  }

  // ---------------------------------------------------------------------------
  // Lemmas connecting the handlers to the abstract per-product quantity view

  lemma {:induction false} WithoutProductIsSubsequence(lines: seq<CartLine>, p: ProductId)
    ensures IsSubsequence(WithoutProduct(lines, p), lines)
  {
    if |lines| > 0 {
      WithoutProductIsSubsequence(lines[1..], p);
      if lines[0].product == p {
        SubsequenceOfTail(WithoutProduct(lines[1..], p), lines);
      } else {
        assert WithoutProduct(lines, p)[1..] == WithoutProduct(lines[1..], p);
      }
    }
  }

  /** The filter drops exactly the lines for `p`: as many as `p` occurs. */
  lemma {:induction false} WithoutProductLength(lines: seq<CartLine>, p: ProductId)
    ensures |WithoutProduct(lines, p)| == |lines| - Count(Products(lines), p)
  {
    if |lines| > 0 {
      assert Products(lines)[1..] == Products(lines[1..]);
      WithoutProductLength(lines[1..], p);
    }
  }

  lemma {:induction false} WithoutAbsent(lines: seq<CartLine>, p: ProductId)
    requires p !in Products(lines)
    ensures WithoutProduct(lines, p) == lines
  {
    if |lines| > 0 {
      assert Products(lines)[1..] == Products(lines[1..]);
      WithoutAbsent(lines[1..], p);
    }
  }

  lemma {:induction false} QuantityOfAppend(a: seq<CartLine>, b: seq<CartLine>, x: ProductId)
    ensures QuantityOf(a + b, x) == QuantityOf(a, x) + QuantityOf(b, x)
  {
    if |a| > 0 {
      assert (a + b)[1..] == a[1..] + b;
      QuantityOfAppend(a[1..], b, x);
    } else {
      assert a + b == b;
    }
  }

  lemma {:induction false} QuantityOfUpdate(lines: seq<CartLine>, i: nat, l: CartLine, x: ProductId)
    requires i < |lines|
    ensures QuantityOf(lines[i := l], x) ==
              QuantityOf(lines, x)
              - (if lines[i].product == x then lines[i].quantity else 0)
              + (if l.product == x then l.quantity else 0)
  {
    if i > 0 {
      assert lines[i := l][1..] == lines[1..][i - 1 := l];
      QuantityOfUpdate(lines[1..], i - 1, l, x);
    } else {
      assert lines[i := l][1..] == lines[1..];
    }
  }

  lemma {:induction false} QuantityOfRemoveAt(lines: seq<CartLine>, i: nat, x: ProductId)
    requires i < |lines|
    ensures QuantityOf(RemoveAt(lines, i), x) ==
              QuantityOf(lines, x) - (if lines[i].product == x then lines[i].quantity else 0)
  {
    if i > 0 {
      assert RemoveAt(lines, i) == [lines[0]] + RemoveAt(lines[1..], i - 1);
      QuantityOfRemoveAt(lines[1..], i - 1, x);
    } else {
      assert RemoveAt(lines, i) == lines[1..];
    }
  }

  lemma {:induction false} QuantityOfAbsent(lines: seq<CartLine>, x: ProductId)
    requires x !in Products(lines)
    ensures QuantityOf(lines, x) == 0
  {
    if |lines| > 0 {
      assert Products(lines)[1..] == Products(lines[1..]);
      QuantityOfAbsent(lines[1..], x);
    }
  }

  /** Under one line per product, the line found for `p` carries all of `p`'s quantity. */
  lemma {:induction false} QuantityOfUniqueLine(lines: seq<CartLine>, i: nat)
    requires OneLinePerProduct(lines) && i < |lines|
    ensures QuantityOf(lines, lines[i].product) == lines[i].quantity
  {
    var p := lines[i].product;
    QuantityOfRemoveAt(lines, i, p);
    var rest := RemoveAt(lines, i);
    forall k | 0 <= k < |rest| ensures rest[k].product != p {
      if k < i { assert rest[k] == lines[k]; } else { assert rest[k] == lines[k + 1]; }
    }
    assert p !in Products(rest);
    QuantityOfAbsent(rest, p);
  }

  /** After `addToCart(p, q)` the cart holds exactly `q` more units of `p` and the
      same quantity of every other product; one line per product is kept. */
  lemma AddLineQuantities(lines: seq<CartLine>, p: ProductId, q: int, x: ProductId)
    ensures QuantityOf(AddLine(lines, p, q), x) == QuantityOf(lines, x) + (if x == p then q else 0)
    ensures OneLinePerProduct(lines) ==> OneLinePerProduct(AddLine(lines, p, q))
  {
    if p in Products(lines) {
      AddLineRaises(lines, p, q, x);
    } else {
      AddLineAppends(lines, p, q, x);
    }
  }

  lemma AddLineRaises(lines: seq<CartLine>, p: ProductId, q: int, x: ProductId)
    requires p in Products(lines)
    ensures QuantityOf(AddLine(lines, p, q), x) == QuantityOf(lines, x) + (if x == p then q else 0)
    ensures OneLinePerProduct(lines) ==> OneLinePerProduct(AddLine(lines, p, q))
  {
    var i := FindLine(lines, p).value;
    var l := CartLine(p, lines[i].quantity + q);
    AddLineAt(lines, p, q, i);
    QuantityOfUpdate(lines, i, l, x);
    if OneLinePerProduct(lines) {
      SameProductKeepsOneLine(lines, i, l);
    }
  }

  /** Replacing a line by one for the same product keeps one line per product. */
  lemma SameProductKeepsOneLine(lines: seq<CartLine>, i: nat, l: CartLine)
    requires OneLinePerProduct(lines) && i < |lines| && l.product == lines[i].product
    ensures OneLinePerProduct(lines[i := l])
  {
  }

  lemma AddLineAppends(lines: seq<CartLine>, p: ProductId, q: int, x: ProductId)
    requires p !in Products(lines)
    ensures QuantityOf(AddLine(lines, p, q), x) == QuantityOf(lines, x) + (if x == p then q else 0)
    ensures OneLinePerProduct(lines) ==> OneLinePerProduct(AddLine(lines, p, q))
  {
    QuantityOfAppend(lines, [CartLine(p, q)], x);
    assert QuantityOf([CartLine(p, q)], x) == (if x == p then q else 0) + QuantityOf([], x);
    assert forall k :: 0 <= k < |lines| ==> lines[k].product != p by {
      assert forall k :: 0 <= k < |lines| ==> Products(lines)[k] == lines[k].product;
    }
  }

  /** After a successful `updateCartItem(p, q)` on a cart with one line per product,
      `p`'s quantity is `q` (zero when `q <= 0`, the line being gone) and every other
      product is untouched. */
  lemma UpdateCartItemQuantities(lines: seq<CartLine>, p: ProductId, q: int, x: ProductId)
    requires OneLinePerProduct(lines) && p in Products(lines)
    ensures UpdateCartItem(Some(lines), p, Some(q)).Success?
    ensures QuantityOf(UpdateCartItem(Some(lines), p, Some(q)).value, x) ==
              (if x == p then (if q <= 0 then 0 else q) else QuantityOf(lines, x))
    ensures q <= 0 ==> p !in Products(UpdateCartItem(Some(lines), p, Some(q)).value)
    ensures OneLinePerProduct(UpdateCartItem(Some(lines), p, Some(q)).value)
  {
    var i := FindLine(lines, p).value;
    QuantityOfUniqueLine(lines, i);
    if q <= 0 {
      UpdateCartItemRemoves(lines, p, i, x);
    } else {
      QuantityOfUpdate(lines, i, CartLine(p, q), x);
    }
  }

  /** Removing the one line of `p` takes all of `p` out and keeps the rest. */
  lemma UpdateCartItemRemoves(lines: seq<CartLine>, p: ProductId, i: nat, x: ProductId)
    requires OneLinePerProduct(lines) && i < |lines| && lines[i].product == p
    ensures QuantityOf(RemoveAt(lines, i), x) == (if x == p then 0 else QuantityOf(lines, x))
    ensures p !in Products(RemoveAt(lines, i))
    ensures OneLinePerProduct(RemoveAt(lines, i))
  {
    var r := RemoveAt(lines, i);
    QuantityOfUniqueLine(lines, i);
    QuantityOfRemoveAt(lines, i, x);
    forall k | 0 <= k < |r| ensures r[k].product != p {
      if k < i { assert r[k] == lines[k]; } else { assert r[k] == lines[k + 1]; }
    }
    assert p !in Products(r);
    forall a, b | 0 <= a < b < |r| ensures r[a].product != r[b].product {
      var a' := if a < i then a else a + 1;
      var b' := if b < i then b else b + 1;
      assert r[a] == lines[a'] && r[b] == lines[b'];
    }
  }

  /** After `removeFromCart(p)` the cart holds none of `p` and the same quantity of
      every other product. */
  lemma {:induction false} RemoveFromCartQuantities(lines: seq<CartLine>, p: ProductId, x: ProductId)
    ensures QuantityOf(WithoutProduct(lines, p), x) == (if x == p then 0 else QuantityOf(lines, x))
  {
    if |lines| > 0 {
      RemoveFromCartQuantities(lines[1..], p, x);
      if lines[0].product != p {
        assert WithoutProduct(lines, p)[1..] == WithoutProduct(lines[1..], p);
      }
    } else if x == p {
      assert QuantityOf(WithoutProduct(lines, p), x) == 0;
    }
  }

  /** Removing twice is removing once. */
  lemma RemoveFromCartIdempotent(cart: Option<seq<CartLine>>, p: ProductId)
    requires cart.Some?
    ensures RemoveFromCart(Some(RemoveFromCart(cart, p).value), p) == RemoveFromCart(cart, p)
  {
  }

  // ---------------------------------------------------------------------------
  // Lemmas relating the total to the handlers

  lemma {:induction false} TotalOfAppend(a: seq<CartLine>, b: seq<CartLine>, prices: Catalog)
    requires AllPriced(a, prices) && AllPriced(b, prices)
    ensures AllPriced(a + b, prices)
    ensures TotalOf(a + b, prices) == TotalOf(a, prices) + TotalOf(b, prices)
  {
    if |a| > 0 {
      assert (a + b)[1..] == a[1..] + b;
      TotalOfAppend(a[1..], b, prices);
    } else {
      assert a + b == b;
    }
  }

  lemma {:induction false} TotalOfUpdate(lines: seq<CartLine>, i: nat, l: CartLine, prices: Catalog)
    requires AllPriced(lines, prices) && i < |lines| && l.product in prices
    ensures AllPriced(lines[i := l], prices)
    ensures TotalOf(lines[i := l], prices) ==
              TotalOf(lines, prices) - prices[lines[i].product] * lines[i].quantity + prices[l.product] * l.quantity
  {
    if i > 0 {
      assert lines[i := l][1..] == lines[1..][i - 1 := l];
      TotalOfUpdate(lines[1..], i - 1, l, prices);
    } else {
      assert lines[i := l][1..] == lines[1..];
    }
  }

  /** Adding `q` units of a catalogued product raises the cart total by exactly its
      price times `q`. */
  lemma AddLineTotal(lines: seq<CartLine>, prices: Catalog, p: ProductId, q: int)
    requires p in prices && AllPriced(lines, prices)
    ensures AllPriced(AddLine(lines, p, q), prices)
    ensures TotalOf(AddLine(lines, p, q), prices) == TotalOf(lines, prices) + prices[p] * q
  {
    var f := FindLine(lines, p);
    if f.Some? {
      AddLineTotalExisting(lines, prices, p, q, f.value);
    } else {
      assert AddLine(lines, p, q) == lines + [CartLine(p, q)];
      assert TotalOf([CartLine(p, q)], prices) == prices[p] * q + TotalOf([], prices);
      TotalOfAppend(lines, [CartLine(p, q)], prices);
    }
  }

  lemma AddLineTotalExisting(lines: seq<CartLine>, prices: Catalog, p: ProductId, q: int, i: nat)
    requires p in prices && AllPriced(lines, prices)
    requires FindLine(lines, p) == Some(i)
    ensures AllPriced(AddLine(lines, p, q), prices)
    ensures TotalOf(AddLine(lines, p, q), prices) == TotalOf(lines, prices) + prices[p] * q
  {
    var l := CartLine(p, lines[i].quantity + q);
    AddLineAt(lines, p, q, i);
    TotalOfUpdate(lines, i, l, prices);
    ReplaceQuantity(TotalOf(lines, prices), prices[lines[i].product], lines[i].quantity,
                    prices[l.product], l.quantity, prices[p], q);
  }

  /** When `p`'s first line is at `i`, adding raises that line's quantity. */
  lemma AddLineAt(lines: seq<CartLine>, p: ProductId, q: int, i: nat)
    requires FindLine(lines, p) == Some(i)
    ensures AddLine(lines, p, q) == lines[i := CartLine(p, lines[i].quantity + q)]
  {
  }

  /** Swapping a line of `a` units for one of `a + q` units at the same price `x`
      moves the total by `x * q`. */
  lemma ReplaceQuantity(t: int, x1: int, a1: int, x2: int, a2: int, x: int, q: int)
    requires x1 == x && x2 == x && a2 == a1 + q
    ensures t - x1 * a1 + x2 * a2 == t + x * q
  {
    Distribute(x, a1, q);
  }

  lemma Distribute(x: int, a: int, b: int)
    ensures x * (a + b) == x * a + x * b
  {
  }

  /** Removing a product lowers the cart total by its price times the quantity that
      was in the cart. */
  lemma {:induction false} RemoveFromCartTotal(lines: seq<CartLine>, prices: Catalog, p: ProductId)
    requires p in prices && AllPriced(lines, prices)
    ensures AllPriced(WithoutProduct(lines, p), prices)
    ensures TotalOf(WithoutProduct(lines, p), prices) == TotalOf(lines, prices) - prices[p] * QuantityOf(lines, p)
  {
    if |lines| > 0 {
      var rest := lines[1..];
      assert AllPriced(rest, prices);
      RemoveFromCartTotal(rest, prices, p);
      var pr := prices[p];
      if lines[0].product == p {
        Distribute(pr, lines[0].quantity, QuantityOf(rest, p));
      } else {
        assert WithoutProduct(lines, p) == [lines[0]] + WithoutProduct(rest, p);
        assert WithoutProduct(lines, p)[1..] == WithoutProduct(rest, p);
      }
    }
  }

  /** `addToCart` does not validate the quantity: a zero or negative one is stored,
      lowering the quantity and the total instead of raising them. */
  lemma AddToCartAcceptsNonPositive(lines: seq<CartLine>, prices: Catalog, p: ProductId, q: int)
    requires p in prices && q <= 0
    ensures AddToCart(Some(lines), prices, p, Some(q)).Success?
    ensures QuantityOf(AddToCart(Some(lines), prices, p, Some(q)).value, p) <= QuantityOf(lines, p)
  {
    AddLineQuantities(lines, p, q, p);
  }
}

=== FILE: checkout.dfy ===
/** `checkoutCart` (controllers/userController.js): the wallet-paid checkout of a
    user's cart, taken as one atomic step over the slice of the database the
    handler reads and writes. */
module Checkout {
  import opened Common
  import Cart
  import opened Ledger
  import opened Orders

  type AddressId = string

  /** Everything `checkoutCart` reads or writes for the authenticated user. */
  datatype Shop = Shop(
    user: UserId,
    cart: Option<seq<Cart.CartLine>>,
    wallet: Option<Wallet>,
    ledger: seq<Transaction>,
    orders: seq<Order>,
    prices: Cart.Catalog,
    addresses: map<AddressId, Address>)

  /** The rejections, in the order the handler tests them. */
  datatype CheckoutError =
    | CartEmpty           // 400 'Cart is empty' (no cart, or no lines)
    | WalletNotFound      // 400 'Wallet not found'
    | AddressNotFound     // 400 'Selected shipping address not found'
    | ProductGone         // 500: a line's product no longer exists, so reading its price throws
    | InsufficientBalance // 400 'Insufficient wallet balance'

  /** The success response: the new state plus the order, the transaction and the
      remaining balance the handler returns. */
  datatype Receipt = Receipt(shop: Shop, order: Order, transaction: Transaction, remainingBalance: int)

  /** The order lines: a snapshot of each cart line with its live price. */
  function Snapshot(lines: seq<Cart.CartLine>, prices: Cart.Catalog): (r: seq<OrderLine>)
    requires Cart.AllPriced(lines, prices)
    ensures |r| == |lines|
    ensures forall i :: 0 <= i < |lines| ==>
              r[i] == OrderLine(lines[i].product, lines[i].quantity, prices[lines[i].product])
  {
    if |lines| == 0 then [] else [OrderLine(lines[0].product, lines[0].quantity, prices[lines[0].product])] + Snapshot(lines[1..], prices)
  }

  /** The snapshot's total is the cart's live total. */
  lemma {:induction false} SnapshotTotal(lines: seq<Cart.CartLine>, prices: Cart.Catalog)
    requires Cart.AllPriced(lines, prices)
    ensures LinesTotal(Snapshot(lines, prices)) == Cart.TotalOf(lines, prices)
  {
    if |lines| > 0 {
      assert Snapshot(lines, prices)[1..] == Snapshot(lines[1..], prices);
      SnapshotTotal(lines[1..], prices);
    }
  }

  function NewOrder(s: Shop, lines: seq<Cart.CartLine>, total: int, address: Address): (o: Order)
    requires Cart.AllPriced(lines, s.prices)
  {
    Order(s.user, None, Snapshot(lines, s.prices), total, Paid, address, WalletPayment, false, None, "Processing", [])
  }

  function PaymentTransaction(user: UserId, total: int, order: OrderId): Transaction {
    Transaction(user, Debit, total, OrderPayment(order), Completed, Some(order))
  }

  /** The guard the handler evaluates, in its order; `Success` carries the total. */
  function Guard(s: Shop, addressId: AddressId): (r: Result<int, CheckoutError>)
    ensures (s.cart.None? || |s.cart.value| == 0) <==> r == Failure(CartEmpty)
    ensures r == Failure(WalletNotFound) <==> s.cart.Some? && |s.cart.value| > 0 && s.wallet.None?
    ensures r == Failure(AddressNotFound) <==>
              s.cart.Some? && |s.cart.value| > 0 && s.wallet.Some? && addressId !in s.addresses
    ensures r == Failure(ProductGone) <==>
              s.cart.Some? && |s.cart.value| > 0 && s.wallet.Some? && addressId in s.addresses &&
              !Cart.AllPriced(s.cart.value, s.prices)
    ensures r == Failure(InsufficientBalance) <==>
              s.cart.Some? && |s.cart.value| > 0 && s.wallet.Some? && addressId in s.addresses &&
              Cart.AllPriced(s.cart.value, s.prices) &&
              s.wallet.value.balance < Cart.TotalOf(s.cart.value, s.prices)
    ensures r.Success? <==>
              s.cart.Some? && |s.cart.value| > 0 && s.wallet.Some? && addressId in s.addresses &&
              Cart.AllPriced(s.cart.value, s.prices) &&
              Cart.TotalOf(s.cart.value, s.prices) <= s.wallet.value.balance
    ensures r.Success? ==> r.value == Cart.TotalOf(s.cart.value, s.prices)
  {
    if s.cart.None? || |s.cart.value| == 0 then Failure(CartEmpty)
    else if s.wallet.None? then Failure(WalletNotFound)
    else if addressId !in s.addresses then Failure(AddressNotFound)
    else if !Cart.AllPriced(s.cart.value, s.prices) then Failure(ProductGone)
    else
      var total := Cart.TotalOf(s.cart.value, s.prices);
      if s.wallet.value.balance < total then Failure(InsufficientBalance)
      else Success(total)
  }

  /** `checkoutCart`: once the guard passes, one order is created from the cart's
      snapshot, the wallet is debited by the total through one completed debit
      transaction linked to that order, and the cart is emptied. */
  function CheckoutCart(s: Shop, addressId: AddressId): (r: Result<Receipt, CheckoutError>)
    ensures r.Failure? <==> Guard(s, addressId).Failure?
    ensures r.Failure? ==> r.error == Guard(s, addressId).error
    ensures r.Success? ==> CheckoutEffect(s, addressId, r.value)
  {
    var total :- Guard(s, addressId);
    var lines := s.cart.value;
    var w := s.wallet.value;
    var id := |s.orders|;
    var order := NewOrder(s, lines, total, s.addresses[addressId]);
    var tx := PaymentTransaction(s.user, total, id);
    var posted := Post(w, s.ledger, tx);
    SnapshotTotal(lines, s.prices);
    Success(Receipt(
      s.(cart := Some([]), wallet := Some(posted.wallet), ledger := posted.ledger, orders := s.orders + [order]),
      order, tx, posted.wallet.balance))
  }

  /** The five-part effect of a successful checkout, stated against the state before it. */
  predicate CheckoutEffect(s: Shop, addressId: AddressId, rc: Receipt)
  {
    && s.cart.Some? && s.wallet.Some? && addressId in s.addresses
    && Cart.AllPriced(s.cart.value, s.prices)
    && var lines := s.cart.value;
       var total := Cart.TotalOf(lines, s.prices);
       var w0 := s.wallet.value;
       var s' := rc.shop;
       var id := |s.orders|;
       // the wallet: debited by the total, never below zero, the new transaction listed
       && s'.wallet.Some?
       && s'.wallet.value.owner == w0.owner
       && s'.wallet.value.balance == w0.balance - total
       && s'.wallet.value.balance >= 0
       && rc.remainingBalance == s'.wallet.value.balance
       && s'.wallet.value.transactions == w0.transactions + [|s.ledger|]
       // the ledger: exactly one completed debit of the total, linked to the new order
       && s'.ledger == s.ledger + [rc.transaction]
       && rc.transaction.kind == Debit && rc.transaction.status == Completed
       && rc.transaction.amount == total && rc.transaction.order == Some(id)
       && rc.transaction.user == s.user
       // the order: one new order, a snapshot of the cart in cart order
       && s'.orders == s.orders + [rc.order]
       && |rc.order.products| == |lines|
       && (forall i :: 0 <= i < |lines| ==>
             rc.order.products[i].product == lines[i].product &&
             rc.order.products[i].quantity == lines[i].quantity &&
             rc.order.products[i].price == s.prices[lines[i].product])
       && rc.order.totalAmount == total
       && TotalMatchesLines(rc.order)
       && rc.order.user == s.user
       && rc.order.shippingAddress == s.addresses[addressId]
       && rc.order.paymentStatus == Paid && rc.order.paymentMethod == WalletPayment
       && rc.order.deliveryStatus == "Processing"
       && !rc.order.cancellationRequested
       && rc.order.vendor.None? && rc.order.cancellationReason.None? && rc.order.comments == []
       // the cart: emptied, not deleted
       && s'.cart == Some([])
       // nothing else
       && s'.user == s.user && s'.prices == s.prices && s'.addresses == s.addresses
  }

  /** The money balances: a checkout that keeps one consistent wallet keeps it
      consistent, and the debit equals the order's total. */
  lemma CheckoutKeepsWalletConsistent(s: Shop, addressId: AddressId)
    requires s.wallet.Some? && Consistent(s.wallet.value, s.ledger)
    ensures CheckoutCart(s, addressId).Success? ==>
              var rc := CheckoutCart(s, addressId).value;
              Consistent(rc.shop.wallet.value, rc.shop.ledger) &&
              rc.transaction.amount == rc.order.totalAmount &&
              rc.shop.ledger[|s.ledger|] == rc.transaction
  {
    if CheckoutCart(s, addressId).Success? {
      var total := Guard(s, addressId).value;
      AppendKeepsConsistent(s.wallet.value, s.ledger, PaymentTransaction(s.user, total, |s.orders|));
    }
  }

  /** Every order the checkout creates satisfies the order invariant, so a store of
      orders that all satisfy it keeps satisfying it. */
  lemma CheckoutKeepsOrderTotals(s: Shop, addressId: AddressId)
    requires forall k :: 0 <= k < |s.orders| ==> TotalMatchesLines(s.orders[k])
    ensures CheckoutCart(s, addressId).Success? ==>
              var o := CheckoutCart(s, addressId).value.shop.orders;
              forall k :: 0 <= k < |o| ==> TotalMatchesLines(o[k])
  {
  }

  /** A wallet of 500 and a cart of two units at 200: the order totals 400, the
      balance drops to 100, one debit of 400 is logged and the cart is emptied. */
  lemma CheckoutExampleSucceeds(ledger: seq<Transaction>)
    ensures
      var a := Address("1 Main St", None, "Pune", "MH", "411001", "IN");
      var s := Shop("u1", Some([Cart.CartLine("A", 2)]), Some(Wallet(Owner(UserOwner, "u1"), 500, [])),
                    ledger, [], map["A" := 200], map["home" := a]);
      var r := CheckoutCart(s, "home");
      r.Success? && r.value.order.totalAmount == 400 && r.value.remainingBalance == 100 &&
      r.value.transaction.amount == 400 && r.value.shop.cart == Some([])
  {
    var a := Address("1 Main St", None, "Pune", "MH", "411001", "IN");
    var lines := [Cart.CartLine("A", 2)];
    var prices := map["A" := 200];
    assert Cart.TotalOf(lines, prices) == 400 by {
      assert Cart.TotalOf(lines[1..], prices) == 0;
    }
  }

  /** A wallet of 100 against a cart total of 400 is refused, changing nothing. */
  lemma CheckoutExampleRefused(ledger: seq<Transaction>)
    ensures
      var a := Address("1 Main St", None, "Pune", "MH", "411001", "IN");
      var s := Shop("u1", Some([Cart.CartLine("A", 2)]), Some(Wallet(Owner(UserOwner, "u1"), 100, [])),
                    ledger, [], map["A" := 200], map["home" := a]);
      CheckoutCart(s, "home") == Failure(InsufficientBalance)
  {
    var lines := [Cart.CartLine("A", 2)];
    var prices := map["A" := 200];
    assert Cart.TotalOf(lines, prices) == 400 by {
      assert Cart.TotalOf(lines[1..], prices) == 0;
    }
  }
}

=== FILE: common.dfy ===
/** Shared vocabulary of the model: optional values, handler results, and the
    small sequence operations (JavaScript's `filter`, `indexOf`, `splice`)
    that several handlers use. */
module Common {

  /** A value that may be absent: a missing document, an omitted request field. */
  datatype Option<+T> = None | Some(value: T) {
    function GetOr(default: T): T {
      match this
      case Some(v) => v
      case None => default
    }
  }

  /** A handler either produces a value (usually the new state) or rejects with an error,
      in which case nothing was written. */
  datatype Result<+R, +E> = Success(value: R) | Failure(error: E) {
    predicate IsFailure() {
      Failure?
    }
    function PropagateFailure<U>(): Result<U, E>
      requires Failure?
    {
      Failure(error)
    }
    function Extract(): R
      requires Success?
    {
      value
    }
  }

  /** Number of occurrences of `x` in `s`. */
  function Count<T(==)>(s: seq<T>, x: T): (n: nat)
    ensures n <= |s|
    ensures n == 0 <==> x !in s
  {
    if |s| == 0 then 0 else (if s[0] == x then 1 else 0) + Count(s[1..], x)
  }

  /** `s.filter(y => y != x)`: every element except `x`, in order. */
  function Without<T(==,!new)>(s: seq<T>, x: T): (r: seq<T>)
    ensures x !in r
    ensures forall y :: y in r <==> y in s && y != x
    ensures |r| == |s| - Count(s, x)
  {
    if |s| == 0 then []
    else if s[0] == x then Without(s[1..], x)
    else [s[0]] + Without(s[1..], x)
  }

  /** Position of the first `x` in `s` (JavaScript's `indexOf`, minus its -1 sentinel). */
  function IndexOf<T(==)>(s: seq<T>, x: T): (i: nat)
    requires x in s
    ensures i < |s| && s[i] == x
    ensures x !in s[..i]
  {
    if s[0] == x then 0 else 1 + IndexOf(s[1..], x)
  }

  /** `s.splice(i, 1)`: `s` with its `i`-th element taken out. */
  function RemoveAt<T>(s: seq<T>, i: nat): (r: seq<T>)
    requires i < |s|
    ensures |r| == |s| - 1
    ensures forall j :: 0 <= j < i ==> r[j] == s[j]
    ensures forall j :: i <= j < |r| ==> r[j] == s[j + 1]
  {
    s[..i] + s[i + 1..]
  }

  /** `s.slice(0, n)`: at most the first `n` elements. */
  function Take<T>(s: seq<T>, n: nat): (r: seq<T>)
    ensures |r| == (if |s| < n then |s| else n)
    ensures |s| <= n ==> r == s
    ensures r == s[..|r|]
  {
    if |s| <= n then s else s[..n]
  }

  /** No element occurs twice. */
  predicate NoDuplicates<T(==)>(s: seq<T>) {
    forall i, j :: 0 <= i < j < |s| ==> s[i] != s[j]
  }

  /** `a` is `b` with some elements dropped, the rest in their original order. */
  predicate IsSubsequence<T(==)>(a: seq<T>, b: seq<T>)
    decreases |b|
  {
    if |a| == 0 then true
    else if |b| == 0 then false
    else if a[0] == b[0] then IsSubsequence(a[1..], b[1..])
    else IsSubsequence(a, b[1..])
  }

  /** Appending `x` adds one occurrence of `x` and none of anything else. */
  lemma {:induction false} CountAppend<T>(s: seq<T>, x: T, y: T)
    ensures Count(s + [x], y) == Count(s, y) + (if y == x then 1 else 0)
  {
    if |s| > 0 {
      assert (s + [x])[1..] == s[1..] + [x];
      CountAppend(s[1..], x, y);
    } else {
      assert Count([x], y) == (if y == x then 1 else 0) + Count([x][1..], y);
    }
  }

  lemma {:induction false} CountWithoutOther<T(!new)>(s: seq<T>, x: T, y: T)
    requires x != y
    ensures Count(Without(s, x), y) == Count(s, y)
  {
    if |s| > 0 {
      CountWithoutOther(s[1..], x, y);
    }
  }

  lemma {:induction false} WithoutIsSubsequence<T(!new)>(s: seq<T>, x: T)
    ensures IsSubsequence(Without(s, x), s)
  {
    if |s| > 0 {
      WithoutIsSubsequence(s[1..], x);
      if s[0] != x {
        assert Without(s, x)[1..] == Without(s[1..], x);
      } else {
        SubsequenceOfTail(Without(s[1..], x), s);
      }
    }
  }

  lemma {:induction false} SubsequenceOfTail<T>(a: seq<T>, b: seq<T>)
    requires |b| > 0 && IsSubsequence(a, b[1..])
    ensures IsSubsequence(a, b)
    decreases |b|, |a|
  {
    if |a| > 0 && a[0] == b[0] {
      SubsequenceDropHead(a, b[1..]);
    }
  }

  lemma {:induction false} SubsequenceDropHead<T>(a: seq<T>, b: seq<T>)
    requires |a| > 0 && IsSubsequence(a, b)
    ensures IsSubsequence(a[1..], b)
    decreases |b|, |a|
  {
    if a[0] == b[0] {
      SubsequenceOfTail(a[1..], b);
    } else {
      SubsequenceDropHead(a, b[1..]);
      SubsequenceOfTail(a[1..], b);
    }
  }

  lemma {:induction false} PrefixIsSubsequence<T>(s: seq<T>, n: nat)
    requires n <= |s|
    ensures IsSubsequence(s[..n], s)
    decreases n
  {
    if n > 0 {
      PrefixIsSubsequence(s[1..], n - 1);
      assert s[..n][1..] == s[1..][..n - 1];
    }
  }

  /** A subsequence stays one when the sequence grows at the end, and grows with it. */
  lemma {:induction false} SubsequenceSnoc<T>(a: seq<T>, b: seq<T>, x: T)
    requires IsSubsequence(a, b)
    ensures IsSubsequence(a, b + [x])
    ensures IsSubsequence(a + [x], b + [x])
    decreases |b|
  {
    if |b| == 0 {
      assert a == [];
      assert (a + [x])[1..] == [] && (b + [x])[1..] == [];
    } else {
      assert (b + [x])[1..] == b[1..] + [x];
      if |a| == 0 {
        assert a + [x] == [x];
        if b[0] != x {
          SubsequenceSnoc(a, b[1..], x);
        }
      } else {
        assert (a + [x])[1..] == a[1..] + [x];
        if a[0] == b[0] {
          SubsequenceSnoc(a[1..], b[1..], x);
        } else {
          SubsequenceSnoc(a, b[1..], x);
        }
      }
    }
  }

  lemma {:induction false} SubsequenceTransitive<T>(a: seq<T>, b: seq<T>, c: seq<T>)
    requires IsSubsequence(a, b) && IsSubsequence(b, c)
    ensures IsSubsequence(a, c)
    decreases |c|
  {
    if |a| > 0 {
      assert |b| > 0 && |c| > 0;
      if b[0] == c[0] {
        if a[0] == b[0] {
          SubsequenceTransitive(a[1..], b[1..], c[1..]);
        } else {
          SubsequenceTransitive(a, b[1..], c[1..]);
        }
      } else {
        SubsequenceTransitive(a, b, c[1..]);
        SubsequenceOfTail(a, c);
      }
    }
  }
}

=== FILE: ledger.dfy ===
/** Wallets and the transaction ledger (models/walletModel.js,
    models/transactionModel.js) and `addMoneyToWallet`
    (controllers/userController.js). The ledger is the append-only sequence of
    transaction documents; a transaction's id is its position in it. */
module Ledger {
  import opened Common

  type UserId = string

  /** The wallet's `ownerModel` discriminator. */
  datatype OwnerKind = UserOwner | VendorOwner

  datatype Owner = Owner(kind: OwnerKind, id: string)

  datatype TxType = Credit | Debit

  /** A transaction's status; the schema's default is `Pending`. */
  datatype TxStatus = Pending | Completed | Failed

  /** The free-text description, kept as the two texts the handlers write. */
  datatype TxDescription =
    | TopUp                    // 'Added money to wallet'
    | OrderPayment(order: nat) // 'Payment for order <id>'

  type TxId = nat

  datatype Transaction = Transaction(
    user: UserId,
    kind: TxType,
    amount: int,
    description: TxDescription,
    status: TxStatus,
    order: Option<nat>)

  datatype Wallet = Wallet(owner: Owner, balance: int, transactions: seq<TxId>)

  datatype WalletError =
    | InvalidAmount   // 400 'Please provide a valid amount'
    | SchemaRejected  // the document fails schema validation and the handler answers 500

  /** What a transaction contributes to its wallet's balance. */
  function Signed(t: Transaction): int {
    if t.status != Completed then 0
    else match t.kind
      case Credit => t.amount
      case Debit => -t.amount
  }

  /** Every id a wallet lists names a transaction in the ledger. */
  predicate ValidIds(ledger: seq<Transaction>, ids: seq<TxId>) {
    forall k :: 0 <= k < |ids| ==> ids[k] < |ledger|
  }

  /** Signed sum of the listed transactions. */
  function LedgerSum(ledger: seq<Transaction>, ids: seq<TxId>): int
    requires ValidIds(ledger, ids)
  {
    if |ids| == 0 then 0 else LedgerSum(ledger, ids[..|ids| - 1]) + Signed(ledger[ids[|ids| - 1]])
  }

  /** The wallet invariant: its balance is the signed sum of the completed
      transactions it lists. */
  predicate Consistent(w: Wallet, ledger: seq<Transaction>) {
    ValidIds(ledger, w.transactions) && w.balance == LedgerSum(ledger, w.transactions)
  }

  /** The wallet `registerUser` creates: balance 0, no transactions. */
  function NewUserWallet(user: UserId): (w: Wallet)
    ensures forall ledger :: Consistent(w, ledger)
  {
    Wallet(Owner(UserOwner, user), 0, [])
  }

  lemma {:induction false} LedgerSumExtend(ledger: seq<Transaction>, ids: seq<TxId>, t: Transaction)
    requires ValidIds(ledger, ids)
    ensures ValidIds(ledger + [t], ids)
    ensures LedgerSum(ledger + [t], ids) == LedgerSum(ledger, ids)
  {
    if |ids| > 0 {
      LedgerSumExtend(ledger, ids[..|ids| - 1], t);
    }
  }

  /** Appending a transaction to the ledger and its id to the wallet moves the
      balance by exactly the transaction's signed amount, keeping the wallet
      consistent. */
  lemma AppendKeepsConsistent(w: Wallet, ledger: seq<Transaction>, t: Transaction)
    ensures Consistent(w, ledger) ==>
              Consistent(Wallet(w.owner, w.balance + Signed(t), w.transactions + [|ledger|]), ledger + [t])
  {
    if Consistent(w, ledger) {
      var ids := w.transactions + [|ledger|];
      LedgerSumExtend(ledger, w.transactions, t);
      assert ids[..|ids| - 1] == w.transactions;
    }
  }

  /** A wallet and ledger after a credit or a debit. */
  datatype Posting = Posting(wallet: Wallet, ledger: seq<Transaction>)

  /** Records `t` in the ledger, lists it in the wallet and applies it to the balance. */
  function Post(w: Wallet, ledger: seq<Transaction>, t: Transaction): (r: Posting)
    ensures r.ledger == ledger + [t]
    ensures r.wallet.owner == w.owner
    ensures r.wallet.transactions == w.transactions + [|ledger|]
    ensures r.wallet.balance == w.balance + Signed(t)
    ensures Consistent(w, ledger) ==> Consistent(r.wallet, r.ledger)
  {
    AppendKeepsConsistent(w, ledger, t);
    Posting(Wallet(w.owner, w.balance + Signed(t), w.transactions + [|ledger|]), ledger + [t])
  }

  /** `!amount || amount <= 0`: an absent, zero or negative amount is refused. */
  predicate ValidAmount(amount: Option<int>) {
    amount.Some? && amount.value > 0
  }

  function TopUpTransaction(user: UserId, amount: int): Transaction {
    Transaction(user, Credit, amount, TopUp, Completed, None)
  }

  /** `addMoneyToWallet` as written: a user without a wallet gets
      `Wallet.create({ user, balance, transactions })`, which names no `owner` and
      no `ownerModel`, both required by the wallet schema, so creation throws and
      the handler answers 500 with nothing written. */
  function AddMoneyToWalletAsWritten(wallet: Option<Wallet>, ledger: seq<Transaction>, user: UserId, amount: Option<int>)
    : (r: Result<Posting, WalletError>)
    ensures !ValidAmount(amount) ==> r == Failure(InvalidAmount)
    ensures ValidAmount(amount) && wallet.None? ==> r == Failure(SchemaRejected)
    ensures ValidAmount(amount) && wallet.Some? ==> r.Success?
  {
    if !ValidAmount(amount) then Failure(InvalidAmount)
    else match wallet
      case None => Failure(SchemaRejected)
      case Some(w) => Success(Post(w, ledger, TopUpTransaction(user, amount.value)))
  }

  /** `addMoneyToWallet` with the evident intent on both paths: an existing wallet
      grows by `amount`; a missing one is created for the user holding `amount`.
      Either way one completed credit of `amount` is appended to the ledger and
      listed in the wallet. */
  function AddMoneyToWallet(wallet: Option<Wallet>, ledger: seq<Transaction>, user: UserId, amount: Option<int>)
    : (r: Result<Posting, WalletError>)
    ensures !ValidAmount(amount) <==> r.Failure?
    ensures r.Failure? ==> r.error == InvalidAmount
    ensures r.Success? ==> r.value.ledger == ledger + [TopUpTransaction(user, amount.value)]
    ensures r.Success? && wallet.Some? ==>
              r.value.wallet.balance == wallet.value.balance + amount.value &&
              r.value.wallet.transactions == wallet.value.transactions + [|ledger|]
    ensures r.Success? && wallet.None? ==>
              r.value.wallet == Wallet(Owner(UserOwner, user), amount.value, [|ledger|])
  {
    if !ValidAmount(amount) then Failure(InvalidAmount)
    else
      var w := wallet.GetOr(NewUserWallet(user));
      Success(Post(w, ledger, TopUpTransaction(user, amount.value)))
  }

  /** A top-up keeps a consistent wallet consistent, and the wallet it creates is
      consistent from the start. */
  lemma AddMoneyKeepsConsistent(wallet: Option<Wallet>, ledger: seq<Transaction>, user: UserId, amount: Option<int>)
    requires wallet.Some? ==> Consistent(wallet.value, ledger)
    requires ValidAmount(amount)
    ensures AddMoneyToWallet(wallet, ledger, user, amount).Success?
    ensures Consistent(AddMoneyToWallet(wallet, ledger, user, amount).value.wallet,
                       AddMoneyToWallet(wallet, ledger, user, amount).value.ledger)
  {
    var w := wallet.GetOr(NewUserWallet(user));
    assert Consistent(w, ledger);
  }

  /** The discrepancy: with no wallet yet, the handler as written refuses every
      top-up that the intended behaviour accepts. */
  lemma AddMoneyNewWalletDiscrepancy(ledger: seq<Transaction>, user: UserId)
    ensures AddMoneyToWalletAsWritten(None, ledger, user, Some(500)) == Failure(SchemaRejected)
    ensures AddMoneyToWallet(None, ledger, user, Some(500)).Success?
    ensures AddMoneyToWallet(None, ledger, user, Some(500)).value.wallet.balance == 500
  {
  }

  /** On an existing wallet the two definitions agree. */
  lemma AddMoneyAgreeOnExistingWallet(w: Wallet, ledger: seq<Transaction>, user: UserId, amount: Option<int>)
    ensures AddMoneyToWalletAsWritten(Some(w), ledger, user, amount) == AddMoneyToWallet(Some(w), ledger, user, amount)
  {
  }
}

=== FILE: orders.dfy ===
/** Orders (models/orderModel.js) and the user's cancellation request
    (`requestOrderCancellation`, controllers/userController.js). The order store
    is a sequence; an order's id is its position in it. */
module Orders {
  import opened Common

  type UserId = string
  type ProductId = string
  type OrderId = nat

  /** A shipping address as the user schema and the order snapshot store it. */
  datatype Address = Address(
    addressLine1: string,
    addressLine2: Option<string>,
    city: string,
    state: string,
    zip: string,
    country: string)

  /** Snapshot line: the product, the quantity and the unit price at purchase time. */
  datatype OrderLine = OrderLine(product: ProductId, quantity: int, price: int)

  datatype PaymentStatus = PaymentPending | Paid | Refunded | PaymentFailed

  datatype PaymentMethod = WalletPayment | CashOnDelivery

  /** One entry of the order's comment thread. */
  datatype Comment = Comment(author: string, message: Option<string>)

  /** `deliveryStatus` is kept as the stored string: the schema enumerates the values
      below, but `updateOrderStatus` writes without running validators, so any
      string can end up stored. */
  const DeliveryStatuses: seq<string> := ["Processing", "Shipped", "Delivered", "Cancelled", "Returned"]

  datatype Order = Order(
    user: UserId,
    vendor: Option<string>,
    products: seq<OrderLine>,
    totalAmount: int,
    paymentStatus: PaymentStatus,
    shippingAddress: Address,
    paymentMethod: PaymentMethod,
    cancellationRequested: bool,
    cancellationReason: Option<string>,
    deliveryStatus: string,
    comments: seq<Comment>)

  /** Sum of price times quantity over snapshot lines. */
  function LinesTotal(lines: seq<OrderLine>): int {
    if |lines| == 0 then 0 else lines[0].price * lines[0].quantity + LinesTotal(lines[1..])
  }

  /** The order invariant: its total is the sum of its snapshot lines' subtotals. */
  predicate TotalMatchesLines(o: Order) {
    o.totalAmount == LinesTotal(o.products)
  }

  datatype CancelError =
    | OrderNotFound   // 404 'Order not found'
    | NotCancellable  // 400 'Order cannot be cancelled at this stage'

  const DefaultCancellationReason: string := "No reason provided"

  /** The stage test `['PENDING', 'PROCESSING'].includes(order.status)`. */
  predicate CancellableStatus(status: Option<string>) {
    status == Some("PENDING") || status == Some("PROCESSING")
  }

  /** `requestOrderCancellation`. `status` is what `order.status` evaluates to: the
      order schema has no such field, so on stored orders it is always absent.
      An absent or empty reason becomes 'No reason provided'. */
  function RequestOrderCancellation(orders: seq<Order>, user: UserId, id: OrderId, status: Option<string>, reason: Option<string>)
    : (r: Result<seq<Order>, CancelError>)
    ensures (id >= |orders| || orders[id].user != user) ==> r == Failure(OrderNotFound)
    ensures id < |orders| && orders[id].user == user && !CancellableStatus(status) ==> r == Failure(NotCancellable)
    ensures r.Success? <==> id < |orders| && orders[id].user == user && CancellableStatus(status)
    ensures r.Success? ==>
              |r.value| == |orders| &&
              (forall k :: 0 <= k < |orders| && k != id ==> r.value[k] == orders[k]) &&
              r.value[id].cancellationRequested &&
              r.value[id].cancellationReason == Some(if reason.None? || reason == Some("") then DefaultCancellationReason else reason.value) &&
              r.value[id] == orders[id].(cancellationRequested := true, cancellationReason := r.value[id].cancellationReason)
  {
    if id >= |orders| || orders[id].user != user then Failure(OrderNotFound)
    else if !CancellableStatus(status) then Failure(NotCancellable)
    else
      var why := if reason.None? || reason == Some("") then DefaultCancellationReason else reason.value;
      Success(orders[id := orders[id].(cancellationRequested := true, cancellationReason := Some(why))])
  }

  /** Because `order.status` does not exist on stored orders, every cancellation
      request is refused once the order is found; and even reading the real field
      would not help, since none of its enumerated values is spelled in capitals. */
  lemma CancellationNeverSucceeds(orders: seq<Order>, user: UserId, id: OrderId, reason: Option<string>)
    ensures RequestOrderCancellation(orders, user, id, None, reason).Failure?
    ensures forall k :: 0 <= k < |DeliveryStatuses| ==>
              RequestOrderCancellation(orders, user, id, Some(DeliveryStatuses[k]), reason).Failure?
  {
  }
}

=== FILE: pagination.dfy ===
/** The page arithmetic shared by `getOrderHistory`, `getWalletTransactions` and
    `getUsers` (controllers/userController.js): `page` and `limit` query
    parameters, the skip offset, the page count and the next/previous links. */
module Pagination {
  import opened Common

  /** `parseInt(x, 10) || d`. `parsed` is `None` when `parseInt` yields NaN
      (absent or non-numeric text); a parsed 0 is falsy and also falls back. */
  function ParamOr(parsed: Option<int>, d: int): (r: int)
    ensures parsed.None? || parsed.value == 0 ==> r == d
    ensures parsed.Some? && parsed.value != 0 ==> r == parsed.value
    ensures d != 0 ==> r != 0
  {
    if parsed.None? || parsed.value == 0 then d else parsed.value
  }

  /** `page` defaults to 1 and `limit` to 10; neither can end up 0, so the page count
      never divides by zero. Both may be negative: the handlers do not check. */
  datatype Query = Query(page: int, limit: int)

  function ParseQuery(page: Option<int>, limit: Option<int>): (q: Query)
    ensures q.page != 0 && q.limit != 0
  {
    Query(ParamOr(page, 1), ParamOr(limit, 10))
  }

  /** `(page - 1) * limit`, the number of records skipped. */
  function StartIndex(q: Query): int {
    (q.page - 1) * q.limit
  }

  /** `page * limit`, one past the last record of the page. */
  function EndIndex(q: Query): int {
    q.page * q.limit
  }

  /** `Math.ceil(total / limit)`. */
  function CeilDiv(total: nat, limit: int): (r: int)
    requires limit != 0
    ensures limit > 0 ==> (r - 1) * limit < total <= r * limit
    ensures limit < 0 ==> r * limit <= total < (r - 1) * limit
  {
    if limit > 0 then
      var r := (total + limit - 1) / limit;
      CeilDivPositive(total, limit);
      r
    else
      var r := -(total / -limit);
      CeilDivNegative(total, limit);
      r
  }

  lemma CeilDivPositive(total: nat, limit: int)
    requires limit > 0
    ensures ((total + limit - 1) / limit - 1) * limit < total <= ((total + limit - 1) / limit) * limit
  {
    var n := total + limit - 1;
    var q := n / limit;
    var m := n % limit;
    assert n == q * limit + m && 0 <= m < limit;
    assert (q - 1) * limit == q * limit - limit;
  }

  lemma CeilDivNegative(total: nat, limit: int)
    requires limit < 0
    ensures (-(total / -limit)) * limit <= total < (-(total / -limit) - 1) * limit
  {
    var b := -limit;
    var q := total / b;
    var m := total % b;
    assert total == q * b + m && 0 <= m < b;
    assert (-q) * limit == q * b;
    assert (-q - 1) * limit == q * b + b;
  }

  /** The pagination block `getUsers` returns. */
  datatype Links = Links(next: Option<int>, prev: Option<int>)

  /** `next` when `endIndex < total`, `prev` when `startIndex > 0`. For an ordinary
      query (positive page and limit) that is: `next` exactly when the page comes
      before the last page that `getOrderHistory` reports, and `prev` exactly when
      the page is not the first, pointing at a page that exists. */
  function PageLinks(q: Query, total: nat): (l: Links)
    ensures l.next.Some? <==> EndIndex(q) < total
    ensures l.next.Some? ==> l.next.value == q.page + 1
    ensures l.prev.Some? <==> StartIndex(q) > 0
    ensures l.prev.Some? ==> l.prev.value == q.page - 1
    ensures q.page >= 1 && q.limit >= 1 ==> (l.next.Some? <==> q.page < CeilDiv(total, q.limit))
    ensures q.page >= 1 && q.limit >= 1 ==> (l.prev.Some? <==> q.page > 1)
    ensures q.page >= 1 && q.limit >= 1 && l.prev.Some? ==> l.prev.value >= 1
  {
    LinksAgreeWithPageCount(q, total);
    Links(if EndIndex(q) < total then Some(q.page + 1) else None,
          if StartIndex(q) > 0 then Some(q.page - 1) else None)
  }

  lemma MulMonotone(a: int, b: int, c: int)
    requires a <= b && c > 0
    ensures a * c <= b * c
  {
  }

  /** The two link tests against the page count, for a positive page and limit. */
  lemma LinksAgreeWithPageCount(q: Query, total: nat)
    ensures q.page >= 1 && q.limit >= 1 ==> (EndIndex(q) < total <==> q.page < CeilDiv(total, q.limit))
    ensures q.page >= 1 && q.limit >= 1 ==> (StartIndex(q) > 0 <==> q.page > 1)
  {
    if q.page < 1 || q.limit < 1 {
      return;
    }
    var t := CeilDiv(total, q.limit);
    if q.page < t {
      MulMonotone(q.page, t - 1, q.limit);
    } else {
      MulMonotone(t, q.page, q.limit);
    }
    if q.page > 1 {
      MulMonotone(1, q.page - 1, q.limit);
    }
  }

  /** The records `skip(startIndex).limit(limit)` returns from the sorted list, for a
      positive limit and a non-negative skip. */
  function PageItems<T>(records: seq<T>, q: Query): (r: seq<T>)
    requires q.limit > 0 && StartIndex(q) >= 0
    ensures |r| <= q.limit
    ensures StartIndex(q) >= |records| ==> r == []
    ensures StartIndex(q) < |records| ==> |r| > 0 && r[0] == records[StartIndex(q)]
    ensures StartIndex(q) < |records| ==>
              |r| == (if |records| - StartIndex(q) < q.limit then |records| - StartIndex(q) else q.limit)
    ensures forall j :: 0 <= j < |r| ==> StartIndex(q) + j < |records| && r[j] == records[StartIndex(q) + j]
  {
    var start := StartIndex(q);
    if start >= |records| then []
    else if start + q.limit >= |records| then records[start..]
    else records[start..start + q.limit]
  }

  /** With a positive limit the pages partition the records: record `i` is item
      `i % limit` of page `i / limit + 1`, and that page is within the page count. */
  lemma PagesPartitionRecords<T>(records: seq<T>, limit: int, i: nat)
    requires limit > 0 && i < |records|
    ensures var q := Query(i / limit + 1, limit);
            StartIndex(q) >= 0 &&
            i % limit < |PageItems(records, q)| &&
            PageItems(records, q)[i % limit] == records[i] &&
            q.page <= CeilDiv(|records|, limit)
  {
    var q := Query(i / limit + 1, limit);
    var p := i / limit;
    assert i == p * limit + i % limit;
    assert StartIndex(q) == p * limit;
    var t := CeilDiv(|records|, limit);
    if q.page > t {
      MulMonotone(t, p, limit);
      assert false;
    }
  }
}

=== FILE: permissions.dfy ===
/** Admin accounts and their authorisation decision: the role enum, the nested
    permission table with its defaults and the `super_admin` pre-save hook
    (models/adminModel.js), and `checkPermission` (controllers/adminController.js). */
module Permissions {
  import opened Common

  datatype Role = SuperAdmin | AdminRole | Moderator

  /** The stored spelling of each role. */
  function RoleName(r: Role): string {
    match r
    case SuperAdmin => "super_admin"
    case AdminRole => "admin"
    case Moderator => "moderator"
  }

  datatype RoleError = RoleNotInEnum  // the schema's enum validator refuses the value

  /** The `role` path: absent means the default 'admin', any spelling outside the
      enum fails validation. */
  function ParseRole(s: Option<string>): (r: Result<Role, RoleError>)
    ensures s.None? ==> r == Success(AdminRole)
    ensures s.Some? ==> (r.Success? <==> s.value in {"super_admin", "admin", "moderator"})
    ensures s.Some? && r.Success? ==> RoleName(r.value) == s.value
  {
    match s
    case None => Success(AdminRole)
    case Some(name) =>
      if name == "super_admin" then Success(SuperAdmin)
      else if name == "admin" then Success(AdminRole)
      else if name == "moderator" then Success(Moderator)
      else Failure(RoleNotInEnum)
  }

  /** Every role survives being stored and read back. */
  lemma ParseRoleName(r: Role)
    ensures ParseRole(Some(RoleName(r))) == Success(r)
  {
  }

  /** The flags of the users, products and categories groups. */
  datatype Crud = Crud(create: bool, read: bool, update: bool, delete: bool)

  /** The vendors group, with its extra `approve` flag. */
  datatype VendorFlags = VendorFlags(create: bool, read: bool, update: bool, delete: bool, approve: bool)

  /** The orders group: read, update and cancel, no create or delete. */
  datatype OrderFlags = OrderFlags(read: bool, update: bool, cancel: bool)

  /** The `permissions` sub-document: five groups of flags and one scalar
      `analytics` flag. */
  datatype PermissionTable = PermissionTable(
    users: Crud,
    vendors: VendorFlags,
    products: Crud,
    orders: OrderFlags,
    categories: Crud,
    analytics: bool)

  datatype Admin = Admin(id: string, role: Role, permissions: PermissionTable)

  /** The schema defaults: read granted everywhere, nothing else. */
  const DefaultCrud: Crud := Crud(false, true, false, false)
  const DefaultPermissions: PermissionTable := PermissionTable(
    DefaultCrud, VendorFlags(false, true, false, false, false), DefaultCrud,
    OrderFlags(true, false, false), DefaultCrud, false)

  /** The table with every flag set, which the hook gives super admins. */
  const FullCrud: Crud := Crud(true, true, true, true)
  const FullPermissions: PermissionTable := PermissionTable(
    FullCrud, VendorFlags(true, true, true, true, true), FullCrud,
    OrderFlags(true, true, true), FullCrud, true)

  /** `group[action]` on a group of create/read/update/delete flags; a name the
      group does not have is `undefined`. */
  predicate CrudFlag(c: Crud, action: string) {
    if action == "create" then c.create
    else if action == "read" then c.read
    else if action == "update" then c.update
    else if action == "delete" then c.delete
    else false
  }

  /** `permissions[entity][action]` taken for its truthiness. A missing entity or a
      missing action is `undefined`, and so is a name looked up on the scalar
      `analytics` flag. The `action` the analytics call sites pass is the boolean
      `true`, which JavaScript turns into the property name "true". */
  function Lookup(p: PermissionTable, entity: string, action: string): (b: bool)
    ensures b ==> (entity, action) in SchemaPairs
    ensures entity == "analytics" ==> !b
  {
    if entity == "users" then CrudFlag(p.users, action)
    else if entity == "vendors" then
      if action == "approve" then p.vendors.approve
      else CrudFlag(Crud(p.vendors.create, p.vendors.read, p.vendors.update, p.vendors.delete), action)
    else if entity == "products" then CrudFlag(p.products, action)
    else if entity == "orders" then
      if action == "read" then p.orders.read
      else if action == "update" then p.orders.update
      else if action == "cancel" then p.orders.cancel
      else false
    else if entity == "categories" then CrudFlag(p.categories, action)
    else if entity == "analytics" then false  // `p.analytics[action]` on a boolean is `undefined`
    else false
  }

  /** `checkPermission`: a super admin passes whatever is asked, anyone else
      passes exactly when the looked-up flag is truthy. */
  function CheckPermission(admin: Admin, entity: string, action: string): (b: bool)
    ensures admin.role == SuperAdmin ==> b
    ensures b && admin.role != SuperAdmin ==> (entity, action) in SchemaPairs
    ensures admin.role != SuperAdmin && admin.permissions == FullPermissions ==> (b <==> (entity, action) in SchemaPairs)
  {
    admin.role == SuperAdmin || Lookup(admin.permissions, entity, action)
  }

  /** The property name the analytics call sites pass. */
  const AnalyticsAction: string := "true"

  /** The (entity, action) pairs the permission schema declares as group flags. */
  const SchemaPairs: set<(string, string)> :=
    {("users", "create"), ("users", "read"), ("users", "update"), ("users", "delete"),
     ("vendors", "create"), ("vendors", "read"), ("vendors", "update"), ("vendors", "delete"), ("vendors", "approve"),
     ("products", "create"), ("products", "read"), ("products", "update"), ("products", "delete"),
     ("orders", "read"), ("orders", "update"), ("orders", "cancel"),
     ("categories", "create"), ("categories", "read"), ("categories", "update"), ("categories", "delete")}

  /** A super admin is permitted every entity and action. */
  lemma SuperAdminAlwaysPermitted(admin: Admin, entity: string, action: string)
    requires admin.role == SuperAdmin
    ensures CheckPermission(admin, entity, action)
  {
  }

  /** Any other role is permitted only one of the declared group flags. */
  lemma PermittedOnlyDeclaredPairs(admin: Admin, entity: string, action: string)
    requires admin.role != SuperAdmin && CheckPermission(admin, entity, action)
    ensures (entity, action) in SchemaPairs
  {
  }

  /** For any other role, each declared pair is decided by its own typed flag. */
  lemma NonSuperFollowsFlags(admin: Admin)
    requires admin.role != SuperAdmin
    ensures var p := admin.permissions;
      && (CheckPermission(admin, "users", "create") <==> p.users.create)
      && (CheckPermission(admin, "users", "read") <==> p.users.read)
      && (CheckPermission(admin, "users", "update") <==> p.users.update)
      && (CheckPermission(admin, "users", "delete") <==> p.users.delete)
      && (CheckPermission(admin, "vendors", "create") <==> p.vendors.create)
      && (CheckPermission(admin, "vendors", "read") <==> p.vendors.read)
      && (CheckPermission(admin, "vendors", "update") <==> p.vendors.update)
      && (CheckPermission(admin, "vendors", "delete") <==> p.vendors.delete)
      && (CheckPermission(admin, "vendors", "approve") <==> p.vendors.approve)
      && (CheckPermission(admin, "products", "create") <==> p.products.create)
      && (CheckPermission(admin, "products", "read") <==> p.products.read)
      && (CheckPermission(admin, "products", "update") <==> p.products.update)
      && (CheckPermission(admin, "products", "delete") <==> p.products.delete)
      && (CheckPermission(admin, "orders", "read") <==> p.orders.read)
      && (CheckPermission(admin, "orders", "update") <==> p.orders.update)
      && (CheckPermission(admin, "orders", "cancel") <==> p.orders.cancel)
      && (CheckPermission(admin, "categories", "create") <==> p.categories.create)
      && (CheckPermission(admin, "categories", "read") <==> p.categories.read)
      && (CheckPermission(admin, "categories", "update") <==> p.categories.update)
      && (CheckPermission(admin, "categories", "delete") <==> p.categories.delete)
  {
  }

  /** The analytics endpoints ask for action `true` of the scalar `analytics` flag,
      so every role but super admin is refused them, whatever the flag says. */
  lemma AnalyticsDeniedToNonSuper(admin: Admin)
    ensures CheckPermission(admin, "analytics", AnalyticsAction) <==> admin.role == SuperAdmin
  {
  }

  /** The subcategory endpoints ask about an entity the table does not have, so
      every role but super admin is refused them. */
  lemma SubcategoriesDeniedToNonSuper(admin: Admin, action: string)
    ensures CheckPermission(admin, "subcategories", action) <==> admin.role == SuperAdmin
  {
  }

  /** An admin or moderator left with the defaults may read the five groups and do
      nothing else. */
  lemma DefaultsGrantReadOnly(admin: Admin, entity: string, action: string)
    requires admin.role != SuperAdmin && admin.permissions == DefaultPermissions
    ensures CheckPermission(admin, entity, action) <==>
              action == "read" && entity in {"users", "vendors", "products", "orders", "categories"}
  {
  }

  /** The pre-save hook: a super admin's table is overwritten with every flag set;
      any other role's table is saved as it is. */
  function NormalizeOnSave(admin: Admin): (r: Admin)
    ensures r.id == admin.id && r.role == admin.role
    ensures admin.role == SuperAdmin ==> forall e, a :: (e, a) in SchemaPairs ==> Lookup(r.permissions, e, a)
    ensures admin.role == SuperAdmin ==> r.permissions.analytics
    ensures admin.role != SuperAdmin ==> r == admin
  {
    if admin.role == SuperAdmin then admin.(permissions := FullPermissions) else admin
  }

  /** The hook is idempotent, and it never changes what `checkPermission` decides:
      the role alone already grants a super admin everything. */
  lemma NormalizeOnSaveKeepsDecisions(admin: Admin, entity: string, action: string)
    ensures NormalizeOnSave(NormalizeOnSave(admin)) == NormalizeOnSave(admin)
    ensures CheckPermission(NormalizeOnSave(admin), entity, action) <==> CheckPermission(admin, entity, action)
  {
  }

  /** Even the full table does not open analytics to anyone but a super admin. */
  lemma FullTableStillDeniesAnalytics(admin: Admin)
    requires admin.role != SuperAdmin && admin.permissions == FullPermissions
    ensures !CheckPermission(admin, "analytics", AnalyticsAction)
    ensures forall e, a :: (e, a) in SchemaPairs ==> CheckPermission(admin, e, a)
  {
  }
}

=== FILE: products.dfy ===
/** Products (models/productModel.js) and the product handlers of
    controllers/productController.js that derive or append values:
    `updateProductStock`, `updatePriceHistory` and `getRelatedProducts`. The
    product collection is a sequence in its natural (stored) order, and a product
    is found by the first entry carrying its id. */
module Products {
  import opened Common

  type ProductId = string
  type CategoryId = string

  datatype ProductStatus = Active | Inactive | OutOfStock

  /** The fields these handlers read or write. Prices are integer minor units;
      `priceHistory` keeps the earlier prices, oldest first (their dates are not
      modelled). */
  datatype Product = Product(
    id: ProductId,
    price: int,
    priceHistory: seq<int>,
    category: Option<CategoryId>,
    tags: seq<string>,
    stock: int,
    status: ProductStatus)

  datatype ProductError =
    | ValidationFailed  // 400: a schema validator refused the write, nothing stored
    | ProductNotFound   // 404 'No product found with that ID'

  /** The position of the first product with id `id`. */
  function Find(catalog: seq<Product>, id: ProductId): (r: Option<nat>)
    ensures r.None? <==> forall k :: 0 <= k < |catalog| ==> catalog[k].id != id
    ensures r.Some? ==> r.value < |catalog| && catalog[r.value].id == id &&
                        forall k :: 0 <= k < r.value ==> catalog[k].id != id
  {
    if |catalog| == 0 then None
    else if catalog[0].id == id then Some(0)
    else match Find(catalog[1..], id)
      case None => None
      case Some(k) => Some(k + 1)
  }

  /** The status `updateProductStock` derives from a stock level. */
  function StatusFor(stock: int): (s: ProductStatus)
    ensures s == Active <==> stock > 0
    ensures s != Inactive
  {
    if stock > 0 then Active else OutOfStock
  }

  /** The status `updateProductStock` computes when the body has no `stock`:
      `undefined > 0` is false. */
  function StatusForAbsent(stock: Option<int>): (s: ProductStatus)
    ensures s == Active <==> stock.Some? && stock.value > 0
    ensures stock.Some? ==> s == StatusFor(stock.value)
  {
    if stock.Some? then StatusFor(stock.value) else OutOfStock
  }

  /** `updateProductStock` as written. `stock` is `None` when the body has none: the
      key is then dropped from the update, yet the status is still derived from it,
      so the product is marked 'Out of Stock' with its stock kept. The update
      validators run first, so a negative stock (below the schema's `min: 0`) is
      refused even for an unknown id. */
  function UpdateProductStockAsWritten(catalog: seq<Product>, id: ProductId, stock: Option<int>)
    : (r: Result<seq<Product>, ProductError>)
    ensures stock.Some? && stock.value < 0 ==> r == Failure(ValidationFailed)
    ensures (stock.None? || stock.value >= 0) && Find(catalog, id).None? ==> r == Failure(ProductNotFound)
    ensures r.Success? <==> (stock.None? || stock.value >= 0) && Find(catalog, id).Some?
    ensures r.Success? ==>
              var i := Find(catalog, id).value;
              |r.value| == |catalog| &&
              (forall k :: 0 <= k < |catalog| && k != i ==> r.value[k] == catalog[k]) &&
              r.value[i].stock == (if stock.Some? then stock.value else catalog[i].stock) &&
              (r.value[i].status == Active <==> stock.Some? && stock.value > 0) &&
              r.value[i] == catalog[i].(stock := r.value[i].stock, status := r.value[i].status)
  {
    if stock.Some? && stock.value < 0 then Failure(ValidationFailed)
    else match Find(catalog, id)
      case None => Failure(ProductNotFound)
      case Some(i) => Success(catalog[i := catalog[i].(stock := stock.GetOr(catalog[i].stock), status := StatusForAbsent(stock))])
  }

  /** `updateProductStock` as evidently intended: a request without `stock` is
      refused as the schema's `required` rule words it ('Product stock is
      required'), before the lookup, and nothing is stored; a given stock is
      handled as written. */
  function UpdateProductStock(catalog: seq<Product>, id: ProductId, stock: Option<int>): (r: Result<seq<Product>, ProductError>)
    ensures stock.None? || stock.value < 0 ==> r == Failure(ValidationFailed)
    ensures stock.Some? && stock.value >= 0 && Find(catalog, id).None? ==> r == Failure(ProductNotFound)
    ensures r.Success? <==> stock.Some? && stock.value >= 0 && Find(catalog, id).Some?
    ensures r.Success? ==>
              var i := Find(catalog, id).value;
              |r.value| == |catalog| &&
              (forall k :: 0 <= k < |catalog| && k != i ==> r.value[k] == catalog[k]) &&
              r.value[i].stock == stock.value &&
              (r.value[i].status == Active <==> stock.value > 0) &&
              (r.value[i].status == OutOfStock <==> stock.value == 0) &&
              r.value[i] == catalog[i].(stock := stock.value, status := r.value[i].status)
  {
    if stock.None? then Failure(ValidationFailed)
    else UpdateProductStockAsWritten(catalog, id, stock)
  }

  /** The product's status agrees with its stock. */
  predicate StockStatusAgree(p: Product) {
    (p.status == Active <==> p.stock > 0) && (p.status == OutOfStock <==> p.stock <= 0)
  }

  /** After a stock update the product's status agrees with its stock, whatever it
      was before (an `Inactive` product becomes `Active` or `Out of Stock`), and
      repeating the same update changes nothing further. */
  lemma StockUpdateEstablishesAgreement(catalog: seq<Product>, id: ProductId, stock: Option<int>)
    requires UpdateProductStock(catalog, id, stock).Success?
    ensures var c := UpdateProductStock(catalog, id, stock).value;
            StockStatusAgree(c[Find(catalog, id).value])
    ensures var c := UpdateProductStock(catalog, id, stock).value;
            UpdateProductStock(c, id, stock) == Success(c)
  {
    var i := Find(catalog, id).value;
    var c := UpdateProductStock(catalog, id, stock).value;
    assert forall k :: 0 <= k < |c| ==> c[k].id == catalog[k].id;
    assert Find(c, id) == Find(catalog, id);
    assert c[i := c[i].(stock := stock.value, status := StatusForAbsent(stock))] == c;
  }

  /** The two handlers agree whenever the request carries a stock. */
  lemma StockUpdateAgreesWhenGiven(catalog: seq<Product>, id: ProductId, stock: int)
    ensures UpdateProductStockAsWritten(catalog, id, Some(stock)) == UpdateProductStock(catalog, id, Some(stock))
  {
  }

  /** As written, a request without `stock` on an in-stock product answers 200 and
      leaves it 'Out of Stock' with a positive stock, so status and stock disagree;
      the corrected handler refuses it. */
  lemma StockUpdateWithoutStockDiscrepancy(catalog: seq<Product>, id: ProductId)
    requires Find(catalog, id).Some? && catalog[Find(catalog, id).value].stock > 0
    ensures UpdateProductStockAsWritten(catalog, id, None).Success?
    ensures var c := UpdateProductStockAsWritten(catalog, id, None).value;
            !StockStatusAgree(c[Find(catalog, id).value])
    ensures UpdateProductStock(catalog, id, None) == Failure(ValidationFailed)
  {
  }

  /** `updatePriceHistory`: 404 for an unknown id; otherwise the current price is
      appended to the history and the new price set. An absent new price fails the
      schema's `required` check on save, so nothing is stored. */
  function UpdatePriceHistory(catalog: seq<Product>, id: ProductId, price: Option<int>): (r: Result<seq<Product>, ProductError>)
    ensures Find(catalog, id).None? ==> r == Failure(ProductNotFound)
    ensures Find(catalog, id).Some? && price.None? ==> r == Failure(ValidationFailed)
    ensures r.Success? <==> Find(catalog, id).Some? && price.Some?
    ensures r.Success? ==>
              var i := Find(catalog, id).value;
              |r.value| == |catalog| &&
              (forall k :: 0 <= k < |catalog| && k != i ==> r.value[k] == catalog[k]) &&
              |r.value[i].priceHistory| == |catalog[i].priceHistory| + 1 &&
              r.value[i].priceHistory[..|catalog[i].priceHistory|] == catalog[i].priceHistory &&
              r.value[i].priceHistory[|catalog[i].priceHistory|] == catalog[i].price &&
              r.value[i].price == price.value &&
              r.value[i].id == id &&
              r.value[i].(priceHistory := catalog[i].priceHistory, price := catalog[i].price) == catalog[i]
  {
    match Find(catalog, id)
    case None => Failure(ProductNotFound)
    case Some(i) =>
      if price.None? then Failure(ValidationFailed)
      else
        var p := catalog[i];
        Success(catalog[i := p.(priceHistory := p.priceHistory + [p.price], price := price.value)])
  }

  /** Applies a sequence of price changes to one product, one request after another. */
  function Reprice(catalog: seq<Product>, id: ProductId, prices: seq<int>): (r: seq<Product>)
    ensures |r| == |catalog|
  {
    if |prices| == 0 then catalog
    else
      var before := Reprice(catalog, id, prices[..|prices| - 1]);
      match UpdatePriceHistory(before, id, Some(prices[|prices| - 1]))
      case Success(c) => c
      case Failure(_) => before
  }

  /** The history records every price the product ever had, in order: after the
      changes `prices`, the history is the original history, then the original
      price, then every new price but the last, which is the current price. */
  lemma {:induction false} RepriceKeepsEveryPrice(catalog: seq<Product>, id: ProductId, prices: seq<int>)
    requires Find(catalog, id).Some? && |prices| > 0
    ensures Find(Reprice(catalog, id, prices), id) == Find(catalog, id)
    ensures var i := Find(catalog, id).value;
            var p := Reprice(catalog, id, prices)[i];
            p.priceHistory == catalog[i].priceHistory + [catalog[i].price] + prices[..|prices| - 1] &&
            p.price == prices[|prices| - 1]
  {
    if |prices| == 1 {
      RepriceOnce(catalog, id, prices);
    } else {
      RepriceKeepsEveryPrice(catalog, id, prices[..|prices| - 1]);
      RepriceOnceMore(catalog, id, prices);
    }
  }

  lemma RepriceOnce(catalog: seq<Product>, id: ProductId, prices: seq<int>)
    requires Find(catalog, id).Some? && |prices| == 1
    ensures Find(Reprice(catalog, id, prices), id) == Find(catalog, id)
    ensures var i := Find(catalog, id).value;
            var p := Reprice(catalog, id, prices)[i];
            p.priceHistory == catalog[i].priceHistory + [catalog[i].price] + prices[..0] &&
            p.price == prices[0]
  {
    assert prices[..0] == [];
    RepriceLast(catalog, id, prices);
  }

  /** One more change extends the history by the price it replaces. */
  lemma RepriceOnceMore(catalog: seq<Product>, id: ProductId, prices: seq<int>)
    requires Find(catalog, id).Some? && |prices| >= 2
    requires var before := Reprice(catalog, id, prices[..|prices| - 1]);
             var i := Find(catalog, id).value;
             Find(before, id) == Find(catalog, id) &&
             before[i].priceHistory == catalog[i].priceHistory + [catalog[i].price] + prices[..|prices| - 1][..|prices| - 2] &&
             before[i].price == prices[..|prices| - 1][|prices| - 2]
    ensures Find(Reprice(catalog, id, prices), id) == Find(catalog, id)
    ensures var i := Find(catalog, id).value;
            var p := Reprice(catalog, id, prices)[i];
            p.priceHistory == catalog[i].priceHistory + [catalog[i].price] + prices[..|prices| - 1] &&
            p.price == prices[|prices| - 1]
  {
    var n := |prices|;
    RepriceLast(catalog, id, prices);
    assert prices[..n - 1][..n - 2] == prices[..n - 2];
    HistoryGrows(catalog[Find(catalog, id).value].priceHistory + [catalog[Find(catalog, id).value].price], prices, n);
  }

  /** The last change of a run is one `updatePriceHistory` on the result of the
      earlier ones. */
  lemma RepriceLast(catalog: seq<Product>, id: ProductId, prices: seq<int>)
    requires |prices| > 0 && Find(Reprice(catalog, id, prices[..|prices| - 1]), id).Some?
    ensures var before := Reprice(catalog, id, prices[..|prices| - 1]);
            var i := Find(before, id).value;
            var after := Reprice(catalog, id, prices);
            Find(after, id) == Find(before, id) &&
            after[i].priceHistory == before[i].priceHistory + [before[i].price] &&
            after[i].price == prices[|prices| - 1]
  {
    var before := Reprice(catalog, id, prices[..|prices| - 1]);
    FindAfterUpdate(before, id, Some(prices[|prices| - 1]));
  }

  lemma HistoryGrows(start: seq<int>, prices: seq<int>, n: nat)
    requires 2 <= n == |prices|
    ensures start + prices[..n - 2] + [prices[n - 2]] == start + prices[..n - 1]
  {
    assert prices[..n - 2] + [prices[n - 2]] == prices[..n - 1];
  }

  /** A successful price change keeps the product where `Find` locates it. */
  lemma FindAfterUpdate(catalog: seq<Product>, id: ProductId, price: Option<int>)
    requires Find(catalog, id).Some? && price.Some?
    ensures Find(UpdatePriceHistory(catalog, id, price).value, id) == Find(catalog, id)
  {
    var c := UpdatePriceHistory(catalog, id, price).value;
    assert forall k :: 0 <= k < |c| ==> c[k].id == catalog[k].id;
  }

  /** The query of `getRelatedProducts`: another product in the same category, or
      one sharing a tag (`$in` on the tag list). A product without a category
      matches the others without one. */
  predicate Related(p: Product, q: Product) {
    q.id != p.id && (q.category == p.category || exists t :: t in q.tags && t in p.tags)
  }

  /** The catalog entries the query matches, in natural order. */
  function RelatedCandidates(catalog: seq<Product>, p: Product): (r: seq<Product>)
    ensures |r| <= |catalog|
    ensures forall k :: 0 <= k < |r| ==> Related(p, r[k]) && r[k] in catalog
    ensures forall q :: q in catalog && Related(p, q) ==> q in r
    ensures IsSubsequence(r, catalog)
  {
    if |catalog| == 0 then []
    else
      var rest := RelatedCandidates(catalog[1..], p);
      SubsequenceOfTail(rest, catalog);
      if Related(p, catalog[0]) then [catalog[0]] + rest else rest
  }

  const RelatedLimit: nat := 5

  /** `getRelatedProducts`: 404 for an unknown id; otherwise the first five products
      the query matches. */
  function GetRelatedProducts(catalog: seq<Product>, id: ProductId): (r: Result<seq<Product>, ProductError>)
    ensures r.Failure? <==> Find(catalog, id).None?
    ensures r.Failure? ==> r.error == ProductNotFound
    ensures r.Success? ==>
              var p := catalog[Find(catalog, id).value];
              |r.value| <= RelatedLimit &&
              (forall k :: 0 <= k < |r.value| ==> r.value[k].id != id && Related(p, r.value[k])) &&
              IsSubsequence(r.value, catalog) &&
              (|RelatedCandidates(catalog, p)| <= RelatedLimit ==>
                 forall q :: q in catalog && Related(p, q) ==> q in r.value)
    ensures r.Success? ==>
              var c := RelatedCandidates(catalog, catalog[Find(catalog, id).value]);
              |r.value| == (if |c| < RelatedLimit then |c| else RelatedLimit) &&
              r.value == c[..|r.value|]
  {
    match Find(catalog, id)
    case None => Failure(ProductNotFound)
    case Some(i) =>
      var all := RelatedCandidates(catalog, catalog[i]);
      var r := Take(all, RelatedLimit);
      PrefixIsSubsequence(all, |r|);
      SubsequenceTransitive(r, all, catalog);
      Success(r)
  }

  /** Relatedness is symmetric: when `q` is offered beside `p`, `p` is a candidate
      beside `q`. */
  lemma RelatedSymmetric(p: Product, q: Product)
    requires Related(p, q)
    ensures Related(q, p)
  {
    if q.category != p.category {
      var t :| t in q.tags && t in p.tags;
      assert t in p.tags && t in q.tags;
    }
  }
}

=== FILE: ranking.dfy ===
/** The two order-line rankings: `getBestSellingProducts`
    (controllers/vendorController.js) and `getFrequentlyBoughtTogether`
    (controllers/productController.js). Both unwind order lines, group them by
    product, sort the groups by a count in descending order and keep the first
    few. MongoDB leaves the order of equal counts unspecified; the model fixes one
    such order. */
module Ranking {
  import opened Common
  import Orders
  import Products

  type Key = string

  /** One unwound order line's contribution to its product's group. */
  datatype Entry = Entry(key: Key, count: int, revenue: int)

  /** One output document of the `$group` stage. */
  datatype Tally = Tally(key: Key, count: int, revenue: int)

  function KeysOf(ts: seq<Tally>): (r: seq<Key>)
    ensures |r| == |ts| && forall i :: 0 <= i < |ts| ==> r[i] == ts[i].key
  {
    seq(|ts|, i requires 0 <= i < |ts| => ts[i].key)
  }

  function EntryKeys(es: seq<Entry>): (r: seq<Key>)
    ensures |r| == |es| && forall i :: 0 <= i < |es| ==> r[i] == es[i].key
  {
    seq(|es|, i requires 0 <= i < |es| => es[i].key)
  }

  /** Some entry has key `k`. */
  predicate HasKey(es: seq<Entry>, k: Key) {
    k in EntryKeys(es)
  }

  /** `$sum` of the counts of the entries with key `k`. */
  function CountOf(es: seq<Entry>, k: Key): int {
    if |es| == 0 then 0
    else CountOf(es[..|es| - 1], k) + (if es[|es| - 1].key == k then es[|es| - 1].count else 0)
  }

  /** `$sum` of the revenues of the entries with key `k`. */
  function RevenueOf(es: seq<Entry>, k: Key): int {
    if |es| == 0 then 0
    else RevenueOf(es[..|es| - 1], k) + (if es[|es| - 1].key == k then es[|es| - 1].revenue else 0)
  }

  /** Groups with distinct keys, each key occurring in `es` and each group holding
      the sums over that key's entries. */
  predicate SumsOf(ts: seq<Tally>, es: seq<Entry>) {
    && NoDuplicates(KeysOf(ts))
    && (forall i :: 0 <= i < |ts| ==>
          HasKey(es, ts[i].key) && ts[i].count == CountOf(es, ts[i].key) && ts[i].revenue == RevenueOf(es, ts[i].key))
  }

  /** The groups of `es`: sums for every key of `es`, once each. */
  ghost predicate GroupsOf(ts: seq<Tally>, es: seq<Entry>) {
    SumsOf(ts, es) && forall k :: HasKey(es, k) ==> k in KeysOf(ts)
  }

  /** The position of the group for `k`, if there is one. */
  function KeyIndex(ts: seq<Tally>, k: Key): (r: Option<nat>)
    ensures r.None? <==> k !in KeysOf(ts)
    ensures r.Some? ==> r.value < |ts| && ts[r.value].key == k
  {
    if |ts| == 0 then None
    else if ts[|ts| - 1].key == k then Some(|ts| - 1)
    else
      var r := KeyIndex(ts[..|ts| - 1], k);
      assert KeysOf(ts) == KeysOf(ts[..|ts| - 1]) + [ts[|ts| - 1].key];
      r
  }

  /** Folds one entry into the groups. */
  function AddEntry(ts: seq<Tally>, e: Entry): seq<Tally> {
    match KeyIndex(ts, e.key)
    case Some(j) => ts[j := Tally(e.key, ts[j].count + e.count, ts[j].revenue + e.revenue)]
    case None => ts + [Tally(e.key, e.count, e.revenue)]
  }

  /** The `$group` stage: one group per key, in order of first appearance, each
      holding the sums over that key's entries. */
  function GroupBy(es: seq<Entry>): (r: seq<Tally>)
    ensures GroupsOf(r, es)
  {
    if |es| == 0 then []
    else
      var prefix := es[..|es| - 1];
      var e := es[|es| - 1];
      var ts := GroupBy(prefix);
      assert prefix + [e] == es;
      GroupStep(prefix, e, ts);
      AddEntry(ts, e)
  }

  /** Folding an entry into the groups of a prefix gives the groups of the longer
      sequence. */
  lemma GroupStep(prefix: seq<Entry>, e: Entry, ts: seq<Tally>)
    requires GroupsOf(ts, prefix)
    ensures GroupsOf(AddEntry(ts, e), prefix + [e])
  {
    match KeyIndex(ts, e.key)
    case Some(j) => GroupStepFound(prefix, e, ts, j);
    case None => GroupStepNew(prefix, e, ts);
  }

  lemma GroupStepFound(prefix: seq<Entry>, e: Entry, ts: seq<Tally>, j: nat)
    requires GroupsOf(ts, prefix)
    requires j < |ts| && ts[j].key == e.key
    ensures GroupsOf(ts[j := Tally(e.key, ts[j].count + e.count, ts[j].revenue + e.revenue)], prefix + [e])
  {
    var es := prefix + [e];
    var r := ts[j := Tally(e.key, ts[j].count + e.count, ts[j].revenue + e.revenue)];
    assert es[..|es| - 1] == prefix;
    assert EntryKeys(es) == EntryKeys(prefix) + [e.key];
    assert KeysOf(r) == KeysOf(ts);
    forall i | 0 <= i < |r|
      ensures HasKey(es, r[i].key) && r[i].count == CountOf(es, r[i].key) && r[i].revenue == RevenueOf(es, r[i].key)
    {
      if i != j {
        assert KeysOf(ts)[i] != KeysOf(ts)[j];
      }
    }
  }

  lemma GroupStepNew(prefix: seq<Entry>, e: Entry, ts: seq<Tally>)
    requires GroupsOf(ts, prefix)
    requires e.key !in KeysOf(ts)
    ensures GroupsOf(ts + [Tally(e.key, e.count, e.revenue)], prefix + [e])
  {
    var es := prefix + [e];
    var r := ts + [Tally(e.key, e.count, e.revenue)];
    assert es[..|es| - 1] == prefix;
    assert EntryKeys(es) == EntryKeys(prefix) + [e.key];
    assert KeysOf(r) == KeysOf(ts) + [e.key];
    AbsentSums(prefix, e.key);
    assert NoDuplicates(KeysOf(r)) by {
      forall a, b | 0 <= a < b < |r| ensures KeysOf(r)[a] != KeysOf(r)[b] {
        assert KeysOf(r)[a] == KeysOf(ts)[a];
        if b == |ts| { assert KeysOf(ts)[a] in KeysOf(ts); }
      }
    }
  }

  lemma {:induction false} AbsentSums(es: seq<Entry>, k: Key)
    requires !HasKey(es, k)
    ensures CountOf(es, k) == 0 && RevenueOf(es, k) == 0
  {
    if |es| > 0 {
      var p := es[..|es| - 1];
      assert EntryKeys(es) == EntryKeys(p) + [es[|es| - 1].key];
      AbsentSums(p, k);
    }
  }

  /** Sorted by count, largest first. */
  predicate SortedDesc(ts: seq<Tally>) {
    forall i, j :: 0 <= i < j < |ts| ==> ts[i].count >= ts[j].count
  }

  /** Places `t` before the first group whose count it reaches. */
  function Insert(t: Tally, ts: seq<Tally>): (r: seq<Tally>)
    requires SortedDesc(ts)
    ensures |r| == |ts| + 1
    ensures multiset(r) == multiset(ts) + multiset{t}
    ensures forall x :: x in r ==> x == t || x in ts
    ensures SortedDesc(r)
  {
    if |ts| == 0 then [t]
    else if t.count >= ts[0].count then [t] + ts
    else
      var rest := Insert(t, ts[1..]);
      assert ts == [ts[0]] + ts[1..];
      HeadAboveRest(t, ts, rest);
      [ts[0]] + rest
  }

  lemma HeadAboveRest(t: Tally, ts: seq<Tally>, rest: seq<Tally>)
    requires SortedDesc(ts) && |ts| > 0 && t.count < ts[0].count
    requires SortedDesc(rest) && forall x :: x in rest ==> x == t || x in ts[1..]
    ensures SortedDesc([ts[0]] + rest)
  {
    var r := [ts[0]] + rest;
    forall i, j | 0 <= i < j < |r| ensures r[i].count >= r[j].count {
      assert r[j] == rest[j - 1] && rest[j - 1] in rest;
      if i > 0 {
        assert r[i] == rest[i - 1];
      } else if r[j] != t {
        var m :| 0 <= m < |ts[1..]| && ts[1..][m] == r[j];
        assert ts[m + 1] == r[j];
      }
    }
  }

  /** The `$sort` stage: the groups rearranged, largest count first. */
  function SortByCount(ts: seq<Tally>): (r: seq<Tally>)
    ensures SortedDesc(r)
    ensures multiset(r) == multiset(ts)
    ensures |r| == |ts|
  {
    if |ts| == 0 then []
    else
      assert ts == [ts[0]] + ts[1..];
      Insert(ts[0], SortByCount(ts[1..]))
  }

  /** `$sort` then `$limit`: the first `n` groups by count. */
  function Top(ts: seq<Tally>, n: nat): (r: seq<Tally>)
    ensures |r| == if |ts| < n then |ts| else n
    ensures SortedDesc(r)
    ensures multiset(r) <= multiset(ts)
    ensures forall t :: t in ts && t !in r ==> forall i :: 0 <= i < |r| ==> r[i].count >= t.count
  {
    var sorted := SortByCount(ts);
    var r := Take(sorted, n);
    PrefixOfSorted(sorted, |r|);
    forall t | t in ts ensures t in sorted {
      assert t in multiset(ts);
    }
    r
  }

  /** Splitting a sorted sequence: the prefix is a sub-multiset, and every element
      outside it counts no more than any element in it. */
  lemma PrefixOfSorted(sorted: seq<Tally>, n: nat)
    requires SortedDesc(sorted) && n <= |sorted|
    ensures multiset(sorted[..n]) <= multiset(sorted)
    ensures forall t :: t in sorted && t !in sorted[..n] ==> forall i :: 0 <= i < n ==> sorted[i].count >= t.count
  {
    PrefixSubMultiset(sorted, n);
    forall t | t in sorted && t !in sorted[..n] ensures forall i :: 0 <= i < n ==> sorted[i].count >= t.count {
      PrefixDominates(sorted, n, t);
    }
  }

  lemma PrefixSubMultiset(sorted: seq<Tally>, n: nat)
    requires n <= |sorted|
    ensures multiset(sorted[..n]) <= multiset(sorted)
  {
    assert sorted == sorted[..n] + sorted[n..];
    assert multiset(sorted) == multiset(sorted[..n]) + multiset(sorted[n..]);
  }

  lemma PrefixDominates(sorted: seq<Tally>, n: nat, t: Tally)
    requires SortedDesc(sorted) && n <= |sorted|
    requires t in sorted && t !in sorted[..n]
    ensures forall i :: 0 <= i < n ==> sorted[i].count >= t.count
  {
    var p :| 0 <= p < |sorted| && sorted[p] == t;
    assert forall q :: 0 <= q < n ==> sorted[..n][q] == sorted[q];
    assert p >= n;
  }

  /** Dropping every group with key `k` (the `$match: { _id: { $ne } }` stage). */
  function DropKey(ts: seq<Tally>, k: Key): (r: seq<Tally>)
    ensures forall t :: t in r <==> t in ts && t.key != k
    ensures multiset(r) <= multiset(ts)
  {
    if |ts| == 0 then []
    else
      assert ts == [ts[0]] + ts[1..];
      var rest := DropKey(ts[1..], k);
      if ts[0].key == k then rest else [ts[0]] + rest
  }

  /** Two positions of a sub-multiset of a duplicate-free grouping hold distinct keys. */
  lemma DistinctInSubmultiset(groups: seq<Tally>, r: seq<Tally>, a: nat, b: nat)
    requires NoDuplicates(KeysOf(groups)) && multiset(r) <= multiset(groups)
    requires a < b < |r|
    ensures r[a].key != r[b].key
  {
    assert r[a] in multiset(r) && r[b] in multiset(r);
    var i :| 0 <= i < |groups| && groups[i] == r[a];
    var j :| 0 <= j < |groups| && groups[j] == r[b];
    DistinctKeysCountOne(groups, i);
    TwoPositions(r, a, b);
    assert KeysOf(groups)[i] == r[a].key && KeysOf(groups)[j] == r[b].key;
    assert r[a].key == r[b].key ==> i == j;
  }

  /** Equal elements at two positions occur at least twice. */
  lemma TwoPositions(r: seq<Tally>, a: nat, b: nat)
    requires a < b < |r|
    ensures r[a] == r[b] ==> multiset(r)[r[a]] >= 2
  {
    assert r == r[..a] + [r[a]] + r[a + 1..b] + [r[b]] + r[b + 1..];
    assert multiset(r) == multiset(r[..a]) + multiset{r[a]} + multiset(r[a + 1..b]) + multiset{r[b]} + multiset(r[b + 1..]);
  }

  /** In a duplicate-free grouping every group occurs once. */
  lemma DistinctKeysCountOne(groups: seq<Tally>, i: nat)
    requires NoDuplicates(KeysOf(groups)) && i < |groups|
    ensures multiset(groups)[groups[i]] == 1
  {
    var t := groups[i];
    var before, after := groups[..i], groups[i + 1..];
    assert groups == before + [t] + after;
    assert t !in before by {
      forall k | 0 <= k < |before| ensures before[k] != t {
        assert before[k] == groups[k];
        assert KeysOf(groups)[k] != KeysOf(groups)[i];
      }
    }
    assert t !in after by {
      forall k | 0 <= k < |after| ensures after[k] != t {
        assert after[k] == groups[i + 1 + k];
        assert KeysOf(groups)[i + 1 + k] != KeysOf(groups)[i];
      }
    }
  }

  /** A sub-multiset of the same size is the whole multiset. */
  lemma SubmultisetSameSize(a: seq<Tally>, b: seq<Tally>)
    requires multiset(a) <= multiset(b)
    ensures |a| == |b| ==> multiset(a) == multiset(b)
  {
    var d := multiset(b) - multiset(a);
    assert multiset(b) == multiset(a) + d;
  }

  /** A sub-multiset of groups keeps their properties. */
  lemma SubGroups(groups: seq<Tally>, r: seq<Tally>, es: seq<Entry>)
    requires SumsOf(groups, es) && multiset(r) <= multiset(groups)
    ensures SumsOf(r, es)
    ensures forall i :: 0 <= i < |r| ==> r[i] in groups
  {
    forall i | 0 <= i < |r| ensures r[i] in groups {
      assert r[i] in multiset(r);
    }
    forall i | 0 <= i < |r| ensures HasKey(es, r[i].key) && r[i].count == CountOf(es, r[i].key) && r[i].revenue == RevenueOf(es, r[i].key) {
      var j :| 0 <= j < |groups| && groups[j] == r[i];
    }
    forall a, b | 0 <= a < b < |r| ensures KeysOf(r)[a] != KeysOf(r)[b] {
      DistinctInSubmultiset(groups, r, a, b);
    }
  }

  /** A key of the groups missing from their top `n` only occurs when the top is
      full, and then counts no more than anything in it. */
  lemma TopLeavesOutOnlySmaller(groups: seq<Tally>, n: nat, es: seq<Entry>, k: Key)
    requires SumsOf(groups, es)
    requires k in KeysOf(groups) && k !in KeysOf(Top(groups, n))
    ensures |Top(groups, n)| == n
    ensures forall i :: 0 <= i < |Top(groups, n)| ==> Top(groups, n)[i].count >= CountOf(es, k)
  {
    var r := Top(groups, n);
    var j :| 0 <= j < |groups| && KeysOf(groups)[j] == k;
    var t := groups[j];
    assert t in groups;
    assert t !in r by {
      forall i | 0 <= i < |r| ensures r[i] != t {
        assert KeysOf(r)[i] != k;
      }
    }
    SubmultisetSameSize(r, groups);
    assert t in multiset(groups);
  }

  /** Dropping a key keeps every other key. */
  lemma DropKeyKeys(groups: seq<Tally>, p: Key)
    ensures forall k :: k in KeysOf(groups) && k != p ==> k in KeysOf(DropKey(groups, p))
    ensures p !in KeysOf(DropKey(groups, p))
  {
    var r := DropKey(groups, p);
    forall k | k in KeysOf(groups) && k != p ensures k in KeysOf(r) {
      var j :| 0 <= j < |groups| && KeysOf(groups)[j] == k;
      assert groups[j] in r;
      var i :| 0 <= i < |r| && r[i] == groups[j];
      assert KeysOf(r)[i] == k;
    }
    forall i | 0 <= i < |r| ensures KeysOf(r)[i] != p {
      assert r[i] in r;
    }
  }

  // ---- getBestSellingProducts ----

  const BestSellerLimit: nat := 10

  /** The unwound lines of the vendor's orders, each contributing its quantity to
      the units sold and price times quantity to the revenue. */
  function SaleEntries(orders: seq<Orders.Order>, vendor: string): seq<Entry> {
    if |orders| == 0 then []
    else
      var o := orders[|orders| - 1];
      SaleEntries(orders[..|orders| - 1], vendor) +
        (if o.vendor == Some(vendor) then LineSales(o.products) else [])
  }

  function LineSales(lines: seq<Orders.OrderLine>): (r: seq<Entry>)
    ensures |r| == |lines|
    ensures forall i :: 0 <= i < |lines| ==>
              r[i] == Entry(lines[i].product, lines[i].quantity, lines[i].price * lines[i].quantity)
  {
    if |lines| == 0 then []
    else [Entry(lines[0].product, lines[0].quantity, lines[0].price * lines[0].quantity)] + LineSales(lines[1..])
  }

  /** `getBestSellingProducts`: at most ten products the vendor sold, most units
      first, each with its units sold and its revenue summed over the vendor's order
      lines; no product left out sold more units than one listed, and a list shorter
      than ten names every product the vendor sold. */
  function BestSellingProducts(orders: seq<Orders.Order>, vendor: string): (r: seq<Tally>)
    ensures |r| <= BestSellerLimit
    ensures SortedDesc(r)
    ensures NoDuplicates(KeysOf(r))
    ensures forall i :: 0 <= i < |r| ==>
              HasKey(SaleEntries(orders, vendor), r[i].key) &&
              r[i].count == CountOf(SaleEntries(orders, vendor), r[i].key) &&
              r[i].revenue == RevenueOf(SaleEntries(orders, vendor), r[i].key)
    ensures forall k :: HasKey(SaleEntries(orders, vendor), k) && k !in KeysOf(r) ==>
              |r| == BestSellerLimit &&
              forall i :: 0 <= i < |r| ==> r[i].count >= CountOf(SaleEntries(orders, vendor), k)
  {
    var es := SaleEntries(orders, vendor);
    var groups := GroupBy(es);
    var r := Top(groups, BestSellerLimit);
    SubGroups(groups, r, es);
    forall k | HasKey(es, k) && k !in KeysOf(r)
      ensures |r| == BestSellerLimit && forall i :: 0 <= i < |r| ==> r[i].count >= CountOf(es, k)
    {
      TopLeavesOutOnlySmaller(groups, BestSellerLimit, es, k);
    }
    r
  }

  // ---- getFrequentlyBoughtTogether ----

  const TogetherLimit: nat := 5

  /** The order contains a line for `p` (`'products.product': p`). */
  predicate Contains(o: Orders.Order, p: Key) {
    exists i :: 0 <= i < |o.products| && o.products[i].product == p
  }

  /** The unwound lines of the orders containing `p`, each counting once. */
  function TogetherEntries(orders: seq<Orders.Order>, p: Key): seq<Entry> {
    if |orders| == 0 then []
    else
      var o := orders[|orders| - 1];
      TogetherEntries(orders[..|orders| - 1], p) + (if Contains(o, p) then LineOccurrences(o.products) else [])
  }

  function LineOccurrences(lines: seq<Orders.OrderLine>): (r: seq<Entry>)
    ensures |r| == |lines|
    ensures forall i :: 0 <= i < |lines| ==> r[i] == Entry(lines[i].product, 1, 0)
  {
    if |lines| == 0 then [] else [Entry(lines[0].product, 1, 0)] + LineOccurrences(lines[1..])
  }

  /** The aggregation of `getFrequentlyBoughtTogether`: at most five other products,
      most co-occurrences first, each with the number of lines naming it in orders
      that contain `p`; no other product left out occurs more often than one listed. */
  function FrequentlyBoughtTogether(orders: seq<Orders.Order>, p: Key): (r: seq<Tally>)
    ensures |r| <= TogetherLimit
    ensures SortedDesc(r)
    ensures NoDuplicates(KeysOf(r))
    ensures p !in KeysOf(r)
    ensures forall i :: 0 <= i < |r| ==>
              HasKey(TogetherEntries(orders, p), r[i].key) &&
              r[i].count == CountOf(TogetherEntries(orders, p), r[i].key)
    ensures forall k :: k != p && HasKey(TogetherEntries(orders, p), k) && k !in KeysOf(r) ==>
              |r| == TogetherLimit &&
              forall i :: 0 <= i < |r| ==> r[i].count >= CountOf(TogetherEntries(orders, p), k)
  {
    var es := TogetherEntries(orders, p);
    RankOthers(es, p, TogetherLimit);
    Top(DropKey(GroupBy(es), p), TogetherLimit)
  }

  /** The groups of `es` other than `p`: sums over `es`, every other key, not `p`. */
  lemma OtherGroups(es: seq<Entry>, p: Key)
    ensures SumsOf(DropKey(GroupBy(es), p), es)
    ensures forall k :: k != p && HasKey(es, k) ==> k in KeysOf(DropKey(GroupBy(es), p))
    ensures forall t :: t in DropKey(GroupBy(es), p) ==> t.key != p
  {
    var groups := GroupBy(es);
    SubGroups(groups, DropKey(groups, p), es);
    DropKeyKeys(groups, p);
  }

  /** The top `n` groups of `es` other than `p`: sums over `es`, without `p`, and
      leaving out only keys that count no more than every listed one. */
  lemma RankOthers(es: seq<Entry>, p: Key, n: nat)
    ensures var r := Top(DropKey(GroupBy(es), p), n);
      && SumsOf(r, es)
      && p !in KeysOf(r)
      && (forall k :: k != p && HasKey(es, k) && k !in KeysOf(r) ==>
            |r| == n && forall i :: 0 <= i < |r| ==> r[i].count >= CountOf(es, k))
  {
    var others := DropKey(GroupBy(es), p);
    var r := Top(others, n);
    OtherGroups(es, p);
    SubGroups(others, r, es);
    OthersLeftOut(es, p, n);
    forall i | 0 <= i < |r| ensures KeysOf(r)[i] != p {
      assert r[i] in others;
    }
  }

  /** A key other than `p` left out of the top `n` counts no more than any listed. */
  lemma OthersLeftOut(es: seq<Entry>, p: Key, n: nat)
    ensures var r := Top(DropKey(GroupBy(es), p), n);
      forall k :: k != p && HasKey(es, k) && k !in KeysOf(r) ==>
        |r| == n && forall i :: 0 <= i < |r| ==> r[i].count >= CountOf(es, k)
  {
    var others := DropKey(GroupBy(es), p);
    var r := Top(others, n);
    OtherGroups(es, p);
    forall k | k != p && HasKey(es, k) && k !in KeysOf(r)
      ensures |r| == n && forall i :: 0 <= i < |r| ==> r[i].count >= CountOf(es, k)
    {
      TopLeavesOutOnlySmaller(others, n, es, k);
    }
  }

  // ---- the uncast pipeline ----

  /** A value as MongoDB compares it: references are stored as ObjectIds, while a
      route parameter is a string. The two never compare equal. */
  datatype BsonValue = ObjectIdValue(hex: string) | StringValue(s: string)

  /** The stored vendor reference of an order. */
  function StoredVendor(o: Orders.Order): Option<BsonValue> {
    match o.vendor
    case None => None
    case Some(v) => Some(ObjectIdValue(v))
  }

  /** `getBestSellingProducts` as written: `Order.aggregate` does not cast its
      pipeline, so `$match: { vendor: vendorId }` compares the string parameter with
      the stored ObjectIds. */
  function SaleEntriesAsWritten(orders: seq<Orders.Order>, vendor: string): seq<Entry> {
    if |orders| == 0 then []
    else
      var o := orders[|orders| - 1];
      SaleEntriesAsWritten(orders[..|orders| - 1], vendor) +
        (if StoredVendor(o) == Some(StringValue(vendor)) then LineSales(o.products) else [])
  }

  /** As written, the ranking is empty whatever the orders. */
  function BestSellingProductsAsWritten(orders: seq<Orders.Order>, vendor: string): (r: seq<Tally>)
    ensures r == []
  {
    BestSellersAsWrittenAlwaysEmpty(orders, vendor);
    Top(GroupBy(SaleEntriesAsWritten(orders, vendor)), BestSellerLimit)
  }

  /** No stored order matches the uncast `$match`. */
  lemma {:induction false} BestSellersAsWrittenAlwaysEmpty(orders: seq<Orders.Order>, vendor: string)
    ensures SaleEntriesAsWritten(orders, vendor) == []
  {
    if |orders| > 0 {
      BestSellersAsWrittenAlwaysEmpty(orders[..|orders| - 1], vendor);
    }
  }

  /** An order of the vendor with a single line: with the parameter cast to an
      ObjectId, that line's product is ranked with its units and revenue, where the
      handler as written returns nothing. */
  lemma BestSellersDiscrepancy(o: Orders.Order, vendor: string)
    requires o.vendor == Some(vendor) && |o.products| == 1
    ensures var l := o.products[0];
            BestSellingProducts([o], vendor) == [Tally(l.product, l.quantity, l.price * l.quantity)] &&
            BestSellingProductsAsWritten([o], vendor) == []
  {
    var l := o.products[0];
    var e := Entry(l.product, l.quantity, l.price * l.quantity);
    assert SaleEntries([o], vendor) == [e] by {
      assert [o][..0] == [];
      assert LineSales(o.products) == [e];
    }
    GroupSingle(e);
    TopSingleton(Tally(e.key, e.count, e.revenue), BestSellerLimit);
    BestSellersAsWrittenAlwaysEmpty([o], vendor);
  }

  lemma GroupSingle(e: Entry)
    ensures GroupBy([e]) == [Tally(e.key, e.count, e.revenue)]
  {
    assert [e][..0] == [];
  }

  lemma GroupPair(e1: Entry, e2: Entry)
    requires e1.key != e2.key
    ensures GroupBy([e1, e2]) == [Tally(e1.key, e1.count, e1.revenue), Tally(e2.key, e2.count, e2.revenue)]
  {
    assert [e1, e2][..1] == [e1];
    GroupSingle(e1);
  }

  lemma TopSingleton(t: Tally, n: nat)
    requires n >= 1
    ensures Top([t], n) == [t]
  {
    var r := Top([t], n);
    assert r[0] in multiset(r);
  }

  /** `getFrequentlyBoughtTogether` as written: `$match: { 'products.product': p }`
      compares the string parameter with the stored ObjectIds, so no order is
      selected. */
  predicate ContainsAsWritten(o: Orders.Order, p: Key) {
    exists i :: 0 <= i < |o.products| && ObjectIdValue(o.products[i].product) == StringValue(p)
  }

  function TogetherEntriesAsWritten(orders: seq<Orders.Order>, p: Key): seq<Entry> {
    if |orders| == 0 then []
    else
      var o := orders[|orders| - 1];
      TogetherEntriesAsWritten(orders[..|orders| - 1], p) + (if ContainsAsWritten(o, p) then LineOccurrences(o.products) else [])
  }

  /** The second stage as written, `$match: { _id: { $ne: p } }`: each group key is
      an ObjectId and `p` a string, so no group is dropped. */
  function DropKeyAsWritten(ts: seq<Tally>, p: Key): (r: seq<Tally>) {
    if |ts| == 0 then []
    else
      var rest := DropKeyAsWritten(ts[1..], p);
      if ObjectIdValue(ts[0].key) == StringValue(p) then rest else [ts[0]] + rest
  }

  lemma {:induction false} DropKeyAsWrittenKeepsAll(ts: seq<Tally>, p: Key)
    ensures DropKeyAsWritten(ts, p) == ts
  {
    if |ts| > 0 {
      DropKeyAsWrittenKeepsAll(ts[1..], p);
      assert ts == [ts[0]] + ts[1..];
    }
  }

  /** As written, the ranking is empty whatever the orders. */
  function FrequentlyBoughtTogetherAsWritten(orders: seq<Orders.Order>, p: Key): (r: seq<Tally>)
    ensures r == []
  {
    TogetherAsWrittenAlwaysEmpty(orders, p);
    Top(DropKeyAsWritten(GroupBy(TogetherEntriesAsWritten(orders, p)), p), TogetherLimit)
  }

  /** No stored order matches the uncast `$match`. */
  lemma {:induction false} TogetherAsWrittenAlwaysEmpty(orders: seq<Orders.Order>, p: Key)
    ensures TogetherEntriesAsWritten(orders, p) == []
  {
    if |orders| > 0 {
      TogetherAsWrittenAlwaysEmpty(orders[..|orders| - 1], p);
    }
  }

  /** An order of two lines, the first for `p`: with the parameter cast, the other
      product is ranked beside `p` with one co-occurrence; as written nothing is. */
  lemma TogetherDiscrepancy(o: Orders.Order, p: Key)
    requires |o.products| == 2 && o.products[0].product == p && o.products[1].product != p
    ensures FrequentlyBoughtTogether([o], p) == [Tally(o.products[1].product, 1, 0)] &&
            FrequentlyBoughtTogetherAsWritten([o], p) == []
  {
    var e2 := Entry(o.products[1].product, 1, 0);
    TogetherEntriesPair(o, p);
    GroupPair(Entry(p, 1, 0), e2);
    DropLeadingKey(p, Tally(e2.key, 1, 0));
    TopSingleton(Tally(e2.key, 1, 0), TogetherLimit);
    TogetherAsWrittenAlwaysEmpty([o], p);
  }

  /** Casting only the first stage is not enough: the uncast `$ne` stage then keeps
      `p` in its own ranking. */
  lemma HalfCastKeepsQueried(o: Orders.Order, p: Key)
    requires |o.products| == 2 && o.products[0].product == p && o.products[1].product != p
    ensures p in KeysOf(Top(DropKeyAsWritten(GroupBy(TogetherEntries([o], p)), p), TogetherLimit))
  {
    var e2 := Entry(o.products[1].product, 1, 0);
    var groups := [Tally(p, 1, 0), Tally(e2.key, 1, 0)];
    TogetherEntriesPair(o, p);
    GroupPair(Entry(p, 1, 0), e2);
    DropKeyAsWrittenKeepsAll(groups, p);
    var r := Top(groups, TogetherLimit);
    SubmultisetSameSize(r, groups);
    assert Tally(p, 1, 0) in multiset(r);
    var i :| 0 <= i < |r| && r[i] == Tally(p, 1, 0);
    assert KeysOf(r)[i] == p;
  }

  lemma TogetherEntriesPair(o: Orders.Order, p: Key)
    requires |o.products| == 2 && o.products[0].product == p
    ensures TogetherEntries([o], p) == [Entry(p, 1, 0), Entry(o.products[1].product, 1, 0)]
  {
    assert Contains(o, p);
    assert [o][..0] == [];
    assert LineOccurrences(o.products) == [Entry(p, 1, 0), Entry(o.products[1].product, 1, 0)];
  }

  lemma DropLeadingKey(p: Key, t: Tally)
    requires t.key != p
    ensures DropKey([Tally(p, 1, 0), t], p) == [t]
  {
    assert [Tally(p, 1, 0), t][1..] == [t];
    assert [t][1..] == [];
  }

  // ---- the response of getFrequentlyBoughtTogether ----

  /** The response as written: `Product.find({ _id: { $in: ids } })` returns the
      ranked products in the collection's natural order, not in ranking order. */
  function TogetherResponseAsWritten(catalog: seq<Products.Product>, ranked: seq<Tally>): (r: seq<Products.Product>)
    ensures IsSubsequence(r, catalog)
    ensures forall i :: 0 <= i < |r| ==> r[i].id in KeysOf(ranked)
    ensures forall q :: q in catalog && q.id in KeysOf(ranked) ==> q in r
  {
    if |catalog| == 0 then []
    else
      var rest := TogetherResponseAsWritten(catalog[1..], ranked);
      SubsequenceOfTail(rest, catalog);
      if catalog[0].id in KeysOf(ranked) then [catalog[0]] + rest else rest
  }

  /** The response in ranking order: for each ranked id, the product carrying it,
      skipping ids no product carries. */
  function TogetherResponse(catalog: seq<Products.Product>, ranked: seq<Tally>): (r: seq<Products.Product>)
    ensures |r| <= |ranked|
    ensures forall i :: 0 <= i < |r| ==> r[i] in catalog && r[i].id in KeysOf(ranked)
  {
    if |ranked| == 0 then []
    else
      var rest := TogetherResponse(catalog, ranked[1..]);
      match Products.Find(catalog, ranked[0].key)
      case None => rest
      case Some(i) => [catalog[i]] + rest
  }

  function ProductIds(ps: seq<Products.Product>): (r: seq<Key>)
    ensures |r| == |ps| && forall i :: 0 <= i < |ps| ==> r[i] == ps[i].id
  {
    seq(|ps|, i requires 0 <= i < |ps| => ps[i].id)
  }

  /** The ids of the ranked response follow the ranking: they are the ranked keys
      with only the keys no product carries left out. */
  lemma TogetherResponseInRankOrder(catalog: seq<Products.Product>, ranked: seq<Tally>)
    ensures IsSubsequence(ProductIds(TogetherResponse(catalog, ranked)), KeysOf(ranked))
    ensures (forall i :: 0 <= i < |ranked| ==> Products.Find(catalog, ranked[i].key).Some?) ==>
              ProductIds(TogetherResponse(catalog, ranked)) == KeysOf(ranked)
  {
    ResponseIdsSubsequence(catalog, ranked);
    if forall i :: 0 <= i < |ranked| ==> Products.Find(catalog, ranked[i].key).Some? {
      ResponseIdsAll(catalog, ranked);
    }
  }

  lemma KeysOfCons(ranked: seq<Tally>)
    requires |ranked| > 0
    ensures KeysOf(ranked) == [ranked[0].key] + KeysOf(ranked[1..])
  {
  }

  lemma ProductIdsCons(p: Products.Product, rest: seq<Products.Product>)
    ensures ProductIds([p] + rest) == [p.id] + ProductIds(rest)
  {
  }

  lemma {:induction false} ResponseIdsSubsequence(catalog: seq<Products.Product>, ranked: seq<Tally>)
    ensures IsSubsequence(ProductIds(TogetherResponse(catalog, ranked)), KeysOf(ranked))
  {
    if |ranked| > 0 {
      var rest := TogetherResponse(catalog, ranked[1..]);
      ResponseIdsSubsequence(catalog, ranked[1..]);
      KeysOfCons(ranked);
      match Products.Find(catalog, ranked[0].key)
      case None =>
        SubsequenceOfTail(ProductIds(rest), KeysOf(ranked));
      case Some(i) =>
        ProductIdsCons(catalog[i], rest);
    }
  }

  lemma {:induction false} ResponseIdsAll(catalog: seq<Products.Product>, ranked: seq<Tally>)
    requires forall i :: 0 <= i < |ranked| ==> Products.Find(catalog, ranked[i].key).Some?
    ensures ProductIds(TogetherResponse(catalog, ranked)) == KeysOf(ranked)
  {
    if |ranked| > 0 {
      var tail := ranked[1..];
      assert forall i :: 0 <= i < |tail| ==> tail[i] == ranked[i + 1];
      ResponseIdsAll(catalog, tail);
      KeysOfCons(ranked);
      var k := Products.Find(catalog, ranked[0].key).value;
      ProductIdsCons(catalog[k], TogetherResponse(catalog, tail));
    }
  }

  /** Two products stored as A then B, ranked B (three co-occurrences) before A
      (one): the response as written lists A first. */
  lemma TogetherResponseOrderDiscrepancy()
    ensures var pa := Products.Product("A", 100, [], None, [], 1, Products.Active);
            var pb := Products.Product("B", 50, [], None, [], 1, Products.Active);
            var ranked := [Tally("B", 3, 0), Tally("A", 1, 0)];
            SortedDesc(ranked) &&
            TogetherResponseAsWritten([pa, pb], ranked) == [pa, pb] &&
            TogetherResponse([pa, pb], ranked) == [pb, pa]
  {
    var pa := Products.Product("A", 100, [], None, [], 1, Products.Active);
    var pb := Products.Product("B", 50, [], None, [], 1, Products.Active);
    var ranked := [Tally("B", 3, 0), Tally("A", 1, 0)];
    assert KeysOf(ranked) == ["B", "A"];
    assert [pa, pb][1..] == [pb];
    assert Products.Find([pa, pb], "B") == Some(1) by {
      assert Products.Find([pb], "B") == Some(0);
    }
    assert ranked[1..][1..] == [];
    assert KeysOf(ranked[1..]) == ["A"];
  }
}

=== FILE: userlists.dfy ===
/** The user's two product lists in controllers/userController.js: the
    recently-viewed list (`addToRecentlyViewed`) and the wishlist
    (`toggleWishlist`). */
module UserLists {
  import opened Common

  type ProductId = string

  /** How many products the recently-viewed list keeps. */
  const RecentlyViewedCap: nat := 10

  /** `addToRecentlyViewed`: drop earlier views of `p`, put `p` in front, keep the
      first ten. (The view timestamp is not modelled.) */
  function AddToRecentlyViewed(viewed: seq<ProductId>, p: ProductId): (r: seq<ProductId>)
    ensures 1 <= |r| <= RecentlyViewedCap
    ensures r[0] == p
    ensures Count(r, p) == 1
    ensures IsSubsequence(r[1..], viewed)
    ensures r[1..] == Take(Without(viewed, p), RecentlyViewedCap - 1)
  {
    var rest := Without(viewed, p);
    var r := Take([p] + rest, RecentlyViewedCap);
    var tail := Take(rest, RecentlyViewedCap - 1);
    assert r == [p] + tail;
    assert p !in tail;
    assert Count(r, p) == 1 + Count(tail, p);
    WithoutIsSubsequence(viewed, p);
    PrefixIsSubsequence(rest, |tail|);
    SubsequenceTransitive(tail, rest, viewed);
    r
  }

  datatype ViewError = NoRecentlyViewed  // `user.recentlyViewed` is undefined, so calling `filter` on it throws (500)

  /** `addToRecentlyViewed` as written. `stored` is what `user.recentlyViewed`
      reads: models/userModel.js declares no such path, so on every stored user it is
      absent, the handler throws before it saves, and nothing is stored. With the
      path declared, the handler computes AddToRecentlyViewed. */
  function AddToRecentlyViewedAsWritten(stored: Option<seq<ProductId>>, p: ProductId): (r: Result<seq<ProductId>, ViewError>)
    ensures stored.None? <==> r.Failure?
    ensures r.Success? ==> r.value == AddToRecentlyViewed(stored.value, p)
    ensures r.Success? ==> 1 <= |r.value| <= RecentlyViewedCap && r.value[0] == p
  {
    match stored
    case None => Failure(NoRecentlyViewed)
    case Some(viewed) => Success(AddToRecentlyViewed(viewed, p))
  }

  /** On a user as the schema stores it the handler as written always fails, while
      the intended list logic puts the product first. */
  lemma RecentlyViewedDiscrepancy(p: ProductId)
    ensures AddToRecentlyViewedAsWritten(None, p) == Failure(NoRecentlyViewed)
    ensures AddToRecentlyViewed([], p) == [p]
  {
  }

  /** The others keep their relative order, and every product viewed before
      survives as long as fewer than nine other distinct products precede it. */
  lemma RecentlyViewedKeepsRecent(viewed: seq<ProductId>, p: ProductId, i: nat)
    requires i < |Without(viewed, p)| && i < RecentlyViewedCap - 1
    ensures AddToRecentlyViewed(viewed, p)[i + 1] == Without(viewed, p)[i]
  {
  }

  /** Viewing the same product twice in a row is viewing it once. */
  lemma RecentlyViewedIdempotent(viewed: seq<ProductId>, p: ProductId)
    ensures AddToRecentlyViewed(AddToRecentlyViewed(viewed, p), p) == AddToRecentlyViewed(viewed, p)
  {
    var r := AddToRecentlyViewed(viewed, p);
    var tail := r[1..];
    assert p !in tail by {
      assert Count(r, p) == 1 + Count(tail, p) by { assert r == [r[0]] + tail; }
    }
    WithoutHead(r, p);
    WithoutAbsentIsSame(tail, p);
  }

  lemma WithoutHead(s: seq<ProductId>, p: ProductId)
    requires |s| > 0 && s[0] == p
    ensures Without(s, p) == Without(s[1..], p)
  {
  }

  lemma {:induction false} WithoutAbsentIsSame(s: seq<ProductId>, p: ProductId)
    requires p !in s
    ensures Without(s, p) == s
  {
    if |s| > 0 {
      WithoutAbsentIsSame(s[1..], p);
    }
  }

  /** Viewing keeps a list free of duplicates. */
  lemma {:induction false} RecentlyViewedNoDuplicates(viewed: seq<ProductId>, p: ProductId)
    requires NoDuplicates(viewed)
    ensures NoDuplicates(AddToRecentlyViewed(viewed, p))
  {
    var r := AddToRecentlyViewed(viewed, p);
    var rest := Without(viewed, p);
    WithoutKeepsNoDuplicates(viewed, p);
    forall i, j | 0 <= i < j < |r| ensures r[i] != r[j] {
      if i == 0 {
        assert r[j] in r[1..];
      } else {
        assert r[i] == rest[i - 1] && r[j] == rest[j - 1];
      }
    }
  }

  lemma {:induction false} WithoutKeepsNoDuplicates(s: seq<ProductId>, p: ProductId)
    requires NoDuplicates(s)
    ensures NoDuplicates(Without(s, p))
  {
    if |s| > 0 {
      assert NoDuplicates(s[1..]);
      WithoutKeepsNoDuplicates(s[1..], p);
      var w := Without(s[1..], p);
      if s[0] != p {
        assert s[0] !in s[1..];
        assert s[0] !in w;
        var r := [s[0]] + w;
        forall i, j | 0 <= i < j < |r| ensures r[i] != r[j] {
          if i == 0 { assert r[j] in w; }
          else { assert r[i] == w[i - 1] && r[j] == w[j - 1]; }
        }
      }
    }
  }

  datatype WishlistError = NoWishlist  // the user has no wishlist document; reading its products throws (500)

  /** `toggleWishlist`: append `p` when `indexOf` finds no entry, otherwise splice
      out the first entry. */
  function ToggleWishlist(wishlist: Option<seq<ProductId>>, p: ProductId): (r: Result<seq<ProductId>, WishlistError>)
    ensures wishlist.None? <==> r.Failure?
    ensures r.Success? && p !in wishlist.value ==> r.value == wishlist.value + [p]
    ensures r.Success? && p in wishlist.value ==>
              |r.value| == |wishlist.value| - 1 && Count(r.value, p) == Count(wishlist.value, p) - 1
    ensures r.Success? && p in wishlist.value ==>
              var i := IndexOf(wishlist.value, p);
              p !in wishlist.value[..i] && r.value == wishlist.value[..i] + wishlist.value[i + 1..]
  {
    match wishlist
    case None => Failure(NoWishlist)
    case Some(products) =>
      if p !in products then Success(products + [p])
      else
        var i := IndexOf(products, p);
        CountRemoveAt(products, i);
        Success(RemoveAt(products, i))
  }

  lemma CountRemoveAt(s: seq<ProductId>, i: nat)
    requires i < |s|
    ensures Count(RemoveAt(s, i), s[i]) == Count(s, s[i]) - 1
    ensures forall y :: y != s[i] ==> Count(RemoveAt(s, i), y) == Count(s, y)
  {
    forall y ensures Count(RemoveAt(s, i), y) == Count(s, y) - (if y == s[i] then 1 else 0) {
      CountRemoveAtOne(s, i, y);
    }
  }

  /** Taking out position `i` lowers the count of its element by one and leaves
      every other count alone. */
  lemma {:induction false} CountRemoveAtOne(s: seq<ProductId>, i: nat, y: ProductId)
    requires i < |s|
    ensures Count(RemoveAt(s, i), y) == Count(s, y) - (if y == s[i] then 1 else 0)
  {
    var r := RemoveAt(s, i);
    if i > 0 {
      CountRemoveAtOne(s[1..], i - 1, y);
      assert r == [s[0]] + RemoveAt(s[1..], i - 1);
      assert r[1..] == RemoveAt(s[1..], i - 1);
    } else {
      assert r == s[1..];
    }
  }

  /** On a duplicate-free wishlist the toggle flips the membership of `p`, touches
      no other product and keeps the list duplicate-free. */
  lemma ToggleWishlistFlips(products: seq<ProductId>, p: ProductId, y: ProductId)
    requires NoDuplicates(products)
    ensures (p in ToggleWishlist(Some(products), p).value) <==> p !in products
    ensures y != p ==> Count(ToggleWishlist(Some(products), p).value, y) == Count(products, y)
    ensures NoDuplicates(ToggleWishlist(Some(products), p).value)
  {
    var r := ToggleWishlist(Some(products), p).value;
    if p !in products {
      CountAppend(products, p, y);
      assert NoDuplicates(r) by {
        forall i, j | 0 <= i < j < |r| ensures r[i] != r[j] {
          if j == |products| { assert r[i] == products[i]; assert r[i] in products; }
        }
      }
    } else {
      var i := IndexOf(products, p);
      CountRemoveAt(products, i);
      assert Count(products, p) == 1 by { NoDuplicatesCountOne(products, i); }
      assert NoDuplicates(r) by {
        forall a, b | 0 <= a < b < |r| ensures r[a] != r[b] {
          var a' := if a < i then a else a + 1;
          var b' := if b < i then b else b + 1;
          assert r[a] == products[a'] && r[b] == products[b'];
        }
      }
    }
  }

  lemma {:induction false} NoDuplicatesCountOne(s: seq<ProductId>, i: nat)
    requires NoDuplicates(s) && i < |s|
    ensures Count(s, s[i]) == 1
  {
    CountRemoveAt(s, i);
    var r := RemoveAt(s, i);
    forall k | 0 <= k < |r| ensures r[k] != s[i] {
      if k < i { assert r[k] == s[k]; } else { assert r[k] == s[k + 1]; }
    }
    assert s[i] !in r;
  }

  /** Toggling a product that is not on the wishlist twice restores the wishlist. */
  lemma ToggleWishlistTwice(products: seq<ProductId>, p: ProductId)
    requires p !in products
    ensures ToggleWishlist(Some(ToggleWishlist(Some(products), p).value), p) == Success(products)
  {
    var r := products + [p];
    assert p in r;
    var i := IndexOf(r, p);
    assert r[..|products|] == products;
    assert i == |products|;
    assert RemoveAt(r, i) == products;
  }
}

=== FILE: vendors.dfy ===
/** Vendor records (models/vendorModel.js) and the vendor handlers of
    controllers/vendorController.js that derive or fold values:
    `updateRegistrationStatus`, `updateAvailabilityStatus`, `updateVendorRatings`
    and `getPerformanceMetrics`. The vendor store is a map from vendor id to
    record. A body field the request leaves out is taken as absent from the
    update, so the stored value is kept. */
module Vendors {
  import opened Common
  import Orders

  type VendorId = string

  datatype RegStatus = Pending | Approved | Rejected

  /** The stored spelling of each status. */
  function RegStatusName(st: RegStatus): string {
    match st
    case Pending => "Pending"
    case Approved => "Approved"
    case Rejected => "Rejected"
  }

  /** The enum validator of `registrationStatus`: exactly the three spellings, each
      stored as spelled. */
  function ParseRegStatus(s: string): (r: Option<RegStatus>)
    ensures r.Some? <==> s in {"Pending", "Approved", "Rejected"}
    ensures r.Some? ==> RegStatusName(r.value) == s
  {
    if s == "Pending" then Some(Pending)
    else if s == "Approved" then Some(Approved)
    else if s == "Rejected" then Some(Rejected)
    else None
  }

  /** A stored status reads back as itself. */
  lemma ParseRegStatusName(st: RegStatus)
    ensures ParseRegStatus(RegStatusName(st)) == Some(st)
  {
  }

  /** The `ratings` sub-document: an average kept as an exact rational and the
      number of reviews folded into it. */
  datatype Ratings = Ratings(averageRating: real, totalReviews: nat)

  /** The fields of a vendor these handlers read or write; a new vendor is
      `Pending`, inactive, and has no reviews. */
  datatype Vendor = Vendor(
    registrationStatus: RegStatus,
    registrationComments: Option<string>,
    isActive: bool,
    ratings: Ratings)

  const NewVendor: Vendor := Vendor(Pending, None, false, Ratings(0.0, 0))

  datatype VendorError =
    | ValidationFailed  // 400: a validator refused the update
    | VendorNotFound    // 404 'No vendor found with that ID'

  /** `updateRegistrationStatus`: the update validators run first, so a status
      outside the enum is refused even for an unknown id; otherwise the status and
      comments are stored and the vendor is active exactly when the requested
      status is 'Approved'. */
  function UpdateRegistrationStatus(vendors: map<VendorId, Vendor>, id: VendorId, status: Option<string>, comments: Option<string>)
    : (r: Result<map<VendorId, Vendor>, VendorError>)
    ensures status.Some? && ParseRegStatus(status.value).None? ==> r == Failure(ValidationFailed)
    ensures (status.None? || ParseRegStatus(status.value).Some?) && id !in vendors ==> r == Failure(VendorNotFound)
    ensures r.Success? <==> (status.None? || ParseRegStatus(status.value).Some?) && id in vendors
    ensures r.Success? ==>
              r.value.Keys == vendors.Keys &&
              (forall k :: k in vendors && k != id ==> r.value[k] == vendors[k]) &&
              (r.value[id].isActive <==> status == Some("Approved")) &&
              r.value[id].registrationStatus == (if status.Some? then ParseRegStatus(status.value).value else vendors[id].registrationStatus) &&
              r.value[id].registrationComments == (if comments.Some? then comments else vendors[id].registrationComments) &&
              r.value[id].ratings == vendors[id].ratings
  {
    if status.Some? && ParseRegStatus(status.value).None? then Failure(ValidationFailed)
    else if id !in vendors then Failure(VendorNotFound)
    else
      var v := vendors[id];
      var v' := v.(registrationStatus := if status.Some? then ParseRegStatus(status.value).value else v.registrationStatus,
                   registrationComments := if comments.Some? then comments else v.registrationComments,
                   isActive := status == Some("Approved"));
      Success(vendors[id := v'])
  }

  /** A vendor is active exactly when it is approved, after any update that names a
      status; one that names none deactivates the vendor but leaves its status,
      so an approved vendor can end up inactive. */
  lemma RegistrationActiveIffApproved(vendors: map<VendorId, Vendor>, id: VendorId, status: Option<string>, comments: Option<string>)
    requires UpdateRegistrationStatus(vendors, id, status, comments).Success?
    ensures var v := UpdateRegistrationStatus(vendors, id, status, comments).value[id];
            status.Some? ==> (v.isActive <==> v.registrationStatus == Approved)
    ensures var v := UpdateRegistrationStatus(vendors, id, status, comments).value[id];
            status.None? ==> !v.isActive && v.registrationStatus == vendors[id].registrationStatus
  {
  }

  /** `updateAvailabilityStatus`: 404 for an unknown id; otherwise the update is
      applied to a vendor whose schema declares neither `isAvailable` nor
      `unavailabilityReason`, so strict mode drops both paths and the stored vendor
      is returned unchanged. */
  function UpdateAvailabilityStatus(vendors: map<VendorId, Vendor>, id: VendorId, isAvailable: bool, reason: Option<string>)
    : (r: Result<map<VendorId, Vendor>, VendorError>)
    ensures r.Success? <==> id in vendors
    ensures r.Failure? ==> r.error == VendorNotFound
    ensures r.Success? ==> r.value == vendors
  {
    if id !in vendors then Failure(VendorNotFound) else Success(vendors)
  }

  /** Folds one rating into the average: one more review, and the new average
      times the new count is the old average times the old count plus the rating. */
  function Rate(r: Ratings, rating: real): (r': Ratings)
    ensures r'.totalReviews == r.totalReviews + 1
    ensures r'.averageRating * (r'.totalReviews as real) == r.averageRating * (r.totalReviews as real) + rating
  {
    var n := (r.totalReviews + 1) as real;
    var sum := r.averageRating * (r.totalReviews as real) + rating;
    assert (sum / n) * n == sum;
    Ratings(sum / n, r.totalReviews + 1)
  }

  /** The schema's bounds on `ratings.averageRating`, checked by `save()`. */
  predicate RatingInRange(x: real) {
    0.0 <= x <= 5.0
  }

  /** `updateVendorRatings`: 404 for an unknown id; otherwise the rating is folded
      in and the vendor saved, which fails validation (400, nothing stored) when
      the new average leaves [0, 5]. Without a `rating` in the body the new average
      is NaN, which the Number cast rejects on save: 400 as well. */
  function UpdateVendorRatings(vendors: map<VendorId, Vendor>, id: VendorId, rating: Option<real>)
    : (r: Result<map<VendorId, Vendor>, VendorError>)
    ensures id !in vendors ==> r == Failure(VendorNotFound)
    ensures id in vendors && rating.None? ==> r == Failure(ValidationFailed)
    ensures r.Success? <==>
              id in vendors && rating.Some? && RatingInRange(Rate(vendors[id].ratings, rating.value).averageRating)
    ensures r.Failure? && id in vendors ==> r.error == ValidationFailed
    ensures r.Success? ==>
              r.value.Keys == vendors.Keys &&
              (forall k :: k in vendors && k != id ==> r.value[k] == vendors[k]) &&
              r.value[id].ratings.totalReviews == vendors[id].ratings.totalReviews + 1 &&
              r.value[id].ratings.averageRating * (r.value[id].ratings.totalReviews as real) ==
                vendors[id].ratings.averageRating * (vendors[id].ratings.totalReviews as real) + rating.value &&
              r.value[id].registrationStatus == vendors[id].registrationStatus &&
              r.value[id].isActive == vendors[id].isActive
  {
    if id !in vendors then Failure(VendorNotFound)
    else if rating.None? then Failure(ValidationFailed)
    else
      var rated := Rate(vendors[id].ratings, rating.value);
      if !RatingInRange(rated.averageRating) then Failure(ValidationFailed)
      else Success(vendors[id := vendors[id].(ratings := rated)])
  }

  /** An average inside [0, 5] stays inside after folding in a rating inside [0, 5],
      so such a rating is always accepted. */
  lemma RateStaysInRange(r: Ratings, rating: real)
    requires RatingInRange(r.averageRating) && RatingInRange(rating)
    ensures RatingInRange(Rate(r, rating).averageRating)
  {
    var n := r.totalReviews as real;
    var sum := r.averageRating * n + rating;
    ScaleBounds(r.averageRating, n);
    assert Rate(r, rating).averageRating == sum / (n + 1.0);
    assert 5.0 * (n + 1.0) == 5.0 * n + 5.0;
    assert sum <= 5.0 * n + 5.0;
    QuotientBounds(sum, n + 1.0);
  }

  lemma ScaleBounds(x: real, n: real)
    requires 0.0 <= x <= 5.0 && n >= 0.0
    ensures 0.0 <= x * n <= 5.0 * n
  {
  }

  lemma QuotientBounds(s: real, m: real)
    requires m > 0.0 && 0.0 <= s <= 5.0 * m
    ensures 0.0 <= s / m <= 5.0
  {
  }

  lemma QuotientOfProduct(x: real, n: real, s: real)
    requires n != 0.0 && x * n == s
    ensures x == s / n
  {
  }

  function Sum(xs: seq<real>): real {
    if |xs| == 0 then 0.0 else Sum(xs[..|xs| - 1]) + xs[|xs| - 1]
  }

  /** Folds a sequence of ratings in order, one call after another. */
  function RateAll(r: Ratings, ratings: seq<real>): (r': Ratings)
    ensures r'.totalReviews == r.totalReviews + |ratings|
  {
    if |ratings| == 0 then r else Rate(RateAll(r, ratings[..|ratings| - 1]), ratings[|ratings| - 1])
  }

  /** Folding ratings one at a time keeps the exact running mean: starting from any
      ratings record, the final average times the final count is the starting
      average times the starting count plus the sum of the ratings. From a new
      vendor this makes the average the mean of all ratings received. */
  lemma {:induction false} RateAllIsMean(r: Ratings, ratings: seq<real>)
    ensures RateAll(r, ratings).averageRating * (RateAll(r, ratings).totalReviews as real) ==
              r.averageRating * (r.totalReviews as real) + Sum(ratings)
  {
    if |ratings| > 0 {
      RateAllIsMean(r, ratings[..|ratings| - 1]);
    }
  }

  /** From a record with no reviews (a new vendor's), the count after the ratings is
      their number and the average is their mean. */
  lemma NewVendorAverageIsMean(r: Ratings, ratings: seq<real>)
    requires r.totalReviews == 0 && |ratings| > 0
    ensures RateAll(r, ratings).totalReviews == |ratings|
    ensures RateAll(r, ratings).averageRating == Sum(ratings) / (RateAll(r, ratings).totalReviews as real)
  {
    var r' := RateAll(r, ratings);
    var a := r'.averageRating;
    var m := r'.totalReviews;
    assert a * (m as real) == Sum(ratings) by {
      RateAllIsMean(r, ratings);
      WeightFromEmptyStart(a, m, r.averageRating, r.totalReviews, Sum(ratings));
    }
    QuotientOfProduct(a, m as real, Sum(ratings));
  }

  /** A weighted total that started from no reviews is the plain sum. */
  lemma WeightFromEmptyStart(a: real, m: nat, a0: real, m0: nat, s: real)
    requires m0 == 0 && a * (m as real) == a0 * (m0 as real) + s
    ensures a * (m as real) == s
  {
    assert a0 * (m0 as real) == 0.0;
  }

  /** The orders `Order.find({ vendor })` returns, in store order. */
  function VendorOrders(orders: seq<Orders.Order>, vendor: VendorId): (r: seq<Orders.Order>)
    ensures |r| <= |orders|
    ensures forall k :: 0 <= k < |r| ==> r[k].vendor == Some(vendor)
    ensures forall o :: o in orders && o.vendor == Some(vendor) ==> o in r
    ensures IsSubsequence(r, orders)
  {
    if |orders| == 0 then []
    else
      var init := orders[..|orders| - 1];
      var last := orders[|orders| - 1];
      var rest := VendorOrders(init, vendor);
      assert orders == init + [last];
      SubsequenceSnoc(rest, init, last);
      if last.vendor == Some(vendor) then rest + [last] else rest
  }

  /** The selection keeps every copy: each of the vendor's orders occurs in it as
      often as in the store, and no other order occurs at all. */
  lemma {:induction false} VendorOrdersCounts(orders: seq<Orders.Order>, vendor: VendorId, o: Orders.Order)
    ensures Count(VendorOrders(orders, vendor), o) == (if o.vendor == Some(vendor) then Count(orders, o) else 0)
  {
    if |orders| > 0 {
      var init := orders[..|orders| - 1];
      var last := orders[|orders| - 1];
      assert orders == init + [last];
      VendorOrdersCounts(init, vendor, o);
      CountAppend(init, last, o);
      if last.vendor == Some(vendor) {
        CountAppend(VendorOrders(init, vendor), last, o);
      }
    }
  }

  /** Sum of `totalAmount`. */
  function Revenue(orders: seq<Orders.Order>): int {
    if |orders| == 0 then 0 else Revenue(orders[..|orders| - 1]) + orders[|orders| - 1].totalAmount
  }

  lemma RevenueAppend(orders: seq<Orders.Order>, o: Orders.Order)
    ensures Revenue(orders + [o]) == Revenue(orders) + o.totalAmount
  {
    assert (orders + [o])[..|orders|] == orders;
  }

  /** `getPerformanceMetrics`: the number of the vendor's orders, the sum of their
      totals, and the mean order value, which is 0 when the vendor has no orders. */
  method PerformanceMetrics(orders: seq<Orders.Order>, vendor: VendorId)
    returns (totalOrders: nat, totalRevenue: int, averageOrderValue: real)
    ensures totalOrders == |VendorOrders(orders, vendor)|
    ensures totalRevenue == Revenue(VendorOrders(orders, vendor))
    ensures totalOrders == 0 ==> averageOrderValue == 0.0
    ensures totalOrders > 0 ==> averageOrderValue * (totalOrders as real) == totalRevenue as real
  {
    totalOrders, totalRevenue, averageOrderValue := Summarize(VendorOrders(orders, vendor));
  }

  /** The metrics object over the orders `Order.find` returned. */
  method Summarize(mine: seq<Orders.Order>) returns (totalOrders: nat, totalRevenue: int, averageOrderValue: real)
    ensures totalOrders == |mine|
    ensures totalRevenue == Revenue(mine)
    ensures totalOrders == 0 ==> averageOrderValue == 0.0
    ensures totalOrders > 0 ==> averageOrderValue * (totalOrders as real) == totalRevenue as real
  {
    totalOrders := |mine|;
    totalRevenue := SumTotals(mine);
    averageOrderValue := Mean(totalRevenue, totalOrders);
  }

  /** `orders.reduce((sum, order) => sum + order.totalAmount, 0)`, as a loop. */
  method SumTotals(orders: seq<Orders.Order>) returns (sum: int)
    ensures sum == Revenue(orders)
  {
    sum := 0;
    var i := 0;
    while i < |orders|
      invariant 0 <= i <= |orders|
      invariant sum == Revenue(orders[..i])
    {
      assert orders[..i + 1][..i] == orders[..i];
      sum := sum + orders[i].totalAmount;
      i := i + 1;
    }
    assert orders[..|orders|] == orders;
  }

  /** `sum / count`, or 0 when there is nothing to average. */
  function Mean(sum: int, count: nat): (m: real)
    ensures count == 0 ==> m == 0.0
    ensures count > 0 ==> m * (count as real) == sum as real
  {
    if count == 0 then 0.0
    else
      QuotientTimesDivisor(sum as real, count as real);
      sum as real / count as real
  }

  lemma QuotientTimesDivisor(s: real, n: real)
    requires n != 0.0
    ensures (s / n) * n == s
  {
  }

  /** Orders of other vendors do not move a vendor's metrics. */
  lemma {:induction false} VendorOrdersIgnoreOthers(orders: seq<Orders.Order>, o: Orders.Order, vendor: VendorId)
    requires o.vendor != Some(vendor)
    ensures VendorOrders(orders + [o], vendor) == VendorOrders(orders, vendor)
  {
    assert (orders + [o])[..|orders|] == orders;
  }
}
